=== FILE: README.md ===
# x-surface: a Dafny model of the infinite-canvas arithmetic

x-surface is a web component for an infinite, zoomable and pannable canvas. Items sit on a
cell grid and snap to it when they are dragged or resized. The view is a
uniform-scale `DOMMatrix`: pan, pinch and wheel change it, and it can be
centred on one item, on the next item in reading order, or on all items. A
background grid of pattern-gated lines is drawn beneath the items. The
code exists in two generations:

- the older single file `src/surface.ts`;
- the newer `src/surface.tsx` with `src/surface-move.ts`,
  `src/surface-resize.ts` and `src/surface-grid.ts`.

This project models the number and string logic of both generations as pure Dafny functions over real-valued records. It also proves what that logic promises:

- snapped edges land on active grid lines within the threshold;
- resizes never go below 10 pixels;
- pan and wheel keep the point under the pointer fixed, and pinch makes the point under the two pointers follow them;
- the centering cycle wraps in both directions;
- the easing animation converges;
- the grid walk strokes exactly the active lines on the canvas.

Modules, one per file:

- `Wrappers`: `Option` and `Result`.
- `Geometry`: points, rectangles and the six-component `DOMMatrix`.
  - `translate` post-multiplies.
  - A uniform matrix has `a == d > 0` and `b == c == 0`.
  - `normalize` maps a screen point to the world.
  - Rectangles can be united and intersected.
- `Util`: `src/util.ts`.
  - `modwrap` is floor modulo, built on JavaScript's truncating `%`.
  - `round` is `Math.round(v * p) / p` with `Math.round(v) = floor(v + 1/2)`.
  - The squared distance.
- `Snap`: the shared snap rule of the move and resize handles.
  - A rounded line is eligible when its digit in the periodic pattern string is a non-zero digit.
  - Its distance to the raw edge must be strictly below `cell × threshold`.
- `Move`, `Resize`: the newer handles.
  - grab, pointer-move and pointer-up;
  - the shifted z-index counter with 32-bit wrap-around;
  - the lift;
  - the `hasMoved` gate.
- `LegacyHandles`: the handles of the older surface, including the dataset they persist.
- `Slotted`: placement of slotted children from their `data-*` coordinates.
- `Gesture`: the pointer state machine of the newer surface and the pointer counter of the older one.
- `Viewport`: pan and pinch (newer surface), and wheel zoom and `getCenterMatrix` (both generations).
- `Centering`: the centering controller.
  - cycling through items sorted by position;
  - the Escape toggle;
  - centring the view;
  - the per-component easing of the older surface, with its settle snap and a terminating animation loop.
- `Grid`: the grid-line walk of `src/surface-grid.ts` as loop methods with invariants, and the zoom/offset interpolation.

Inputs that come from the browser or from floating-point formulas are parameters:

- the wheel factor `z`, whether finite, NaN or infinite;
- the pinch distance;
- the line width;
- which button is held and whether Ctrl is pressed;
- whether the press hit the minimap;
- the frame size.

## Model

| member | source | states |
|---|---|---|
| Util.JsRem | src/util.ts:8 | JavaScript's `%`: the remainder is smaller than the divisor in magnitude and has the sign of the dividend |
| Util.ModWrap | src/util.ts:8 | for N > 0, `modwrap(x, N)` lies in [0, N) |
| Util.ModWrapIsFloorMod | src/util.ts:8 | `(x % N + N) % N` with truncating `%` equals floor modulo for every integer x, negative ones included |
| Util.ModWrapPeriodic | src/util.ts:8 | shifting x by any multiple of N does not change `modwrap(x, N)` |
| Util.ModWrapIdentity | src/util.ts:8 | `modwrap` leaves indices already in [0, N) unchanged |
| Util.ModWrapMinusOne | src/util.ts:8 | index −1 wraps to the last index N − 1 |
| Util.RoundHalfUp | src/util.ts:4-5 | `Math.round(v)` is the integer in the half-open window (v − 1/2, v + 1/2] |
| Util.RoundHalfUpUnique | src/util.ts:4-5 | that window holds exactly one integer, so `Math.round` is determined by it |
| Util.RoundHalfUpNearest | src/util.ts:4-5 | `Math.round(v)` is at least as close to v as any other integer |
| Util.RoundHalfUpInteger | src/util.ts:4-5 | integers round to themselves |
| Util.RoundCoord | src/util.ts:4-5 | a rounded coordinate times the precision is an integer, and it moves by at most half a step (1/(2p)) |
| Util.Round | src/util.ts:3-6 | each coordinate of `round(p, prec)` times the precision is `Math.round` of the input times the precision, and lies within half a step of the input |
| Util.RoundCoordOfMultiple | src/util.ts:3-6 | a coordinate already on the lattice is left unchanged |
| Util.RoundCoordIdempotent | src/util.ts:3-6 | rounding a rounded coordinate changes nothing |
| Util.RoundIdempotent | src/util.ts:3-6 | `round` is idempotent on points, acting on x and y separately |
| Util.RoundToCell | src/util.ts:3-6 | with precision 1/c, `round` gives an integer multiple of the cell size c |
| Util.DistanceSqSpec | src/util.ts:10 | the squared distance does not depend on the order of the two points |
| Util.DistanceSq | src/util.ts:10 | the squared distance is non-negative and zero from a point to itself |
| Snap.GridLine | src/surface-move.ts:101-102 | the rounded line of an edge is within half a cell of it |
| Snap.GridLineIsRound | src/surface-move.ts:101-102 | the grid line equals `round(a, 1/cell)` on that axis |
| Snap.GridIndex | src/surface-move.ts:105-106 | the line index of an edge is the integer in the half-open window (v/cell − 1/2, v/cell + 1/2] |
| Snap.LineActivePeriodic | src/surface-move.ts:107-110 | whether a line is active repeats with the pattern's length as period, for negative indices too |
| Snap.AlternatingPattern | src/surface-move.ts:107-110 | with pattern "10", exactly the even line indices are active |
| Snap.NoDigitNoLine | src/surface-move.ts:107-110 | a pattern with no non-zero digit has no active line |
| Snap.QualifiesMonotone | src/surface-move.ts:112-124 | a line that qualifies at one threshold qualifies at every larger one, so the threshold-1 release snaps every line the drag snapped |
| Snap.GridIndexOfLine | src/surface-move.ts:105-108 | the line index `sa.x / cell` of the k-th line is k, and the line snaps to itself |
| Snap.GridLineOnActiveLine | src/surface-move.ts:105-110 | when the digit of the rounded index is truthy, the rounded position is on an active line |
| Snap.AtThresholdNoSnap | src/surface-move.ts:114-124 | at a distance of exactly `cell × threshold` the line does not qualify (strict `<`) |
| Snap.FullCellQualifies | src/surface-move.ts:143 | with threshold 1, a line qualifies if and only if its pattern digit is active |
| Snap.MoveSnapAxis | src/surface-move.ts:112-124 | when the left (top) edge qualifies, the position is its grid line; when only the right (bottom) edge qualifies, it is that line minus the size; otherwise it is the raw value. A moved value is strictly within `cell × threshold` with an edge on an active line |
| Snap.MoveSnapAxisCases | src/surface-move.ts:114-124 | the snapped x is exactly one of `sa.x`, `sb.x − width` or `a.x` |
| Snap.MoveSnapLeftFirst | src/surface-move.ts:114-118 | when the left (top) edge qualifies, it wins, whatever the right edge does |
| Snap.MoveSnapKeepsUnqualified | src/surface-move.ts:114-124 | a position moves only if one of its two edges qualifies |
| Snap.MoveSnapUnqualified | src/surface-move.ts:114-124 | when none of the four edges qualifies, the snapped position is the raw one |
| Snap.MoveSnapLeftQualified | src/surface-move.ts:114-115 | when the left edge qualifies, the snapped x is its grid line |
| Snap.ReleaseSnapsActiveLeft | src/surface-move.ts:142-148 | with threshold 1, a left edge whose rounded line is active always snaps to that line |
| Snap.MoveSnapAligned | src/surface-move.ts:114-124 | an item already on an active line stays where it is |
| Snap.MoveSnap | src/surface-move.ts:96-127 | a move keeps width and height; each axis stays put or moves by less than `cell × threshold` |
| Snap.ResizeSnapAxis | src/surface-resize.ts:99-108 | a corner axis is its rounded line when that line qualifies and the raw value when it does not; a snapped value is on an active line and within half a cell |
| Snap.ResizeSnapAligned | src/surface-resize.ts:99-108 | a corner already on an active line is left unchanged |
| Snap.ResizedExtent | src/surface-resize.ts:110-111 | the new extent is the distance from the edge to the corner, raised to at least 10 |
| Snap.ResizeSnap | src/surface-resize.ts:89-114 | a resize snap never moves left/top; on each axis the right (bottom) edge lands on the snapped corner when that leaves at least 10 pixels, and the size is 10 otherwise |
| Snap.ResizeSnapUnqualified | src/surface-resize.ts:99-111 | when neither corner axis qualifies and both sizes stay at least 10, the new bottom-right corner is the raw point |
| Move.ToInt32 | src/surface-move.ts:83 | the 32-bit result of `<<` lies in the signed range and agrees with the exact value modulo 2^32 |
| Move.ShiftLeftOne | src/surface-move.ts:83 | `n << 1` is an even signed 32-bit value, equal to 2n when n fits in 31 bits |
| Move.GrabZIndex | src/surface-move.ts:83 | the z-index written on a grab is an even signed 32-bit value |
| Move.GrabZIndexEven | src/surface-move.ts:83 | every z-index `(++counter) << 1` is even, and equals 2·(counter + 1) while that fits in 31 bits |
| Move.GrabZIndexIncreasing | src/surface-move.ts:83 | a later grab gets a strictly larger z-index than an earlier one, as long as no wrap occurs |
| Move.GrabZIndexWraps | src/surface-move.ts:83 | after 2^30 − 1 grabs the shifted z-index wraps to a negative number |
| Move.GrabOffset | src/surface-move.ts:77-80 | the grab offset carries the pointer to the lifted top-left corner |
| Move.Lift | src/surface-move.ts:79-80 | for a valid configuration, the lift is positive exactly when the snap threshold is |
| Move.Lifted | src/surface-move.ts:77-80 | the lifted corner, moved back by the lift on both axes, is the item's corner |
| Move.Grab | src/surface-move.ts:64-155 | only an idle left-button press starts ItemMove; it records the pointer, the grab offset from the pointer to the lifted corner, and bumps the counter and z-index, and the item is snapped at its corner lifted by `cell × threshold`; any other press changes nothing |
| Move.Drag | src/surface-move.ts:129-140 | moves of other pointer ids or outside ItemMove are ignored; the tracked pointer sets the rect to the snap of the pointer plus the grab offset, so the size never changes |
| Move.DragFollowsPointer | src/surface-move.ts:129-140 | away from every qualifying line, the item's corner is exactly the pointer plus the grab offset |
| Move.DragSnapsLeftEdge | src/surface-move.ts:114-118 | when the left edge of the candidate qualifies, the dragged x is its grid line |
| Move.Release | src/surface-move.ts:142-148 | pointer-up returns to Idle and sets the rect to the move snap of its own position with threshold 1 (either edge), so each axis moves by less than a cell and the size is kept |
| Move.DragWithoutMotionIsLift | src/surface-move.ts:77-80 | a pointer-move at the grab position reproduces the position the grab itself snapped to |
| Move.MoveSnapSizeOnly | src/surface-move.ts:99-126 | the snap reads only the size of the item, not its old position |
| Move.ReleaseKeepsAlignedItem | src/surface-move.ts:142-148 | releasing an item that already sits on active lines does not move it |
| Move.ReleaseSnapsLeftEdge | src/surface-move.ts:142-148 | on release, a left edge whose rounded line is active snaps to it |
| Resize.Grab | src/surface-resize.ts:59-81 | only an idle left-button press starts ItemResize; it records the grab position and original rect and bumps the z-index; the rect is unchanged |
| Resize.Candidate | src/surface-resize.ts:119-124 | while left/top are those of the grab, the candidate corner is the original bottom-right corner moved by the pointer's travel since the grab |
| Resize.CandidateTracksPointer | src/surface-resize.ts:119-124 | the candidate corner moves exactly as far as the pointer does |
| Resize.CandidateWithoutMotion | src/surface-resize.ts:71-72 | with zero pointer movement since the grab, the candidate corner is the original bottom-right corner |
| Resize.Drag | src/surface-resize.ts:116-129 | other pointer ids are ignored; the tracked pointer sets hasMoved and sets the rect to the resize snap of the candidate corner, which keeps left/top and both sizes at least 10 |
| Resize.DragFollowsPointer | src/surface-resize.ts:116-129 | away from qualifying lines and above the 10-pixel minimum, the new bottom-right corner is exactly the candidate |
| Resize.Release | src/surface-resize.ts:131-137 | pointer-up always returns to Idle; after a move it re-snaps the current corner with threshold 1, otherwise it keeps the rect; left/top never change |
| Resize.ReleaseSnapsRightEdge | src/surface-resize.ts:131-132 | after a move, a right edge whose rounded line is active and leaves at least 10 pixels snaps to that line on release |
| Resize.ClickKeepsItem | src/surface-resize.ts:88 | a click without movement leaves the item exactly as it was |
| Resize.DragWithoutMotionKeepsAlignedItem | src/surface-resize.ts:116-129 | a zero-motion drag of an aligned item keeps its rect |
| LegacyHandles.BumpZIndex | src/surface.ts:708 | the older z-index counter strictly increases with each grab |
| LegacyHandles.ZIndexAfterGrabs | src/surface.ts:5 | starting from 10, after n grabs the counter is 10 + n |
| LegacyHandles.MoveGrab | src/surface.ts:697-711 | a grab records the pointer and the offset from the item's corner to the pointer, and raises the z-index |
| LegacyHandles.MoveDrag | src/surface.ts:713-775 | other pointers are ignored; the tracked one sets the rect to the snap of the pointer minus the grab offset, keeping the size, session and dataset |
| LegacyHandles.MoveDragFollowsPointer | src/surface.ts:713-775 | away from every qualifying line, the corner plus the grab offset is the pointer |
| LegacyHandles.MoveRelease | src/surface.ts:777-788 | pointer-up returns to idle, sets the rect to the move snap of its position with threshold 1, so each axis moves by less than a cell and the size is kept, and writes the new left/top to the dataset |
| LegacyHandles.MoveDragWithoutMotionKeepsAlignedItem | src/surface.ts:740-750 | an aligned item picked up and not moved stays in place |
| LegacyHandles.MoveReleasePersists | src/surface.ts:780-783 | release writes the new left/top into the dataset and keeps width/height |
| LegacyHandles.ResizeGrabAsWritten | src/surface.ts:848-850 | the older resize starts with `t` equal to the item's size, not its bottom-right corner |
| LegacyHandles.ResizeGrab | src/surface.ts:835-850 | the corrected grab starts `t` at the bottom-right corner |
| LegacyHandles.SnapCorner | src/surface.ts:852-869 | each corner axis is its rounded line when that line qualifies and the raw value otherwise; a moved axis is on an active line within half a cell |
| LegacyHandles.SizedTo | src/surface.ts:871-872 | the size follows the corner, with a minimum of 10, and left/top are unchanged |
| LegacyHandles.ResizeCandidate | src/surface.ts:883-888 | the candidate corner minus the item's corner and the original size is the pointer minus the grab position |
| LegacyHandles.ResizeDrag | src/surface.ts:880-893 | other pointers are ignored; the tracked one sets `t` to the snap of the candidate corner and sizes the item to it |
| LegacyHandles.ResizeDragFollowsPointer | src/surface.ts:880-893 | away from qualifying lines and above the 10-pixel minimum, `t` and the new bottom-right corner are exactly the candidate |
| LegacyHandles.ResizeRelease | src/surface.ts:895-906 | pointer-up always re-snaps `t` with threshold 1, sizes the item to it and persists width/height |
| LegacyHandles.ClickCollapsesAsWritten | src/surface.ts:849-850 | as written, a click on a 100×100 item at (200, 200) with 80-pixel cells collapses it to 10×10 |
| LegacyHandles.ClickKeepsSize | src/surface.ts:895-906 | with the corrected grab, a click changes each size by at most half a cell, and not at all when the corner is aligned |
| Slotted.FirstMissingLeft | src/surface.ts:373-374 | the index of the first child without `data-left`, if there is one |
| Slotted.Place | src/surface.ts:375-381 | each of left, top, width and height is its `data-*` value in pixels when present, and the invalid length `undefinedpx` when absent |
| Slotted.PlaceAll | src/surface.ts:369-387 | children are placed in order from their dataset and placement stops at the first child without `data-left`, which is reported as the error |
| Slotted.FirstMissingLeftAt | src/surface.ts:373-374 | when all children before i have `data-left` and child i does not, i is the reported index |
| Gesture.Find | src/surface.tsx:661-686 | a pointer id is found if and only if it is tracked |
| Gesture.Put | src/surface.tsx:661-686 | recording a pointer adds its id, updates its position in place when tracked, appends it otherwise, and keeps ids distinct |
| Gesture.Remove | src/surface.tsx:624-653 | removing a pointer drops exactly its id and keeps the others distinct |
| Gesture.FindPut | src/surface.tsx:661-686 | after recording, the pointer is found at the new position and other pointers are unaffected |
| Gesture.FindRemove | src/surface.tsx:624-653 | after removal, the pointer is gone and other pointers are unaffected |
| Gesture.PointerDown | src/surface.tsx:661-686 | only left-button presses count. With the first pointer, Ctrl starts Selecting with an anchor, a minimap press starts MinimapPanning, otherwise Panning. A second pointer starts Pinching |
| Gesture.SelectionRect | src/surface.tsx:878-887 | the selection rectangle has non-negative sizes and contains both the anchor and the current point |
| Gesture.SelectionRectSymmetric | src/surface.tsx:878-887 | the rectangle is the same whichever corner started the drag |
| Gesture.SelectionRectSmallest | src/surface.tsx:878-887 | any rectangle containing both corners encloses the selection rectangle |
| Gesture.Selected | src/surface.tsx:634-646 | an item is selected if and only if it intersects the world-space selection |
| Gesture.Clear | src/surface.tsx:624-653 | pointer-up removes the pointer and never touches the view or the selection anchor and rectangle. A centering state keeps everything else. With no pointers left: Idle, or when Selecting, the items intersecting the normalised selection, and the baseline is kept. With one pointer left: Panning with the pinch baseline cleared. With two or more left, only the pointer is removed |
| Gesture.ClearSelectsShownItem | src/surface.tsx:634-646 | an item under a world point that is on screen inside the selection is in the emitted selection |
| Gesture.PanMove | src/surface.tsx:694-717 | panning keeps the zoom; only a tracked pointer in Panning moves the view |
| Gesture.PanMoveKeepsGrabbedPoint | src/surface.tsx:702-712 | after a pan step, the world point that was under the pointer is under it again |
| Gesture.PinchMove | src/surface.tsx:759-814 | a pinch frame is an error for an untracked pointer. With two or more pointers, the view and baseline are those of the pinch frame on the first two pointers, moved by the pointer's delta. Fewer than two leave them unchanged. Other states are untouched |
| Gesture.PinchMoveFollowsMidpoint | src/surface.tsx:784-806 | within the zoom bounds, the world point under the old midpoint of the first two pointers lands on that midpoint moved by the pointer's delta |
| Gesture.SelectMove | src/surface.tsx:861-894 | while selecting with an anchor, the selection rectangle spans the anchor and the pointer, and the view is unchanged |
| Gesture.WheelEvent | src/surface.tsx:818-857 | the wheel is ignored while centering; otherwise an applied wheel step sets Wheeling and the stepped view, whose zoom is within the bounds, and a skipped one changes nothing |
| Gesture.WheelEventFixesPivot | src/surface.tsx:839-843 | after an applied wheel event, the world point under the pivot is under it again |
| Gesture.MinimapDown | src/surface.ts:556-560 | minimap panning starts only when no pointer is down |
| Gesture.LegacyDown | src/surface.ts:572-578 | the older pointer-down records the pointer and increments the count |
| Gesture.LegacyUp | src/surface.ts:580-589 | pointer-up decrements the count only for a tracked id and then clears pinching; minimap panning ends only for the same id |
| Gesture.CountPreserved | src/surface.ts:572-589 | the count equals the number of tracked pointers after up events and after downs of new ids |
| Gesture.RepeatedDownDrifts | src/surface.ts:572-578 | a second down of a tracked id breaks that equality |
| Geometry.IntersectsSymmetric | src/surface.tsx:634-646 | rectangle intersection is symmetric |
| Geometry.UniformMatrix | src/surface.tsx:489-509 | a positive scale with a translation builds a uniform matrix |
| Geometry.Apply | src/surface.tsx:708-712 | the matrix maps the origin to its translation (e, f) |
| Geometry.Translate | src/surface.tsx:708-712 | `translate` keeps the linear part |
| Geometry.TranslateComposes | src/surface.tsx:708-712 | the translated matrix applied to p is the original applied to p shifted, so translation post-multiplies |
| Geometry.ScaleComposes | src/surface.tsx:801-806 | the scaled matrix applied to p is the original applied to p scaled |
| Geometry.ScalePoint | src/surface.ts:644-649 | `scalePoint` divides x by a and y by d |
| Geometry.Normalize | src/surface.ts:636-642 | `normalizePoint` subtracts the translation and divides by the scale: the result times a (d) is the input minus e (f) |
| Geometry.NormalizeApply | src/surface.ts:636-642 | `normalizePoint` undoes the forward affine map when a and d are non-zero |
| Geometry.ApplyNormalize | src/surface.ts:636-642 | the forward map undoes `normalizePoint` |
| Geometry.NormalizeRect | src/surface.tsx:640 | a normalised rectangle starts at the normalised corner with the size divided by the scale |
| Geometry.NormalizeRectContains | src/surface.tsx:634-646 | a world point is in the normalised rectangle if and only if its screen image is in the screen rectangle |
| Geometry.Combine | src/surface.tsx:464-468 | the union of rectangles encloses each of them, and each of its four sides is a side of one of them |
| Viewport.Pan | src/surface.tsx:702-712 | a pan keeps the matrix uniform at the same zoom and is a no-op on a zero delta |
| Viewport.PanFollowsPointer | src/surface.tsx:702-712 | every screen image moves by exactly the pointer's screen delta |
| Viewport.PanIsTranslate | src/surface.tsx:708-712 | the pan is `translate(Δ / a)` |
| Viewport.PanKeepsGrabbedPoint | src/surface.tsx:702-712 | the world point under the old pointer position ends up under the new one |
| Viewport.PinchScale | src/surface.tsx:791-792 | the new pinch zoom is positive |
| Viewport.Midpoint | src/surface.tsx:796-797 | the midpoint is equally far from both points on each axis |
| Viewport.PinchMatrix | src/surface.tsx:801-806 | the pinch matrix is uniform at exactly the new scale |
| Viewport.PinchFrame | src/surface.tsx:784-806 | zero distance leaves the state unchanged. The first frame records the baseline distance and matrix. Later frames set zoom to `baseline.a × dist / baselineDist`, or leave the view unchanged when that is outside the bounds |
| Viewport.PinchFollowsMidpoint | src/surface.tsx:796-806 | the world point under the old pinch midpoint ends up at the midpoint shifted by the pinch delta |
| Viewport.PinchMatrixFixes | src/surface.tsx:801-806 | rescaling about the centre c leaves c where the translation put it |
| Viewport.WheelFactor | src/surface.tsx:833-835 | the factor applies exactly when zoom is above min or zooming in, and below max or zooming out. NaN stays NaN and anything else becomes a number |
| Viewport.WheelFactorInRange | src/surface.tsx:833-835 | an applied finite factor keeps `a·z` within [minZoom, maxZoom] |
| Viewport.WheelFactorSpec | src/surface.tsx:833-835 | an applied finite factor is positive and keeps the zoom in range |
| Viewport.ZoomAbout | src/surface.tsx:839-843 | zooming about a point multiplies the scale by the factor and keeps the matrix uniform |
| Viewport.ZoomAboutFixes | src/surface.tsx:839-843 | the pivot's screen image does not move |
| Viewport.Wheel | src/surface.tsx:831-850 | a wheel step keeps the matrix uniform with zoom in [minZoom, maxZoom]; a NaN factor changes nothing |
| Viewport.WheelFixesPivot | src/surface.tsx:839-843 | the world point under the wheel pivot stays under it |
| Viewport.WheelInfinityClamps | src/surface.tsx:834-837 | an infinite zoom-in factor is clamped to exactly maxZoom |
| Viewport.LegacyWheelAsWritten | src/surface.ts:591-625 | every older wheel event clears the pending centering target |
| Viewport.LegacyWheelPoisoned | src/surface.ts:605-616 | without a finiteness check, a NaN factor makes the whole matrix NaN |
| Viewport.LegacyWheel | src/surface.ts:591-625 | the corrected older wheel clears the target, keeps the matrix uniform and finite, clamps zoom into range, and equals the newer wheel |
| Viewport.LegacyWheelAgreesOnFinite | src/surface.ts:605-616 | on finite factors, the corrected older wheel and the as-written one agree |
| Viewport.FitScale | src/surface.ts:235-238 | the fit scale is positive, fits both axes, and touches at least one |
| Viewport.Padding | src/surface.tsx:491 | padding is the larger of the two sides times the percentage |
| Viewport.AxisCap | src/surface.tsx:492-493 | a per-axis scale is capped at `cap`, fits the axis, and is either the cap or tight |
| Viewport.CappedFitScale | src/surface.tsx:492-493 | the smaller capped axis ratio is in (0, 1], fits the box on both axes, and is 1 or spans the frame on one axis |
| Viewport.CenterScale | src/surface.tsx:491-493 | the centering zoom is in (0, 1]; the rectangle grown by its padding fits in the frame at that zoom, and the zoom is 1 or the grown rectangle spans the frame on one axis |
| Viewport.CappedFitScaleAntitone | src/surface.tsx:491-493 | a box at least as wide and tall never gets a larger capped fit |
| Viewport.CenterScaleAntitone | src/surface.tsx:491-493 | a larger padding fraction never gives a larger centering zoom |
| Viewport.CenterMatrix | src/surface.tsx:489-509 | `getCenterMatrix` is uniform at the centering zoom (at most 1), maps the rectangle's centre to the frame's centre, and fits the padded rectangle in the frame |
| Viewport.CenteredAt | src/surface.tsx:495-505 | the translation built from the grown rectangle's centre, corrected by half the padding, maps the original centre to the frame's centre at zoom s |
| Viewport.LegacyCenterMatrix | src/surface.ts:221-250 | the older `getCenterMatrix` is uniform, maps the rectangle's centre (relative to the surface) to the centre of the content box, fits the padded rectangle, and spans the content box on one axis (no cap of 1) |
| Viewport.LegacyCenteredAt | src/surface.ts:240-247 | the older translation maps the rectangle's centre, taken relative to the surface, to the centre of the content box at zoom s |
| Centering.Insert | src/surface.tsx:541-548 | one insertion step keeps the items, adding exactly the new one |
| Centering.InsertSorted | src/surface.tsx:541-548 | inserting into an (x, y)-sorted list keeps it sorted |
| Centering.SortItems | src/surface.tsx:541-548 | the items sorted by x then y: sorted, and a permutation of the input |
| Centering.NonPoint | src/surface.tsx:541 | the kept items are exactly the non-point items |
| Centering.FindIndex | src/surface.tsx:550 | `findIndex` is the first position with the current id, or −1 when there is none |
| Centering.CycleIndex | src/surface.tsx:551-557 | the next index lies in [0, n) |
| Centering.Cycle | src/surface.tsx:541-548 | the cycle is sorted and holds exactly the non-point items |
| Centering.CycleStep | src/surface.tsx:550-557 | the chosen item is in the cycle |
| Centering.OtherItem | src/surface.tsx:537-560 | there is no other item if and only if every item is a point. Otherwise the chosen one is a non-point item of the surface |
| Centering.CenterOtherItem | src/surface.tsx:537-572 | failure exactly when no non-point item exists. On success the item is a sized, non-point item, and the matrix centres it with padding 0.35 |
| Centering.CycleEmpty | src/surface.tsx:541 | the cycle is empty if and only if all items are points |
| Centering.FindIndexAt | src/surface.tsx:550 | the first position holding the id is what `findIndex` returns |
| Centering.CycleStepMoves | src/surface.tsx:552-557 | from the current item at k, the step lands on `sorted[modwrap(k + diff, n)]` |
| Centering.CycleStepStartsAtEnds | src/surface.tsx:551-557 | with no current item, forward starts at the first item and backward at the last |
| Centering.CycleStepRoundTrip | src/surface.tsx:552-557 | stepping forward then backward returns to the same item when ids are distinct |
| Centering.OtherItemRoundTrip | src/surface.tsx:537-572 | Alt+Right then Alt+Left re-selects the original item |
| Centering.CenterItem | src/surface.tsx:521-535 | centering an item remembers it, marks the last centering as an item, and frames it with padding 0.075: its centre at the frame's centre, the padded item inside the frame, zoom at most 1 |
| Centering.ViewRect | src/surface.tsx:464-468 | the view rectangle exists if and only if there are items, and it encloses every item |
| Centering.CenterView | src/surface.tsx:576-587 | `centerView(mode, pct)` marks the view as centered last and moves to `mode`. With a view rectangle it frames it with padding `pct` at the zoom CenterScale gives; without one the matrix is unchanged. Escape uses the defaults CenteringView and 0.11 |
| Centering.InitialViewWider | src/surface.tsx:589-592 | the first centering, `centerView(Idle, 0.25)`, leaves the surface Idle and zooms no further in than the default `centerView()` |
| Centering.CenterRect | src/surface.tsx:511-519 | centring a rectangle frames it with padding 0.12: its centre at the frame's centre and the padded rectangle inside the frame |
| Centering.CenterOther | src/surface.tsx:537-572 | Alt+arrow fails exactly when there is no non-point item. Otherwise it enters CenteringItem on the next item of the cycle and frames that item with padding 0.35 |
| Centering.Escape | src/surface.tsx:600-606 | Escape centres the remembered item when the view was centred last; otherwise it centres the view |
| Centering.EscapeAfterCycling | src/surface.tsx:600-615 | after Alt+arrow, Escape centres the view, and a second Escape returns to the same item |
| Centering.EscapeToggles | src/surface.tsx:600-606 | with a remembered item, two Escapes alternate between the item and the view and keep the remembered item |
| Centering.EaseComponent | src/surface.ts:265-271 | one step shrinks the distance of a component to its target by the factor 0.658 |
| Centering.Components | src/surface.ts:265 | a matrix has exactly the six components a..f |
| Centering.Distance | src/surface.ts:265-273 | the summed component distance is non-negative |
| Centering.DrawFrame | src/surface.ts:258-287 | a frame asks for another frame if and only if some pre-step residual is at least 3; otherwise it snaps to the target |
| Centering.EaseDistance | src/surface.ts:271 | each component's residual becomes 0.658 of what it was |
| Centering.EaseScalesDistance | src/surface.ts:265-272 | the summed residual shrinks by the same factor |
| Centering.DistanceAtLeast | src/surface.ts:273 | the summed residual bounds every single component's residual |
| Centering.FrameResidual | src/surface.ts:265-274 | an unsettled frame multiplies the total residual by 0.658 |
| Centering.FrameProgress | src/surface.ts:273-276 | an unsettled frame reduces the total residual by at least 1 |
| Centering.Animate | src/surface.ts:258-287 | repeated frames end exactly at the target, in one frame when already settled |
| Centering.LegacyDrawFrame | src/surface.ts:258-287 | without a target nothing happens. A NaN matrix never settles and is redrawn forever. A finite matrix follows the easing step |
| Grid.LineStep | src/surface-grid.ts:122-125 | consecutive lines are z apart |
| Grid.ActiveLinesMembers | src/surface-grid.ts:122-126 | a line index is in the active set if and only if it is in range and its pattern digit is active |
| Grid.ActiveLinesIncrease | src/surface-grid.ts:122-126 | the active line indices strictly increase |
| Grid.ActiveLinesSnoc | src/surface-grid.ts:122-126 | extending the walk by one index adds that index exactly when it is active |
| Grid.FirstLine | src/surface-grid.ts:118-121 | after the start loops the first line is at or left of 0 and the next one at or right of it (−z ≤ sx ≤ 0), with `sx = offset + i·z` throughout |
| Grid.WalkAxis | src/surface-grid.ts:118-126 | the walk visits lines from the first one to the first line at or past the edge, and strokes exactly the active indices, at positions `offset + i·z` |
| Grid.WalkAxisCovers | src/surface-grid.ts:122-126 | a line is stroked if and only if it is active, not before the first line, and left of the edge |
| Grid.LineOrder | src/surface-grid.ts:122 | line positions never decrease with the index |
| Grid.LineAscends | src/surface-grid.ts:122 | line positions strictly increase with the index |
| Grid.WalkAxisStrokes | src/surface-grid.ts:118-136 | every stroked position is an active line left of the edge, every active line in [0, extent) is stroked, and positions increase |
| Grid.Draw | src/surface-grid.ts:107-139 | a thin line width draws nothing. Otherwise columns and rows are stroked on exactly the active lines, x with `xPattern`, y with `yPattern` |
| Grid.Interpolate | src/surface-grid.ts:76-81 | the interpolated zoom and offset are `from` at t = 0 and `to` at t = 1 |
| Grid.InterpolateBetween | src/surface-grid.ts:76-81 | for t in [0, 1] the interpolated zoom lies between the two zooms |

## Left out

- DOM plumbing is not modelled: custom elements, shadow roots, CSS strings, cursors, full-size reparenting and `SurfaceItemElement` style binding. None of it computes values.
- Canvas painting is not modelled: the minimap painter (`src/surface-minimap.ts`), the older surface's drawing code, and the minimap-panning move arithmetic (src/surface.tsx:749, src/surface.ts:506-511). That arithmetic pans the view by a pointer delta scaled by the minimap canvas size and `pixelRatio`, which are painter state and are not modelled. Minimap pointer-down and pointer-up are modelled.
- Timing is not modelled: throttle, `raf` queues, `expireAfter(200)`, the animation-settings tables and the reactive runtime. Each event is a single function call, and the centering animation is a loop over frames.
- The overlay, full-size and connecting states are left out. They only toggle DOM layers.
- The older surface's pointer-move pan and pinch (src/surface.ts:516-550) are left out. The pan is the newer pan's `translate(Δ / a)`. The pinch differs from the newer one, and none of these differences is modelled:
  - it has no min/max zoom check;
  - it has no guard against a zero distance;
  - it pins the centre of the content box, `normalizePoint(inner.offsetWidth / 2, inner.offsetHeight / 2)`, rather than the midpoint of the two pointers;
- Floating-point formulas are inputs:
  - the wheel factor `(1 − …)^2.08/2.28`;
  - the grid line width `min(1, zoom^1.25 × 0.28)`;
  - the `sqrt` of `distance`.
  Only `distance` squared is modelled. Reals are exact, so rounding error and overflow are not modelled. NaN and infinity are modelled only for the wheel factor, where the newer code checks `isFinite`.
- The grid's `from → to` animation timing is left out. Only the interpolation at a given t is modelled.
- `Point`, `Rect` and `DOMMatrix` come from libraries that are not part of this model.
  - `normalize` is `(p − (e, f)) / a`.
  - `translate` post-multiplies.
  - `Rect.scaleLinear` adds the padding to width and height and keeps the top-left corner. The centering translation adds back half the padding, so the original centre lands on the frame's centre.
  - `intersectsRect` counts touching edges.
  - `Rect.combine` is the bounding box.
  - These semantics are inferred from how the code uses them.
- The `mixter` state push/pop/expire semantics are reduced to a plain state value with the transitions the code performs.
- Centering.SortItems: the comparator never returns 0, so the order of items with equal x and y is left to the engine. The model sorts stably and proves only sortedness and permutation.
- Util.DistanceSq: states non-negativity and zero on equal points, not that the distance is zero only on equal points.
- Gesture.Selected: states membership, not the order of the emitted items. The code filters in item order.
- Gesture.Clear: a Selecting release without a selection rectangle throws in the code. It is an `Err` here, and the state after an emitted selection stays Selecting.
- Gesture.PinchMove: the pinch distance is an input, because it is a `sqrt`.
- Grid.Draw: the line width and `zoom > 0` are inputs. The contract states which lines are stroked, not the canvas calls.
- Centering.Animate: states termination and the final matrix, not the number of frames beyond the settled case.
- Viewport.LegacyCenterMatrix: requires that width and height are not both zero (`LegacySized`). With one side zero, the padding of the other keeps both padded sides positive. With both zero, the source divides zero by zero and the matrix is NaN.
- LegacyHandles.MoveGrab, LegacyHandles.MoveDrag, LegacyHandles.ResizeGrab, LegacyHandles.SizedTo and LegacyHandles.ResizeCandidate: the older handles read the item back through `offsetLeft`, `offsetTop`, `offsetWidth` and `offsetHeight` (src/surface.ts:701-702, 714, 720-721, 841, 849, 871-872, 886-887). The browser rounds these to whole pixels, so an unsnapped fractional position re-enters the next grab or drag rounded. The model reads the exact real rect and does not model that rounding.
- Snap.LineActive: JavaScript's `pattern.length` and `pattern[i]` count UTF-16 code units, while a Dafny string is a sequence of characters. The two agree for patterns of digits and other characters of the Basic Multilingual Plane; a pattern holding characters outside it is indexed differently in the source.
- Centering.CenterView: the double-click handler `$.ondblclick(host, centerView)` (src/surface.tsx:594-596) passes the mouse event as `mode`, so the surface transitions to a state that is not a `SurfaceState`. The model's `mode` is a state of the machine, so that call is not modelled; the initial `centerView(Idle, 0.25)` and Escape's default call are.
- Slotted children are placed as pixel lengths (`Px(v)`), not as the CSS strings `v + 'px'`.

## Findings

| source | as written | input that shows it | evidently intended | confidence | as-written member | corrected member |
|---|---|---|---|---|---|---|
| src/surface.ts:849-850 | the older resize initialises the target corner `t` to the item's size `(width, height)`. Pointer-up re-snaps `t` even when the pointer never moved | a click without moving on a 100×100 item at (200, 200) with 80-pixel cells and pattern "1": `t` = (100, 100) snaps to (80, 80), so the width becomes max(10, 80 − 200) = 10 and the item collapses to 10×10 | `t` starts at the bottom-right corner `(x + width, y + height)`, as the newer resize computes it, so a click keeps the size up to the threshold-1 snap | not executed | LegacyHandles.ResizeGrabAsWritten, LegacyHandles.ClickCollapsesAsWritten | LegacyHandles.ResizeGrab, LegacyHandles.ClickKeepsSize |
| src/surface.ts:605-616 | the older wheel applies the factor `z` without checking it is finite | a wheel event with deltaY 2000 in pixel mode at zoom a = 1 (between the bounds): the base `1 − 2000·1.12·0.0005` is negative, so `z = base^2.28` is NaN. `z > 1` and `z < 1` are false for NaN, but `a > minZoom` and `a < maxZoom` hold at a = 1, so the gate passes. `a * z < minZoom` and `a * z > maxZoom` are false too, so neither clamp applies, and `scaleSelf(NaN)` turns the matrix into NaN for good | skip the update when `z` is not finite, as the newer wheel does at src/surface.tsx:837 | not executed | Viewport.LegacyWheelAsWritten, Viewport.LegacyWheelPoisoned | Viewport.LegacyWheel, Viewport.LegacyWheelAgreesOnFinite |

=== FILE: centering.dfy ===
/** Centering the view (src/surface.tsx:511-615, src/surface.ts:258-287):
    cycling through the items in reading order with Alt+Left/Right, the
    Escape key that toggles between the last item and the whole view, and
    the older surface's animation that eases the matrix toward a target. */
module Centering {
  import opened Wrappers
  import opened Geometry
  import opened Util
  import opened Viewport
  import Gesture

  /** A surface item: its identity, its rectangle, and whether it is a point
      item (a cable's end points), which centering skips. */
  datatype Item = Item(id: int, rect: Rect, points: bool)

  predicate Sized(it: Item) {
    it.rect.width >= 0.0 && it.rect.height >= 0.0
  }

  // ----------------------------------------------------------- ordering

  /** The order of the item cycle: by x, then by y (src/surface.tsx:541-548). */
  predicate Before(a: Item, b: Item) {
    a.rect.x < b.rect.x || (a.rect.x == b.rect.x && a.rect.y <= b.rect.y)
  }

  predicate Sorted(s: seq<Item>) {
    forall i, j :: 0 <= i < j < |s| ==> Before(s[i], s[j])
  }

  /** Inserts an item before the first one it orders before. */
  function Insert(x: Item, s: seq<Item>): (r: seq<Item>)
    ensures multiset(r) == multiset(s) + multiset{x}
    ensures |r| == |s| + 1
  {
    if |s| == 0 then [x]
    else if Before(x, s[0]) then [x] + s
    else
      assert s == [s[0]] + s[1..];
      [s[0]] + Insert(x, s[1..])
  }

  /** Inserting into a sorted list keeps it sorted. */
  lemma {:induction false} InsertSorted(x: Item, s: seq<Item>)
    requires Sorted(s)
    ensures Sorted(Insert(x, s))
  {
    if |s| == 0 {
    } else if Before(x, s[0]) {
      var r := [x] + s;
      forall i, j | 0 <= i < j < |r| ensures Before(r[i], r[j]) {
        if i == 0 && j > 1 {
          assert Before(s[0], s[j - 1]);
        }
      }
    } else {
      var rest := Insert(x, s[1..]);
      assert Sorted(s[1..]) by {
        forall i, j | 0 <= i < j < |s[1..]| ensures Before(s[1..][i], s[1..][j]) {
          assert s[1..][i] == s[i + 1] && s[1..][j] == s[j + 1];
        }
      }
      InsertSorted(x, s[1..]);
      var r := [s[0]] + rest;
      forall i, j | 0 <= i < j < |r| ensures Before(r[i], r[j]) {
        if i == 0 {
          var y := rest[j - 1];
          assert y in multiset(rest);
          assert y == x || y in multiset(s[1..]);
          if y != x {
            var k :| 0 <= k < |s[1..]| && s[1..][k] == y;
            assert s[k + 1] == y;
          }
        } else {
          assert r[i] == rest[i - 1] && r[j] == rest[j - 1];
        }
      }
    }
  }

  /** The sorted cycle: a permutation of the list in (x, y) order. The
      source's comparator never reports a tie, so the order of items at the
      same position is left to the engine; this sort keeps them in list
      order. */
  function SortItems(s: seq<Item>): (r: seq<Item>)
    ensures Sorted(r)
    ensures multiset(r) == multiset(s)
    ensures |r| == |s|
  {
    if |s| == 0 then []
    else
      assert s == [s[0]] + s[1..];
      InsertSorted(s[0], SortItems(s[1..]));
      Insert(s[0], SortItems(s[1..]))
  }

  /** `filterMap(items, el => !el.points && …)`: the items that are not point items, in order. */
  function NonPoint(items: seq<Item>): (r: seq<Item>)
    ensures forall x :: x in r <==> x in items && !x.points
    ensures |r| <= |items|
  {
    if |items| == 0 then []
    else
      var rest := NonPoint(items[1..]);
      assert forall x :: x in items <==> x == items[0] || x in items[1..];
      if items[0].points then rest else [items[0]] + rest
  }

  /** `sorted.findIndex(([el]) => centeredItem === el)`: the first position
      holding the current item, or -1. */
  function FindIndex(s: seq<Item>, current: Option<int>): (k: int)
    ensures -1 <= k < |s|
    ensures k >= 0 ==> current.Some? && s[k].id == current.value
    ensures k >= 0 ==> forall j :: 0 <= j < k ==> s[j].id != current.value
    ensures k == -1 ==> current.None? || forall j :: 0 <= j < |s| ==> s[j].id != current.value
  {
    if current.None? || |s| == 0 then -1
    else if s[0].id == current.value then 0
    else
      var k := FindIndex(s[1..], current);
      if k == -1 then -1 else k + 1
  }

  /** The position the cycle moves to: from the current item's position by
      `diff`, wrapping around. An item not in the cycle counts as position
      -1 going forward and 0 going backward, so Alt+Right starts at the
      first item and Alt+Left at the last. */
  function CycleIndex(index: int, diff: int, n: int): (i: int)
    requires n > 0 && -1 <= index < n
    ensures 0 <= i < n
  {
    var from := if index == -1 && diff < 0 then 0 else index;
    ModWrap(from + diff, n)
  }

  /** The items the cycle runs through: the non-point items in reading order. */
  function Cycle(items: seq<Item>): (c: seq<Item>)
    ensures Sorted(c)
    ensures forall x :: x in c <==> x in items && !x.points
  {
    var c := SortItems(NonPoint(items));
    assert forall x :: x in c <==> x in multiset(NonPoint(items));
    c
  }

  /** One step through a cycle: from the current item's position by `diff`,
      wrapping around (src/surface.tsx:550-557). */
  function CycleStep(c: seq<Item>, current: Option<int>, diff: int): (r: Item)
    requires |c| > 0
    ensures r in c
  {
    c[CycleIndex(FindIndex(c, current), diff, |c|)]
  }

  /** The item `centerOtherItem(diff)` moves to (src/surface.tsx:539-557):
      one step through the cycle. With no non-point item there is none. */
  function OtherItem(items: seq<Item>, current: Option<int>, diff: int): (r: Option<Item>)
    ensures r.None? <==> |Cycle(items)| == 0
    ensures r.Some? ==> r.value in items && !r.value.points
  {
    var c := Cycle(items);
    if |c| == 0 then None else Some(CycleStep(c, current, diff))
  }

  /** The padding fraction used when centering another item. */
  const OtherItemPadding: real := 0.35

  /** The padding fraction of `centerItem`. */
  const ItemPadding: real := 0.075

  /** The default padding fraction of `centerView`. */
  const ViewPadding: real := 0.11

  /** The padding fraction of the first `centerView`, a wider view. */
  const InitialViewPadding: real := 0.25

  /** The padding fraction of `centerRect`. */
  const RectPadding: real := 0.12

  /** `centerOtherItem(diff)` (src/surface.tsx:537-572): the item to center
      and the matrix that centers it with a 0.35 padding. With no non-point
      item the source indexes an empty list and throws on the result. */
  function CenterOtherItem(items: seq<Item>, current: Option<int>, diff: int, frame: Point): (r: Result<(Item, Matrix), string>)
    requires frame.x > 0.0 && frame.y > 0.0
    requires forall it :: it in items ==> Sized(it)
    ensures r.Err? <==> |Cycle(items)| == 0
    ensures r.Ok? ==> r.value.0 in items && !r.value.0.points && Sized(r.value.0)
                      && r.value.1 == CenterMatrix(frame, r.value.0.rect, OtherItemPadding)
  {
    match OtherItem(items, current, diff)
    case None => Err("no item to center")
    case Some(item) =>
      assert item in items && Sized(item);
      Ok((item, CenterMatrix(frame, item.rect, OtherItemPadding)))
  }

  /** The cycle is empty exactly when every item is a point item. */
  lemma CycleEmpty(items: seq<Item>)
    ensures |Cycle(items)| == 0 <==> forall it :: it in items ==> it.points
  {
    if |Cycle(items)| > 0 {
      assert Cycle(items)[0] in Cycle(items);
    }
  }

  /** The first position holding an id is the one `FindIndex` reports. */
  lemma {:induction false} FindIndexAt(s: seq<Item>, id: int, k: int)
    requires 0 <= k < |s| && s[k].id == id
    requires forall j :: 0 <= j < k ==> s[j].id != id
    ensures FindIndex(s, Some(id)) == k
  {
    if k > 0 {
      assert forall j :: 0 <= j < k - 1 ==> s[1..][j] == s[j + 1];
      FindIndexAt(s[1..], id, k - 1);
    }
  }

  /** From a known item the cycle moves exactly `diff` places, wrapping around. */
  lemma CycleStepMoves(c: seq<Item>, current: int, diff: int, k: int)
    requires 0 <= k < |c| && c[k].id == current
    requires forall j :: 0 <= j < k ==> c[j].id != current
    ensures CycleStep(c, Some(current), diff) == c[ModWrap(k + diff, |c|)]
  {
    FindIndexAt(c, current, k);
  }

  /** With no current item, stepping forward gives the first item of the
      cycle and stepping backward the last. */
  lemma CycleStepStartsAtEnds(c: seq<Item>)
    requires |c| > 0
    ensures CycleStep(c, None, 1) == c[0]
    ensures CycleStep(c, None, -1) == c[|c| - 1]
  {
    ModWrapIdentity(0, |c|);
    ModWrapMinusOne(|c|);
  }

  /** Stepping forward and then back returns to the item one started from,
      when the items of the cycle are told apart by their ids. */
  lemma CycleStepRoundTrip(c: seq<Item>, k: int)
    requires forall i, j :: 0 <= i < j < |c| ==> c[i].id != c[j].id
    requires 0 <= k < |c|
    ensures CycleStep(c, Some(CycleStep(c, Some(c[k].id), 1).id), -1) == c[k]
  {
    var n := |c|;
    CycleStepMoves(c, c[k].id, 1, k);
    var k1 := ModWrap(k + 1, n);
    CycleStepMoves(c, c[k1].id, -1, k1);
    StepBack(k, n);
  }

  /** Alt+Right then Alt+Left on the surface centers the item one started from. */
  lemma OtherItemRoundTrip(items: seq<Item>, k: int)
    requires forall i, j :: 0 <= i < j < |Cycle(items)| ==> Cycle(items)[i].id != Cycle(items)[j].id
    requires 0 <= k < |Cycle(items)|
    ensures var next := OtherItem(items, Some(Cycle(items)[k].id), 1).value;
      OtherItem(items, Some(next.id), -1) == Some(Cycle(items)[k])
  {
    CycleStepRoundTrip(Cycle(items), k);
  }

  /** One step forward and one back on a cycle of `n` positions. */
  lemma StepBack(k: int, n: int)
    requires 0 <= k < n
    ensures ModWrap(ModWrap(k + 1, n) - 1, n) == k
  {
    if k + 1 < n {
      ModWrapIdentity(k + 1, n);
      ModWrapIdentity(k, n);
    } else {
      ModWrapPeriodic(0, 1, n);
      ModWrapIdentity(0, n);
      ModWrapMinusOne(n);
    }
  }

  // -------------------------------------------------------------- escape

  /** What was centered last. */
  datatype Last = LastView | LastItem

  /** The centering controller: the item centered last, which kind of
      centering happened last, the surface state and the view matrix. */
  datatype Controller = Controller(centered: Option<Item>, last: Last, state: Gesture.State, view: Matrix)

  /** `centerItem(item)` (src/surface.tsx:521-535). */
  function CenterItem(c: Controller, item: Item, frame: Point): (r: Controller)
    requires frame.x > 0.0 && frame.y > 0.0 && Sized(item)
    ensures r.centered == Some(item) && r.last == LastItem && r.state == Gesture.CenteringItem
    ensures Uniform(r.view) && r.view.a <= 1.0
    ensures Frames(r.view, item.rect, frame, ItemPadding)
  {
    Controller(Some(item), LastItem, Gesture.CenteringItem, CenterMatrix(frame, item.rect, ItemPadding))
  }

  /** `viewRect` (src/surface.tsx:464-468): the bounding union of all item
      rectangles; there is none while the surface has no items. */
  function ViewRect(items: seq<Item>): (r: Option<Rect>)
    requires forall it :: it in items ==> Sized(it)
    ensures r.None? <==> |items| == 0
    ensures r.Some? ==> r.value.width >= 0.0 && r.value.height >= 0.0
    ensures r.Some? ==> forall it :: it in items ==> Encloses(r.value, it.rect)
  {
    if |items| == 0 then None
    else
      var rs := seq(|items|, i requires 0 <= i < |items| => items[i].rect);
      assert forall i :: 0 <= i < |rs| ==> items[i] in items && Sized(items[i]) && rs[i] == items[i].rect;
      var u := Combine(rs);
      assert forall it :: it in items ==> Encloses(u, it.rect) by {
        forall it | it in items ensures Encloses(u, it.rect) {
          var i :| 0 <= i < |items| && items[i] == it;
          assert rs[i] == it.rect;
        }
      }
      Some(u)
  }

  /** `centerView(mode, paddingPct)` (src/surface.tsx:576-587): always
      remembers that the view was centered last and moves to `mode`; the
      matrix changes only when the items have a bounding rectangle, which is
      then framed with `pct` padding. Escape calls it with the defaults
      `CenteringView` and `ViewPadding`; the surface's first effect calls it
      with `Idle` and `InitialViewPadding`. */
  function CenterView(c: Controller, viewRect: Option<Rect>, frame: Point, mode: Gesture.State, pct: real): (r: Controller)
    requires frame.x > 0.0 && frame.y > 0.0 && pct >= 0.0
    requires viewRect.Some? ==> viewRect.value.width >= 0.0 && viewRect.value.height >= 0.0
    ensures r.last == LastView && r.centered == c.centered && r.state == mode
    ensures viewRect.None? ==> r.view == c.view
    ensures viewRect.Some? ==> Uniform(r.view) && r.view.a <= 1.0 && r.view.a == CenterScale(frame, viewRect.value, pct)
    ensures viewRect.Some? ==> Frames(r.view, viewRect.value, frame, pct)
  {
    var view := if viewRect.Some? then CenterMatrix(frame, viewRect.value, pct) else c.view;
    Controller(c.centered, LastView, mode, view)
  }

  /** The first centering (src/surface.tsx:590-592) frames a wider view than
      a later `centerView()`: its zoom is never larger, and it leaves the
      surface Idle rather than in the centering state. */
  lemma InitialViewWider(c: Controller, viewRect: Rect, frame: Point)
    requires frame.x > 0.0 && frame.y > 0.0 && viewRect.width >= 0.0 && viewRect.height >= 0.0
    ensures CenterView(c, Some(viewRect), frame, Gesture.Idle, InitialViewPadding).state == Gesture.Idle
    ensures CenterView(c, Some(viewRect), frame, Gesture.Idle, InitialViewPadding).view.a
         <= CenterView(c, Some(viewRect), frame, Gesture.CenteringView, ViewPadding).view.a
  {
    CenterScaleAntitone(frame, viewRect, ViewPadding, InitialViewPadding);
  }

  /** `centerRect(rect)` (src/surface.tsx:511-519): centers an arbitrary
      rectangle and counts as centering the view. */
  function CenterRect(c: Controller, rect: Rect, frame: Point): (r: Controller)
    requires frame.x > 0.0 && frame.y > 0.0 && rect.width >= 0.0 && rect.height >= 0.0
    ensures r.last == LastView && r.centered == c.centered && r.state == Gesture.CenteringView
    ensures Uniform(r.view) && Frames(r.view, rect, frame, RectPadding)
  {
    Controller(c.centered, LastView, Gesture.CenteringView, CenterMatrix(frame, rect, RectPadding))
  }

  /** The id of the remembered item, if any. */
  function CenteredId(c: Controller): Option<int> {
    if c.centered.Some? then Some(c.centered.value.id) else None
  }

  /** Alt+Right / Alt+Left (src/surface.tsx:537-572, 610-615): center the
      next or previous item of the cycle and remember it. */
  function CenterOther(c: Controller, items: seq<Item>, diff: int, frame: Point): (r: Result<Controller, string>)
    requires frame.x > 0.0 && frame.y > 0.0
    requires forall it :: it in items ==> Sized(it)
    ensures r.Err? <==> |Cycle(items)| == 0
    ensures r.Ok? ==> r.value.centered == OtherItem(items, CenteredId(c), diff)
                      && r.value.last == LastItem && r.value.state == Gesture.CenteringItem
    ensures r.Ok? ==> Uniform(r.value.view)
    ensures r.Ok? ==> r.value.centered.Some? && Sized(r.value.centered.value)
    ensures r.Ok? ==> Frames(r.value.view, r.value.centered.value.rect, frame, OtherItemPadding)
  {
    match CenterOtherItem(items, CenteredId(c), diff, frame)
    case Err(e) => Err(e)
    case Ok((item, m)) =>
      Ok(Controller(Some(item), LastItem, Gesture.CenteringItem, m))
  }

  /** The Escape key (src/surface.tsx:600-606): back to the remembered item
      when the view was centered last, otherwise center the view. */
  function Escape(c: Controller, viewRect: Option<Rect>, frame: Point): (r: Controller)
    requires frame.x > 0.0 && frame.y > 0.0
    requires c.centered.Some? ==> Sized(c.centered.value)
    requires viewRect.Some? ==> viewRect.value.width >= 0.0 && viewRect.value.height >= 0.0
    ensures c.centered.Some? && c.last == LastView ==> r == CenterItem(c, c.centered.value, frame)
    ensures !(c.centered.Some? && c.last == LastView) ==> r == CenterView(c, viewRect, frame, Gesture.CenteringView, ViewPadding)
  {
    if c.centered.Some? && c.last == LastView then CenterItem(c, c.centered.value, frame)
    else CenterView(c, viewRect, frame, Gesture.CenteringView, ViewPadding)
  }

  /** After cycling to an item, Escape centers the whole view, and a second
      Escape returns to that item. */
  lemma EscapeAfterCycling(c: Controller, items: seq<Item>, diff: int, viewRect: Option<Rect>, frame: Point)
    requires frame.x > 0.0 && frame.y > 0.0
    requires forall it :: it in items ==> Sized(it)
    requires viewRect.Some? ==> viewRect.value.width >= 0.0 && viewRect.value.height >= 0.0
    requires CenterOther(c, items, diff, frame).Ok?
    ensures var c1 := CenterOther(c, items, diff, frame).value;
      var c2 := Escape(c1, viewRect, frame);
      c2.state == Gesture.CenteringView && c2.last == LastView
      && Escape(c2, viewRect, frame).state == Gesture.CenteringItem
      && Escape(c2, viewRect, frame).centered == c1.centered
  {
    var c1 := CenterOther(c, items, diff, frame).value;
    assert c1.centered.Some? && Sized(c1.centered.value);
  }

  /** Escape toggles: once an item has been centered, two presses in a row
      center the item and the view, one each, in either order. */
  lemma EscapeToggles(c: Controller, viewRect: Option<Rect>, frame: Point)
    requires frame.x > 0.0 && frame.y > 0.0
    requires c.centered.Some? && Sized(c.centered.value)
    requires viewRect.Some? ==> viewRect.value.width >= 0.0 && viewRect.value.height >= 0.0
    ensures var once := Escape(c, viewRect, frame);
      var twice := Escape(once, viewRect, frame);
      once.last != twice.last && once.centered == twice.centered == c.centered
      && {once.state, twice.state} == {Gesture.CenteringItem, Gesture.CenteringView}
  {
  }

  // ------------------------------------------------------------ easing

  /** The fraction of the remaining distance each frame covers. */
  const Ease: real := 0.342

  /** The residual below which a component counts as settled. */
  const SettleDistance: real := 3.0

  /** One component of a frame: move `Ease` of the way to the target. */
  function EaseComponent(v: real, t: real): (w: real)
    ensures t - w == (1.0 - Ease) * (t - v)
  {
    v + (t - v) * Ease
  }

  function EaseMatrix(m: Matrix, t: Matrix): Matrix {
    Matrix(EaseComponent(m.a, t.a), EaseComponent(m.b, t.b), EaseComponent(m.c, t.c),
           EaseComponent(m.d, t.d), EaseComponent(m.e, t.e), EaseComponent(m.f, t.f))
  }

  /** The six components of a matrix, in DOMMatrix order. */
  function Components(m: Matrix): (cs: seq<real>)
    ensures |cs| == 6
  {
    [m.a, m.b, m.c, m.d, m.e, m.f]
  }

  /** The summed distance of values to their targets. */
  function Distance(xs: seq<real>, ts: seq<real>): (r: real)
    requires |xs| == |ts|
    ensures r >= 0.0
  {
    if |xs| == 0 then 0.0 else Abs(ts[0] - xs[0]) + Distance(xs[1..], ts[1..])
  }

  /** The sum of the six components' distances to the target. */
  function Residual(m: Matrix, t: Matrix): real {
    Distance(Components(m), Components(t))
  }

  /** All six pre-step residuals are below the settle distance. */
  predicate Settled(m: Matrix, t: Matrix) {
    Abs(t.a - m.a) < SettleDistance && Abs(t.b - m.b) < SettleDistance && Abs(t.c - m.c) < SettleDistance
    && Abs(t.d - m.d) < SettleDistance && Abs(t.e - m.e) < SettleDistance && Abs(t.f - m.f) < SettleDistance
  }

  /** One animation frame (src/surface.ts:258-287): every component moves
      `Ease` of the way; when all six were already within the settle
      distance the matrix is set to the target and the animation stops,
      otherwise another frame is scheduled. */
  function DrawFrame(m: Matrix, t: Matrix): (r: (Matrix, bool))
    ensures r.1 <==> !Settled(m, t)
    ensures !r.1 ==> r.0 == t
  {
    if Settled(m, t) then (t, false) else (EaseMatrix(m, t), true)
  }

  /** A component's distance to the target shrinks by the factor `1 - Ease`. */
  lemma EaseDistance(v: real, t: real)
    ensures Abs(t - EaseComponent(v, t)) == (1.0 - Ease) * Abs(t - v)
  {
  }

  /** Easing every value scales the summed distance by `1 - Ease`. */
  lemma {:induction false} EaseScalesDistance(xs: seq<real>, ts: seq<real>, ys: seq<real>)
    requires |xs| == |ts| == |ys|
    requires forall i :: 0 <= i < |ys| ==> ys[i] == EaseComponent(xs[i], ts[i])
    ensures Distance(ys, ts) == (1.0 - Ease) * Distance(xs, ts)
  {
    if |xs| > 0 {
      EaseDistance(xs[0], ts[0]);
      EaseScalesDistance(xs[1..], ts[1..], ys[1..]);
    }
  }

  /** The summed distance is at least any one value's distance. */
  lemma {:induction false} DistanceAtLeast(xs: seq<real>, ts: seq<real>, i: int)
    requires |xs| == |ts| && 0 <= i < |xs|
    ensures Distance(xs, ts) >= Abs(ts[i] - xs[i])
  {
    if i > 0 {
      DistanceAtLeast(xs[1..], ts[1..], i - 1);
    }
  }

  /** A frame that is not the last shrinks the total residual by the factor `1 - Ease`. */
  lemma FrameResidual(m: Matrix, t: Matrix)
    requires !Settled(m, t)
    ensures Residual(DrawFrame(m, t).0, t) == (1.0 - Ease) * Residual(m, t)
  {
    EaseScalesDistance(Components(m), Components(t), Components(EaseMatrix(m, t)));
  }

  /** A frame that is not the last shrinks the residual by at least one:
      some component is at least the settle distance away, so the total is
      at least that, and `Ease` of it exceeds 1. */
  lemma FrameProgress(m: Matrix, t: Matrix)
    requires !Settled(m, t)
    ensures Residual(DrawFrame(m, t).0, t) <= Residual(m, t) - 1.0
  {
    FrameResidual(m, t);
    var xs, ts := Components(m), Components(t);
    var i := if Abs(t.a - m.a) >= SettleDistance then 0
      else if Abs(t.b - m.b) >= SettleDistance then 1
      else if Abs(t.c - m.c) >= SettleDistance then 2
      else if Abs(t.d - m.d) >= SettleDistance then 3
      else if Abs(t.e - m.e) >= SettleDistance then 4
      else 5;
    DistanceAtLeast(xs, ts, i);
  }

  /** The animation to completion: frames run while some component is not
      settled, and the last frame lands exactly on the target. It always
      ends; the number of frames is returned. */
  method Animate(m0: Matrix, t: Matrix) returns (m: Matrix, frames: nat)
    ensures m == t
    ensures frames >= 1
    ensures Settled(m0, t) ==> frames == 1
  {
    m := m0;
    frames := 1;
    var again := true;
    while again
      invariant again ==> frames >= 1
      invariant !again ==> m == t
      invariant again && frames == 1 ==> m == m0
      invariant Settled(m0, t) ==> frames == 1
      decreases again, Residual(m, t).Floor
    {
      var r := DrawFrame(m, t);
      if r.1 {
        FrameProgress(m, t);
        frames := frames + 1;
      }
      m, again := r.0, r.1;
    }
  }

  /** The older surface's frame on a view that may be NaN: a NaN matrix
      never settles (every comparison with NaN is false), so once the view
      is NaN a centering target keeps the animation running forever. */
  function LegacyDrawFrame(v: LegacyView): (r: (LegacyView, bool))
    ensures v.target.None? ==> r == (v, false)
    ensures v.target.Some? && v.matrix.NaNMatrix? ==> r == (v, true)
    ensures v.target.Some? && v.matrix.Finite? ==>
      r.0.matrix == Finite(DrawFrame(v.matrix.m, v.target.value).0) && r.1 == DrawFrame(v.matrix.m, v.target.value).1
  {
    if v.target.None? then (v, false)
    else
      match v.matrix
      case NaNMatrix => (v, true)
      case Finite(m) =>
        var r := DrawFrame(m, v.target.value);
        (v.(matrix := Finite(r.0)), r.1)
  }
}

=== FILE: geometry.dfy ===
/** Minimal geometry the surface is built on: points, rectangles and the
    2D affine matrix of the browser's DOMMatrix. The point and rectangle
    types come from a library that is not part of this model; their
    semantics here are the ones the call sites rely on. */
module Geometry {

  /** A 2D point (or a 2D size, or a 2D delta). */
  datatype Point = Point(x: real, y: real) {

    /** Component-wise sum; `Point.translate(p)`. */
    function Translate(q: Point): Point {
      Point(x + q.x, y + q.y)
    }

    /** Component-wise difference, `this.screen(q)`: the vector from `q` to `this`. */
    function Screen(q: Point): Point {
      Point(x - q.x, y - q.y)
    }

    /** Uniform scaling by a scalar. */
    function Scale(k: real): Point {
      Point(x * k, y * k)
    }

    function Negate(): Point {
      Point(-x, -y)
    }

    /** `|x| + |y|`, used to detect a zero pointer delta. */
    function AbsoluteSum(): real {
      Abs(x) + Abs(y)
    }
  }

  function Abs(v: real): real {
    if v < 0.0 then -v else v
  }

  function Min(a: real, b: real): real {
    if a <= b then a else b
  }

  function Max(a: real, b: real): real {
    if a <= b then b else a
  }

  /** An axis-aligned rectangle: top-left corner plus size. */
  datatype Rect = Rect(x: real, y: real, width: real, height: real) {

    function Right(): real {
      x + width
    }

    function Bottom(): real {
      y + height
    }

    function Pos(): Point {
      Point(x, y)
    }

    function Size(): Point {
      Point(width, height)
    }

    /** The bottom-right corner, `size.translate(pos)`. */
    function Corner(): Point {
      Point(x + width, y + height)
    }

    function Center(): Point {
      Point(x + width / 2.0, y + height / 2.0)
    }

    predicate Contains(p: Point) {
      x <= p.x <= x + width && y <= p.y <= y + height
    }
  }

  /** Two rectangles overlap (edges touching count as overlap). */
  predicate Intersects(r: Rect, s: Rect) {
    r.x <= s.Right() && s.x <= r.Right() && r.y <= s.Bottom() && s.y <= r.Bottom()
  }

  lemma IntersectsSymmetric(r: Rect, s: Rect)
    ensures Intersects(r, s) <==> Intersects(s, r)
  {
  }

  /** The 2D affine matrix
        | a c e |
        | b d f |
      mapping world space to screen space. */
  datatype Matrix = Matrix(a: real, b: real, c: real, d: real, e: real, f: real)

  /** A uniform scale with translation and no rotation or skew: the only
      kind of view matrix the surface produces. */
  predicate Uniform(m: Matrix) {
    m.b == 0.0 && m.c == 0.0 && m.a == m.d && m.a > 0.0
  }

  function UniformMatrix(s: real, e: real, f: real): (m: Matrix)
    requires s > 0.0
    ensures Uniform(m) && m.a == s && m.e == e && m.f == f
  {
    Matrix(s, 0.0, 0.0, s, e, f)
  }

  /** The forward map world -> screen: the world origin lands on the
      translation `(e, f)`. */
  function Apply(m: Matrix, p: Point): (r: Point)
    ensures p == Point(0.0, 0.0) ==> r == Point(m.e, m.f)
  {
    Point(m.a * p.x + m.c * p.y + m.e, m.b * p.x + m.d * p.y + m.f)
  }

  /** `DOMMatrix.translate(tx, ty)`: post-multiplies by a translation, so the
      translation is applied in the matrix's own (world) coordinates. */
  function Translate(m: Matrix, tx: real, ty: real): (r: Matrix)
    ensures r.a == m.a && r.b == m.b && r.c == m.c && r.d == m.d
  {
    Matrix(m.a, m.b, m.c, m.d, m.a * tx + m.c * ty + m.e, m.b * tx + m.d * ty + m.f)
  }

  /** `DOMMatrix.scale(k)`: post-multiplies by a uniform scale about the origin. */
  function Scale(m: Matrix, k: real): (r: Matrix)
    ensures r.e == m.e && r.f == m.f
  {
    Matrix(m.a * k, m.b * k, m.c * k, m.d * k, m.e, m.f)
  }

  /** Post-multiplication: translating the matrix is the same as translating
      the world point before applying it. */
  lemma TranslateComposes(m: Matrix, tx: real, ty: real, p: Point)
    ensures Apply(Translate(m, tx, ty), p) == Apply(m, p.Translate(Point(tx, ty)))
  {
    assert m.a * (p.x + tx) == m.a * p.x + m.a * tx;
    assert m.c * (p.y + ty) == m.c * p.y + m.c * ty;
    assert m.b * (p.x + tx) == m.b * p.x + m.b * tx;
    assert m.d * (p.y + ty) == m.d * p.y + m.d * ty;
  }

  /** Scaling the matrix is the same as scaling the world point first. */
  lemma ScaleComposes(m: Matrix, k: real, p: Point)
    ensures Apply(Scale(m, k), p) == Apply(m, p.Scale(k))
  {
    calc {
      Apply(Scale(m, k), p).x;
      (m.a * k) * p.x + (m.c * k) * p.y + m.e;
      m.a * (p.x * k) + m.c * (p.y * k) + m.e;
    }
    calc {
      Apply(Scale(m, k), p).y;
      (m.b * k) * p.x + (m.d * k) * p.y + m.f;
      m.b * (p.x * k) + m.d * (p.y * k) + m.f;
    }
  }

  /** `scalePoint` (surface.ts): divides a screen-space delta by the zoom. */
  function ScalePoint(m: Matrix, p: Point): (r: Point)
    requires m.a != 0.0 && m.d != 0.0
    ensures r.x * m.a == p.x && r.y * m.d == p.y
  {
    Point(p.x / m.a, p.y / m.d)
  }

  /** `normalizePoint` (surface.ts), also `Point.normalize(matrix)`: screen -> world.
      The world point, scaled back by the matrix, is the screen point's
      offset from the translation. */
  function Normalize(m: Matrix, p: Point): (r: Point)
    requires m.a != 0.0 && m.d != 0.0
    ensures r.x * m.a == p.x - m.e && r.y * m.d == p.y - m.f
  {
    var offset := Point(p.x - m.e, p.y - m.f);
    var w := ScalePoint(m, offset);
    assert w.x * m.a == offset.x && w.y * m.d == offset.y;
    w
  }

  /** Screen -> world undoes world -> screen, for a matrix without skew. */
  lemma NormalizeApply(m: Matrix, p: Point)
    requires m.a != 0.0 && m.d != 0.0 && m.b == 0.0 && m.c == 0.0
    ensures Normalize(m, Apply(m, p)) == p
  {
    var q := Apply(m, p);
    var n := Normalize(m, q);
    assert q.x - m.e == p.x * m.a && q.y - m.f == p.y * m.d;
    Cancel(n.x, p.x, m.a);
    Cancel(n.y, p.y, m.d);
  }

  /** A non-zero factor cancels. */
  lemma Cancel(x: real, y: real, k: real)
    requires k != 0.0 && x * k == y * k
    ensures x == y
  {
    assert (x - y) * k == 0.0;
  }

  /** World -> screen undoes screen -> world, for a matrix without skew. */
  lemma ApplyNormalize(m: Matrix, q: Point)
    requires m.a != 0.0 && m.d != 0.0 && m.b == 0.0 && m.c == 0.0
    ensures Apply(m, Normalize(m, q)) == q
  {
    var n := Normalize(m, q);
    assert m.a * n.x == q.x - m.e;
    assert m.d * n.y == q.y - m.f;
  }

  /** `Rect.normalize(matrix)`: a screen rectangle mapped into world space. */
  function NormalizeRect(m: Matrix, r: Rect): (w: Rect)
    requires m.a > 0.0 && m.d > 0.0
    ensures w.Pos() == Normalize(m, r.Pos())
    ensures w.width * m.a == r.width && w.height * m.d == r.height
  {
    var p := Normalize(m, r.Pos());
    Rect(p.x, p.y, r.width / m.a, r.height / m.d)
  }

  /** A world point lies in the normalized rectangle exactly when its
      screen image lies in the screen rectangle. */
  lemma NormalizeRectContains(m: Matrix, r: Rect, p: Point)
    requires Uniform(m)
    ensures NormalizeRect(m, r).Contains(p) <==> r.Contains(Apply(m, p))
  {
    var w := NormalizeRect(m, r);
    var q := Apply(m, p);
    assert w.x * m.a == r.x - m.e;
    assert w.y * m.a == r.y - m.f;
    assert q.x == m.a * p.x + m.e && q.y == m.a * p.y + m.f;
    assert w.x <= p.x <==> r.x <= q.x by {
      MulMonotone(m.a, w.x, p.x);
    }
    assert p.x <= w.x + w.width <==> q.x <= r.x + r.width by {
      MulMonotone(m.a, p.x, w.x + w.width);
    }
    assert w.y <= p.y <==> r.y <= q.y by {
      MulMonotone(m.a, w.y, p.y);
    }
    assert p.y <= w.y + w.height <==> q.y <= r.y + r.height by {
      MulMonotone(m.a, p.y, w.y + w.height);
    }
  }

  lemma MulMonotone(k: real, u: real, v: real)
    requires k > 0.0
    ensures u <= v <==> k * u <= k * v
  {
    if u <= v {
      assert k * v - k * u == k * (v - u);
    } else {
      assert k * u - k * v == k * (u - v);
    }
  }

  /** `Rect.combine`: the bounding union of a non-empty list of rectangles. */
  function Combine(rs: seq<Rect>): (u: Rect)
    requires |rs| > 0
    requires forall i :: 0 <= i < |rs| ==> rs[i].width >= 0.0 && rs[i].height >= 0.0
    ensures u.width >= 0.0 && u.height >= 0.0
    ensures forall i :: 0 <= i < |rs| ==> Encloses(u, rs[i])
    ensures exists i :: 0 <= i < |rs| && rs[i].x == u.x
    ensures exists i :: 0 <= i < |rs| && rs[i].Right() == u.Right()
    ensures exists i :: 0 <= i < |rs| && rs[i].y == u.y
    ensures exists i :: 0 <= i < |rs| && rs[i].Bottom() == u.Bottom()
  {
    if |rs| == 1 then rs[0]
    else
      var t := Combine(rs[1..]);
      var h := rs[0];
      var left := Min(h.x, t.x);
      var top := Min(h.y, t.y);
      var u := Rect(left, top, Max(h.Right(), t.Right()) - left, Max(h.Bottom(), t.Bottom()) - top);
      assert forall i :: 1 <= i < |rs| ==> rs[i] == rs[1..][i - 1];
      u
  }

  /** `outer` contains `inner` entirely. */
  predicate Encloses(outer: Rect, inner: Rect) {
    outer.x <= inner.x && inner.Right() <= outer.Right()
    && outer.y <= inner.y && inner.Bottom() <= outer.Bottom()
  }
}

=== FILE: gesture.dfy ===
/** The surface's pointer handling (src/surface.tsx:620-894): a map of the
    pointers that are down, in the order they went down, drives a state
    machine of panning, pinching, rubber-band selection and minimap
    panning; pointer moves pan, pinch or grow the selection, and the wheel
    zooms. The older surface only counts pointers (src/surface.ts:556-589). */
module Gesture {
  import opened Wrappers
  import opened Geometry
  import opened Viewport

  /** The surface's states (src/surface.tsx:29-43). */
  datatype State = Idle | Overlay | CenteringItem | CenteringView | Connecting | FullSize
                 | MinimapPanning | Panning | Pinching | Selecting | Wheeling
  {
    predicate Centering() {
      this == CenteringItem || this == CenteringView
    }
  }

  // ----------------------------------------------------------- pointers

  /** One entry of the pointer map: a pointer id and its last position. */
  datatype Entry = Entry(id: int, pos: Point)

  /** The ids of a pointer map. */
  function Ids(ps: seq<Entry>): set<int> {
    if |ps| == 0 then {} else {ps[0].id} + Ids(ps[1..])
  }

  lemma {:induction false} IdsHas(ps: seq<Entry>, i: nat)
    requires i < |ps|
    ensures ps[i].id in Ids(ps)
  {
    if i > 0 {
      IdsHas(ps[1..], i - 1);
    }
  }

  /** A JavaScript `Map` from pointer id to position is the sequence of its
      entries in insertion order, with no id twice. */
  predicate Distinct(ps: seq<Entry>) {
    |ps| == 0 || (ps[0].id !in Ids(ps[1..]) && Distinct(ps[1..]))
  }

  /** `pointers.get(id)`. */
  function Find(ps: seq<Entry>, id: int): (r: Option<Point>)
    ensures r.None? <==> id !in Ids(ps)
  {
    if |ps| == 0 then None
    else if ps[0].id == id then Some(ps[0].pos)
    else Find(ps[1..], id)
  }

  /** `pointers.set(id, pos)`: an existing entry keeps its place and gets the
      new position; a new id is appended. */
  function Put(ps: seq<Entry>, id: int, pos: Point): (r: seq<Entry>)
    ensures |r| == if id in Ids(ps) then |ps| else |ps| + 1
    ensures Ids(r) == Ids(ps) + {id}
    ensures Distinct(ps) ==> Distinct(r)
    ensures Distinct(ps) ==> forall i :: 0 <= i < |ps| ==> r[i] == if ps[i].id == id then Entry(id, pos) else ps[i]
    ensures id !in Ids(ps) ==> r[|ps|] == Entry(id, pos)
  {
    if |ps| == 0 then [Entry(id, pos)]
    else if ps[0].id == id then
      var r := [Entry(id, pos)] + ps[1..];
      assert r[1..] == ps[1..];
      forall i | 1 <= i < |ps|
        ensures ps[i].id in Ids(ps[1..])
      {
        IdsHas(ps[1..], i - 1);
      }
      r
    else
      var rest := Put(ps[1..], id, pos);
      var r := [ps[0]] + rest;
      assert r[1..] == rest;
      r
  }

  /** `pointers.delete(id)`. */
  function Remove(ps: seq<Entry>, id: int): (r: seq<Entry>)
    requires Distinct(ps)
    ensures Distinct(r)
    ensures Ids(r) == Ids(ps) - {id}
    ensures |r| == if id in Ids(ps) then |ps| - 1 else |ps|
  {
    if |ps| == 0 then ps
    else
      var rest := Remove(ps[1..], id);
      if ps[0].id == id then rest
      else
        var r := [ps[0]] + rest;
        assert r[1..] == rest;
        r
  }

  /** Looking a pointer up after setting it finds the new position; every
      other pointer is found where it was. */
  lemma {:induction false} FindPut(ps: seq<Entry>, id: int, pos: Point, other: int)
    ensures Find(Put(ps, id, pos), id) == Some(pos)
    ensures other != id ==> Find(Put(ps, id, pos), other) == Find(ps, other)
  {
    if |ps| > 0 && ps[0].id != id {
      FindPut(ps[1..], id, pos, other);
      assert Put(ps, id, pos)[1..] == Put(ps[1..], id, pos);
    } else if |ps| > 0 {
      assert Put(ps, id, pos)[1..] == ps[1..];
    }
  }

  /** After a delete the pointer is gone and every other one is found where it was. */
  lemma {:induction false} FindRemove(ps: seq<Entry>, id: int, other: int)
    requires Distinct(ps)
    ensures Find(Remove(ps, id), id).None?
    ensures other != id ==> Find(Remove(ps, id), other) == Find(ps, other)
  {
    if |ps| > 0 {
      assert forall i, j :: 0 <= i < j < |ps[1..]| ==> ps[1..][i] == ps[i + 1] && ps[1..][j] == ps[j + 1];
      FindRemove(ps[1..], id, other);
      if ps[0].id != id {
        assert Remove(ps, id)[1..] == Remove(ps[1..], id);
      }
    }
  }

  // ------------------------------------------------------------ surface

  /** The pointer-driven part of the surface: its state, the pointer map,
      the view matrix, the pinch baseline, and the rubber band's anchor and
      rectangle (screen coordinates). */
  datatype Surface = Surface(state: State, pointers: seq<Entry>, view: Matrix, baseline: Baseline,
                             selectingStart: Option<Point>, selectingRect: Option<Rect>)

  predicate Valid(s: Surface) {
    Distinct(s.pointers) && Uniform(s.view) && ValidBaseline(s.baseline)
  }

  /** Pointer-down on the surface (src/surface.tsx:661-686). Only presses
      with the left button held count. The first pointer starts a selection
      when Ctrl is held, minimap panning when pressed on the minimap, and
      panning otherwise; a second pointer starts a pinch. */
  function PointerDown(s: Surface, leftHeld: bool, id: int, pos: Point, ctrl: bool, onMinimap: bool): (r: Surface)
    requires Valid(s)
    ensures Valid(r)
    ensures !leftHeld ==> r == s
    ensures leftHeld ==> r.pointers == Put(s.pointers, id, pos) && r.view == s.view && r.baseline == s.baseline
    ensures leftHeld && |r.pointers| == 1 ==>
      (ctrl ==> r.state == Selecting && r.selectingStart == Some(pos))
      && (!ctrl && onMinimap ==> r.state == MinimapPanning)
      && (!ctrl && !onMinimap ==> r.state == Panning)
    ensures leftHeld && |r.pointers| == 2 ==> r.state == Pinching
    ensures leftHeld && |r.pointers| > 2 ==> r.state == s.state
    ensures r.selectingRect == s.selectingRect
  {
    if !leftHeld then s
    else
      var ps := Put(s.pointers, id, pos);
      var s1 := s.(pointers := ps);
      if |ps| == 1 then
        if ctrl then s1.(state := Selecting, selectingStart := Some(pos))
        else if onMinimap then s1.(state := MinimapPanning)
        else s1.(state := Panning)
      else if |ps| == 2 then s1.(state := Pinching)
      else s1
  }

  /** The rubber band between the anchor and the pointer
      (src/surface.tsx:878-887): the top-left is the smaller coordinate on
      each axis and the size the absolute difference. */
  function SelectionRect(start: Point, end: Point): (r: Rect)
    ensures r.width >= 0.0 && r.height >= 0.0
    ensures r.Contains(start) && r.Contains(end)
  {
    Rect(Min(start.x, end.x), Min(start.y, end.y), Abs(end.x - start.x), Abs(end.y - start.y))
  }

  /** The rubber band does not depend on which end is the anchor. */
  lemma SelectionRectSymmetric(start: Point, end: Point)
    ensures SelectionRect(start, end) == SelectionRect(end, start)
  {
  }

  /** The rubber band is the smallest rectangle holding both ends: any
      rectangle containing both contains it. */
  lemma SelectionRectSmallest(start: Point, end: Point, r: Rect)
    requires r.Contains(start) && r.Contains(end)
    ensures Encloses(r, SelectionRect(start, end))
  {
  }

  /** `items.filter(x => x.rect.intersectsRect(rect))`. */
  function Selected(items: seq<Rect>, world: Rect): (sel: seq<Rect>)
    ensures |sel| <= |items|
    ensures forall x :: x in sel <==> x in items && Intersects(x, world)
  {
    if |items| == 0 then []
    else
      var rest := Selected(items[1..], world);
      assert forall x :: x in items <==> x == items[0] || x in items[1..];
      if Intersects(items[0], world) then [items[0]] + rest else rest
  }

  /** What a pointer-up or pointer-cancel produces: the surface and, when a
      selection ends, the items it selected. */
  datatype Released = Released(surface: Surface, selected: Option<seq<Rect>>)

  /** Pointer-up or pointer-cancel (src/surface.tsx:624-653). The pointer is
      forgotten first. While centering nothing else happens. When the last
      pointer lifts, a selection emits the items meeting the rubber band
      (taken into world space) and any other state returns to idle; when
      one pointer remains the surface pans with it and the pinch baseline is
      dropped. Ending a selection that never got a rectangle throws. */
  function Clear(s: Surface, id: int, items: seq<Rect>): (r: Result<Released, string>)
    requires Valid(s)
    ensures r.Ok? ==> Valid(r.value.surface) && r.value.surface.pointers == Remove(s.pointers, id)
    ensures r.Ok? ==> r.value.surface.view == s.view
    ensures r.Ok? ==> r.value.surface.selectingStart == s.selectingStart && r.value.surface.selectingRect == s.selectingRect
    ensures r.Ok? && |Remove(s.pointers, id)| != 1 ==> r.value.surface.baseline == s.baseline
    ensures r.Err? <==> !s.state.Centering() && |Remove(s.pointers, id)| == 0 && s.state == Selecting && s.selectingRect.None?
    ensures r.Ok? && s.state.Centering() ==> r.value == Released(s.(pointers := Remove(s.pointers, id)), None)
    ensures r.Ok? && r.value.selected.Some? ==>
      s.state == Selecting && r.value.surface.state == Selecting && s.selectingRect.Some?
      && r.value.selected.value == Selected(items, NormalizeRect(s.view, s.selectingRect.value))
    ensures r.Ok? && !s.state.Centering() && |Remove(s.pointers, id)| == 0 && s.state != Selecting ==>
      r.value.surface.state == Idle && r.value.selected.None?
    ensures r.Ok? && !s.state.Centering() && |Remove(s.pointers, id)| == 1 ==>
      r.value.surface.state == Panning && r.value.surface.baseline.NoBaseline?
    ensures r.Ok? && !s.state.Centering() && |Remove(s.pointers, id)| >= 2 ==>
      r.value == Released(s.(pointers := Remove(s.pointers, id)), None)
    ensures r.Ok? && !s.state.Centering() && |Remove(s.pointers, id)| == 0 && s.state == Selecting ==>
      r.value.selected.Some?
  {
    var ps := Remove(s.pointers, id);
    var s1 := s.(pointers := ps);
    if s.state.Centering() then Ok(Released(s1, None))
    else if |ps| == 0 then
      if s.state == Selecting then
        if s.selectingRect.None? then Err("no selection rectangle")
        else
          var world := NormalizeRect(s.view, s.selectingRect.value);
          Ok(Released(s1, Some(Selected(items, world))))
      else Ok(Released(s1.(state := Idle), None))
    else if |ps| == 1 then Ok(Released(s1.(state := Panning, baseline := NoBaseline), None))
    else Ok(Released(s1, None))
  }

  /** An item is selected exactly when some world point of it is shown
      inside the rubber band on screen, for items meeting the band in a
      point. Here: an item containing a world point whose image lies in the
      band is selected. */
  lemma ClearSelectsShownItem(s: Surface, id: int, items: seq<Rect>, item: Rect, w: Point)
    requires Valid(s) && !s.state.Centering() && s.state == Selecting && s.selectingRect.Some?
    requires |Remove(s.pointers, id)| == 0
    requires item in items && item.Contains(w) && s.selectingRect.value.Contains(Apply(s.view, w))
    ensures Clear(s, id, items).Ok?
    ensures item in Clear(s, id, items).value.selected.value
  {
    NormalizeRectContains(s.view, s.selectingRect.value, w);
    var world := NormalizeRect(s.view, s.selectingRect.value);
    assert Intersects(item, world);
  }

  /** Pointer-move while panning (src/surface.tsx:694-717): only a tracked
      pointer pans; its new position is stored and the view follows it. */
  function PanMove(s: Surface, id: int, n: Point): (r: Surface)
    requires Valid(s)
    ensures Valid(r) && r.view.a == s.view.a && r.state == s.state
    ensures s.state != Panning || Find(s.pointers, id).None? ==> r == s
    ensures s.state == Panning && Find(s.pointers, id).Some? ==>
      r.pointers == Put(s.pointers, id, n) && r.view == Pan(s.view, Find(s.pointers, id).value, n)
  {
    if s.state != Panning then s
    else
      match Find(s.pointers, id)
      case None => s
      case Some(p) => s.(pointers := Put(s.pointers, id, n), view := Pan(s.view, p, n))
  }

  /** Panning keeps the world point that was under the pointer under it. */
  lemma PanMoveKeepsGrabbedPoint(s: Surface, id: int, n: Point)
    requires Valid(s) && s.state == Panning && Find(s.pointers, id).Some?
    ensures Apply(PanMove(s, id, n).view, Normalize(s.view, Find(s.pointers, id).value)) == n
  {
    PanKeepsGrabbedPoint(s.view, Find(s.pointers, id).value, n);
  }

  /** Pointer-move while pinching (src/surface.tsx:759-814). The pointer must
      be tracked (the source dereferences it unchecked and throws). Its new
      position is stored; with at least two pointers, the first two in the
      map drive the pinch frame, `dist` being the distance between them. */
  function PinchMove(s: Surface, id: int, n: Point, dist: real, minZoom: real, maxZoom: real): (r: Result<Surface, string>)
    requires Valid(s) && dist >= 0.0
    ensures r.Ok? ==> Valid(r.value) && r.value.state == s.state
    ensures s.state != Pinching ==> r == Ok(s)
    ensures s.state == Pinching ==> (r.Err? <==> Find(s.pointers, id).None?)
    ensures r.Ok? && s.state == Pinching ==> r.value.pointers == Put(s.pointers, id, n)
    ensures r.Ok? && s.state == Pinching && |Put(s.pointers, id, n)| < 2 ==> r.value.view == s.view && r.value.baseline == s.baseline
    ensures r.Ok? && s.state == Pinching && Find(s.pointers, id).Some? && |Put(s.pointers, id, n)| >= 2 ==>
      var ps := Put(s.pointers, id, n);
      var st := PinchFrame(Pinch(s.view, s.baseline), ps[0].pos, ps[1].pos, n.Screen(Find(s.pointers, id).value), dist, minZoom, maxZoom);
      r.value.view == st.view && r.value.baseline == st.baseline
  {
    if s.state != Pinching then Ok(s)
    else
      match Find(s.pointers, id)
      case None => Err("untracked pointer")
      case Some(p) =>
        var ps := Put(s.pointers, id, n);
        if |ps| < 2 then Ok(s.(pointers := ps))
        else
          var st := PinchFrame(Pinch(s.view, s.baseline), ps[0].pos, ps[1].pos, n.Screen(p), dist, minZoom, maxZoom);
          Ok(s.(pointers := ps, view := st.view, baseline := st.baseline))
  }

  /** Once a baseline is recorded and the asked-for zoom is within bounds, a
      pinch frame carries the world point under the two pointers' midpoint
      along with the moving pointer's delta. */
  lemma PinchMoveFollowsMidpoint(s: Surface, id: int, n: Point, dist: real, minZoom: real, maxZoom: real)
    requires Valid(s) && dist > 0.0 && s.state == Pinching && s.baseline.Baseline?
    requires Find(s.pointers, id).Some? && |Put(s.pointers, id, n)| >= 2
    requires minZoom <= PinchScale(s.baseline, dist) <= maxZoom
    ensures var ps := Put(s.pointers, id, n);
      var mid := Midpoint(ps[0].pos, ps[1].pos);
      Apply(PinchMove(s, id, n, dist, minZoom, maxZoom).value.view, Normalize(s.view, mid))
        == mid.Translate(n.Screen(Find(s.pointers, id).value))
  {
    var ps := Put(s.pointers, id, n);
    var delta := n.Screen(Find(s.pointers, id).value);
    PinchFollowsMidpoint(Pinch(s.view, s.baseline), ps[0].pos, ps[1].pos, delta, dist, minZoom, maxZoom);
  }

  /** Pointer-move while selecting (src/surface.tsx:861-894): with an anchor
      and a tracked pointer, the rubber band spans from the anchor to the
      pointer. */
  function SelectMove(s: Surface, id: int, n: Point): (r: Surface)
    requires Valid(s)
    ensures Valid(r) && r.view == s.view && r.state == s.state
    ensures s.state != Selecting || s.selectingStart.None? || Find(s.pointers, id).None? ==> r == s
    ensures s.state == Selecting && s.selectingStart.Some? && Find(s.pointers, id).Some? ==>
      r.selectingRect == Some(SelectionRect(s.selectingStart.value, n)) && r.pointers == Put(s.pointers, id, n)
  {
    if s.state != Selecting || s.selectingStart.None? then s
    else
      match Find(s.pointers, id)
      case None => s
      case Some(_) => s.(pointers := Put(s.pointers, id, n), selectingRect := Some(SelectionRect(s.selectingStart.value, n)))
  }

  /** A wheel event (src/surface.tsx:818-857): ignored while centering;
      otherwise, when the wheel zoom applies, the view zooms and the surface
      enters the wheeling state. */
  function WheelEvent(s: Surface, z: JsNumber, pivot: Point, minZoom: real, maxZoom: real): (r: Surface)
    requires Valid(s) && 0.0 < minZoom <= maxZoom
    ensures Valid(r) && r.pointers == s.pointers
    ensures s.state.Centering() ==> r == s
    ensures r != s ==> r.state == Wheeling && minZoom <= r.view.a <= maxZoom
    ensures !s.state.Centering() && Wheel(s.view, z, pivot, minZoom, maxZoom).Some? ==>
      r == s.(state := Wheeling, view := Wheel(s.view, z, pivot, minZoom, maxZoom).value)
    ensures Wheel(s.view, z, pivot, minZoom, maxZoom).None? ==> r == s
  {
    if s.state.Centering() then s
    else
      match Wheel(s.view, z, pivot, minZoom, maxZoom)
      case Some(m) => s.(state := Wheeling, view := m)
      case None => s
  }

  /** A wheel event that zooms keeps the world point under the pivot where
      it was on screen. */
  lemma WheelEventFixesPivot(s: Surface, z: JsNumber, pivot: Point, minZoom: real, maxZoom: real)
    requires Valid(s) && 0.0 < minZoom <= maxZoom && !s.state.Centering()
    requires Wheel(s.view, z, pivot, minZoom, maxZoom).Some?
    ensures Apply(WheelEvent(s, z, pivot, minZoom, maxZoom).view, Normalize(s.view, pivot)) == pivot
  {
    WheelFixesPivot(s.view, z, pivot, minZoom, maxZoom);
  }

  // ------------------------------------------------------- older surface

  /** The older surface's pointer bookkeeping: the map, a separate count,
      whether a pinch baseline is held, and the id of the pointer panning
      the minimap (0 for none). */
  datatype Counter = Counter(pointers: seq<Entry>, count: int, pinching: bool, minimapPanning: int)

  /** Pointer-down on the minimap (src/surface.ts:556-560): minimap panning
      starts only when no pointer is down. It runs before the surface's own
      pointer-down handler sees the event. */
  function MinimapDown(c: Counter, id: int): (r: Counter)
    ensures r.minimapPanning == (if c.count == 0 then id else c.minimapPanning)
    ensures r.pointers == c.pointers && r.count == c.count && r.pinching == c.pinching
  {
    if c.count == 0 then c.(minimapPanning := id) else c
  }

  /** Pointer-down on the surface (src/surface.ts:572-578): record and count. */
  function LegacyDown(c: Counter, id: int, pos: Point): (r: Counter)
    ensures r.pointers == Put(c.pointers, id, pos) && r.count == c.count + 1
    ensures r.pinching == c.pinching && r.minimapPanning == c.minimapPanning
  {
    c.(pointers := Put(c.pointers, id, pos), count := c.count + 1)
  }

  /** Pointer-up anywhere (src/surface.ts:580-589): only a tracked pointer is
      forgotten, uncounted and ends a pinch; the pointer that pans the
      minimap stops it. */
  function LegacyUp(c: Counter, id: int): (r: Counter)
    requires Distinct(c.pointers)
    ensures id in Ids(c.pointers) ==> r.pointers == Remove(c.pointers, id) && r.count == c.count - 1 && !r.pinching
    ensures id !in Ids(c.pointers) ==> r.pointers == c.pointers && r.count == c.count && r.pinching == c.pinching
    ensures r.minimapPanning == (if c.minimapPanning == id then 0 else c.minimapPanning)
  {
    var c1 := if Find(c.pointers, id).Some? then c.(pointers := Remove(c.pointers, id), count := c.count - 1, pinching := false) else c;
    if c1.minimapPanning == id then c1.(minimapPanning := 0) else c1
  }

  /** The count matches the map as long as pointer-downs come from pointers
      that are not already down, which is what browsers send. */
  predicate CountMatches(c: Counter) {
    Distinct(c.pointers) && c.count == |c.pointers|
  }

  lemma CountPreserved(c: Counter, id: int, pos: Point)
    requires CountMatches(c)
    ensures id !in Ids(c.pointers) ==> CountMatches(LegacyDown(c, id, pos))
    ensures CountMatches(LegacyUp(c, id))
  {
  }

  /** A repeated pointer-down from a pointer that is already down is counted
      twice, and the count drifts from the map. */
  lemma RepeatedDownDrifts(c: Counter, id: int, pos: Point)
    requires CountMatches(c) && id in Ids(c.pointers)
    ensures !CountMatches(LegacyDown(c, id, pos))
  {
  }
}

=== FILE: grid.dfy ===
/** The grid canvas (src/surface-grid.ts:76-139, and the older copy in
    src/surface.ts:346-364). Lines sit every `z = zoom * cellSize *
    pixelRatio` device pixels, shifted by the view's offset; line `k` of an
    axis is stroked when the axis' pattern marks it active. */
module Grid {
  import opened Geometry
  import opened Util
  import opened Snap

  /** Where line `k` of an axis lies on the canvas. */
  function LinePos(offset: real, z: real, k: int): real {
    offset + (k as real) * z
  }

  /** Consecutive lines are one spacing apart. */
  lemma LineStep(offset: real, z: real, k: int)
    ensures LinePos(offset, z, k + 1) == LinePos(offset, z, k) + z
  {
  }

  /** A line left of `bound` has an index below `(bound - offset) / z`. */
  lemma IndexBelow(offset: real, z: real, k: int, bound: real)
    requires z > 0.0 && LinePos(offset, z, k) < bound
    ensures (k as real) < (bound - offset) / z
  {
    var q := (bound - offset) / z;
    DivMul(bound - offset, z);
    if q <= k as real {
      MulAtMost(q, k as real, z);
    }
  }

  /** A line right of `bound` has an index above `(bound - offset) / z`. */
  lemma IndexAbove(offset: real, z: real, k: int, bound: real)
    requires z > 0.0 && LinePos(offset, z, k) > bound
    ensures (k as real) > (bound - offset) / z
  {
    var q := (bound - offset) / z;
    DivMul(bound - offset, z);
    if k as real <= q {
      MulAtMost(k as real, q, z);
    }
  }

  /** The reference definition: the active line indices in `[lo, hi)`, in order. */
  function ActiveLines(pattern: string, lo: int, hi: int): (ks: seq<int>)
    decreases hi - lo
  {
    if lo >= hi then []
    else (if LineActive(pattern, lo) then [lo] else []) + ActiveLines(pattern, lo + 1, hi)
  }

  /** An index is listed exactly when it is in range and active. */
  lemma {:induction false} ActiveLinesMembers(pattern: string, lo: int, hi: int, k: int)
    ensures k in ActiveLines(pattern, lo, hi) <==> lo <= k < hi && LineActive(pattern, k)
    decreases hi - lo
  {
    if lo < hi {
      ActiveLinesMembers(pattern, lo + 1, hi, k);
      var head := if LineActive(pattern, lo) then [lo] else [];
      assert ActiveLines(pattern, lo, hi) == head + ActiveLines(pattern, lo + 1, hi);
      assert k in head <==> k == lo && LineActive(pattern, lo);
    }
  }

  /** The listed indices strictly increase. */
  lemma {:induction false} ActiveLinesIncrease(pattern: string, lo: int, hi: int)
    ensures forall j :: 0 <= j < |ActiveLines(pattern, lo, hi)| ==> lo <= ActiveLines(pattern, lo, hi)[j]
    ensures forall i, j :: 0 <= i < j < |ActiveLines(pattern, lo, hi)| ==> ActiveLines(pattern, lo, hi)[i] < ActiveLines(pattern, lo, hi)[j]
    decreases hi - lo
  {
    if lo < hi {
      ActiveLinesIncrease(pattern, lo + 1, hi);
    }
  }

  /** Extending the range by one index appends that index when it is active. */
  lemma {:induction false} ActiveLinesSnoc(pattern: string, lo: int, hi: int)
    requires lo <= hi
    ensures ActiveLines(pattern, lo, hi + 1)
         == ActiveLines(pattern, lo, hi) + (if LineActive(pattern, hi) then [hi] else [])
    decreases hi - lo
  {
    if lo < hi {
      ActiveLinesSnoc(pattern, lo + 1, hi);
    }
  }

  /** The first line the drawing loop starts from: the loops step the
      offset down while it is positive and up while it is below `-z`, so it
      ends in `[-z, 0]`, at most one spacing left of the canvas edge. */
  method FirstLine(offset: real, z: real) returns (first: int)
    requires z > 0.0
    ensures LinePos(offset, z, first) <= 0.0 <= LinePos(offset, z, first + 1)
  {
    var i := 0;
    var sx := offset;
    while sx > 0.0
      invariant sx == LinePos(offset, z, i)
      invariant offset > 0.0 ==> LinePos(offset, z, i + 1) > 0.0
      decreases i - ((0.0 - offset) / z).Floor
    {
      IndexAbove(offset, z, i, 0.0);
      LineStep(offset, z, i - 1);
      sx, i := sx - z, i - 1;
    }
    while sx < -z
      invariant sx == LinePos(offset, z, i) && sx <= 0.0
      invariant offset > 0.0 ==> LinePos(offset, z, i + 1) > 0.0
      decreases ((0.0 - offset) / z).Floor - i
    {
      LineStep(offset, z, i);
      IndexBelow(offset, z, i + 1, 0.0);
      sx, i := sx + z, i + 1;
    }
    LineStep(offset, z, i);
    first := i;
  }

  /** One axis of the grid (src/surface-grid.ts:118-126 for columns,
      128-136 for rows): from the first line, every line left of `extent`
      is visited in turn and stroked when the pattern marks it active.
      Returns the stroked indices and their canvas positions. */
  method WalkAxis(offset: real, z: real, extent: real, pattern: string) returns (first: int, last: int, lines: seq<int>, positions: seq<real>)
    requires z > 0.0
    ensures LinePos(offset, z, first) <= 0.0 <= LinePos(offset, z, first + 1)
    ensures first <= last
    ensures LinePos(offset, z, last) >= extent
    ensures last > first ==> LinePos(offset, z, last - 1) < extent
    ensures lines == ActiveLines(pattern, first, last)
    ensures |positions| == |lines|
    ensures forall j :: 0 <= j < |lines| ==> positions[j] == LinePos(offset, z, lines[j])
  {
    first := FirstLine(offset, z);
    var i := first;
    var x := LinePos(offset, z, first);
    lines, positions := [], [];
    while x < extent
      invariant first <= i && x == LinePos(offset, z, i)
      invariant i > first ==> LinePos(offset, z, i - 1) < extent
      invariant lines == ActiveLines(pattern, first, i)
      invariant |positions| == |lines|
      invariant forall j :: 0 <= j < |lines| ==> positions[j] == LinePos(offset, z, lines[j])
      decreases ((extent - offset) / z).Floor - i
    {
      IndexBelow(offset, z, i, extent);
      ActiveLinesSnoc(pattern, first, i);
      if LineActive(pattern, i) {
        lines, positions := lines + [i], positions + [x];
      }
      LineStep(offset, z, i);
      x, i := x + z, i + 1;
    }
    last := i;
  }

  /** Every active line that lies on the canvas is stroked, and every
      stroked line is active, at most one spacing left of the canvas and
      left of its far edge. */
  lemma WalkAxisCovers(offset: real, z: real, extent: real, pattern: string, first: int, last: int, k: int)
    requires z > 0.0
    requires LinePos(offset, z, first) <= 0.0 <= LinePos(offset, z, first + 1)
    requires LinePos(offset, z, last) >= extent
    requires last > first ==> LinePos(offset, z, last - 1) < extent
    ensures k in ActiveLines(pattern, first, last) <==>
      LineActive(pattern, k) && first <= k && LinePos(offset, z, k) < extent
  {
    ActiveLinesMembers(pattern, first, last, k);
    if first <= k && LinePos(offset, z, k) < extent && k >= last {
      LineOrder(offset, z, last, k);
    }
    if first <= k < last && last > first {
      LineOrder(offset, z, k, last - 1);
    }
  }

  /** Positions grow with the index. */
  lemma LineOrder(offset: real, z: real, j: int, k: int)
    requires z > 0.0 && j <= k
    ensures LinePos(offset, z, j) <= LinePos(offset, z, k)
  {
    MulAtMost(j as real, k as real, z);
  }

  /** The zoom below which the grid is not drawn: the line width
      `min(1, zoom ** 1.25 * 0.28)` must reach 0.01. */
  const MinLineWidth: real := 0.01

  /** What an axis of the grid shows: every stroked position is an active
      line left of the far edge, every active line on the canvas is
      stroked, and the strokes run from left to right. */
  ghost predicate Stroked(offset: real, z: real, extent: real, pattern: string, positions: seq<real>) {
    (forall j :: 0 <= j < |positions| ==>
      positions[j] < extent && exists k :: LineActive(pattern, k) && positions[j] == LinePos(offset, z, k))
    && (forall k :: LineActive(pattern, k) && 0.0 <= LinePos(offset, z, k) < extent ==> LinePos(offset, z, k) in positions)
    && (forall i, j :: 0 <= i < j < |positions| ==> positions[i] < positions[j])
  }

  /** One frame of the grid (src/surface-grid.ts:107-139): nothing when the
      line width is too thin, otherwise columns and rows at spacing
      `zoom * cellSize * pixelRatio`. */
  method Draw(lineWidth: real, zoom: real, cellSize: real, pixelRatio: real, offset: Point, size: Point, xPattern: string, yPattern: string)
    returns (columns: seq<real>, rows: seq<real>)
    requires zoom > 0.0 && cellSize > 0.0 && pixelRatio > 0.0
    ensures lineWidth < MinLineWidth ==> columns == [] && rows == []
    ensures lineWidth >= MinLineWidth ==> Stroked(offset.x, zoom * cellSize * pixelRatio, size.x, xPattern, columns)
    ensures lineWidth >= MinLineWidth ==> Stroked(offset.y, zoom * cellSize * pixelRatio, size.y, yPattern, rows)
  {
    if lineWidth < MinLineWidth {
      return [], [];
    }
    var z := zoom * cellSize * pixelRatio;
    PositiveProduct(zoom, cellSize, pixelRatio);
    var xFirst, xLast, xs, xPos := WalkAxis(offset.x, z, size.x, xPattern);
    var yFirst, yLast, ys, yPos := WalkAxis(offset.y, z, size.y, yPattern);
    WalkAxisStrokes(offset.x, z, size.x, xPattern, xFirst, xLast, xs, xPos);
    WalkAxisStrokes(offset.y, z, size.y, yPattern, yFirst, yLast, ys, yPos);
    columns, rows := xPos, yPos;
  }

  /** The walk of one axis strokes exactly what the grid shows. */
  lemma WalkAxisStrokes(offset: real, z: real, extent: real, pattern: string, first: int, last: int, lines: seq<int>, positions: seq<real>)
    requires z > 0.0
    requires LinePos(offset, z, first) <= 0.0 <= LinePos(offset, z, first + 1)
    requires LinePos(offset, z, last) >= extent
    requires last > first ==> LinePos(offset, z, last - 1) < extent
    requires lines == ActiveLines(pattern, first, last)
    requires |positions| == |lines|
    requires forall j :: 0 <= j < |lines| ==> positions[j] == LinePos(offset, z, lines[j])
    ensures Stroked(offset, z, extent, pattern, positions)
  {
    forall j | 0 <= j < |positions|
      ensures positions[j] < extent && exists k :: LineActive(pattern, k) && positions[j] == LinePos(offset, z, k)
    {
      var k := lines[j];
      assert k in lines;
      ActiveLinesMembers(pattern, first, last, k);
      LineOrder(offset, z, k, last - 1);
      assert LineActive(pattern, k) && positions[j] == LinePos(offset, z, k);
    }
    forall k | LineActive(pattern, k) && 0.0 <= LinePos(offset, z, k) < extent
      ensures LinePos(offset, z, k) in positions
    {
      if k < first {
        LineOrder(offset, z, k, first - 1);
        LineStep(offset, z, first - 1);
      }
      WalkAxisCovers(offset, z, extent, pattern, first, last, k);
      var j :| 0 <= j < |lines| && lines[j] == k;
      assert positions[j] == LinePos(offset, z, k);
    }
    ActiveLinesIncrease(pattern, first, last);
    forall i, j | 0 <= i < j < |positions| ensures positions[i] < positions[j] {
      LineAscends(offset, z, lines[i], lines[j]);
    }
  }

  /** Positions strictly grow with the index. */
  lemma LineAscends(offset: real, z: real, j: int, k: int)
    requires z > 0.0 && j < k
    ensures LinePos(offset, z, j) < LinePos(offset, z, k)
  {
    MulLess(j as real, k as real, z);
  }

  lemma PositiveProduct(a: real, b: real, c: real)
    requires a > 0.0 && b > 0.0 && c > 0.0
    ensures a * b * c > 0.0
  {
    MulLess(0.0, a, b);
    MulLess(0.0, a * b, c);
  }

  /** The animated grid values: zoom and offset (src/surface-grid.ts:69-81). */
  datatype GridView = GridView(zoom: real, offset: Point)

  /** The value at fraction `t` of a transition (src/surface-grid.ts:76-81). */
  function Interpolate(from: GridView, to: GridView, t: real): (v: GridView)
    ensures t == 0.0 ==> v == from
    ensures t == 1.0 ==> v == to
  {
    GridView(from.zoom + (to.zoom - from.zoom) * t,
             from.offset.Translate(to.offset.Screen(from.offset).Scale(t)))
  }

  /** Part way through, the zoom lies between its two ends. */
  lemma InterpolateBetween(from: GridView, to: GridView, t: real)
    requires 0.0 <= t <= 1.0
    ensures Min(from.zoom, to.zoom) <= Interpolate(from, to, t).zoom <= Max(from.zoom, to.zoom)
  {
    LerpBetween(from.zoom, to.zoom, t, (to.zoom - from.zoom) * t);
  }

  /** `f + p` with `p` a fraction of `g - f` lies between `f` and `g`. */
  lemma LerpBetween(f: real, g: real, t: real, p: real)
    requires 0.0 <= t <= 1.0 && p == (g - f) * t
    ensures Min(f, g) <= f + p <= Max(f, g)
  {
    FractionBetween(g - f, t, p);
  }

  /** A fraction `p` of a difference `d` lies between zero and `d`. */
  lemma FractionBetween(d: real, t: real, p: real)
    requires 0.0 <= t <= 1.0 && p == d * t
    ensures d >= 0.0 ==> 0.0 <= p <= d
    ensures d < 0.0 ==> d <= p <= 0.0
  {
    if d > 0.0 {
      MulAtMost(t, 1.0, d);
      MulAtMost(0.0, t, d);
      assert t * d <= d;
      assert p == t * d;
    } else if d < 0.0 {
      var q := -d;
      MulAtMost(t, 1.0, q);
      MulAtMost(0.0, t, q);
      assert p == -(t * q);
    } else {
      assert p == 0.0 * t;
    }
  }
}

=== FILE: legacy_handles.dfy ===
/** The move and resize handles of the older surface (src/surface.ts:667-909).
    They snap with the same rules as the newer handles, but a grab reacts to
    any button in any state, raises the item with a plain counter starting at
    10, and the release writes the final coordinates into the item's dataset.
    The legacy resize release has a defect, modelled here both as written
    and corrected. */
module LegacyHandles {
  import opened Wrappers
  import opened Geometry
  import opened Util
  import opened Snap
  import opened Slotted

  /** The value of the module-wide z-index counter before any grab. */
  const InitialZIndex: int := 10

  /** `'' + (++globalZIndex)`: the counter is bumped and its new value is the
      item's z-index. */
  function BumpZIndex(counter: int): (r: int)
    ensures r > counter
  {
    counter + 1
  }

  /** After `n` grabs on a fresh page the newest item sits at `10 + n`, above
      every earlier one. */
  lemma {:induction false} ZIndexAfterGrabs(n: nat)
    ensures Bumps(InitialZIndex, n) == InitialZIndex + n
  {
    if n > 0 {
      ZIndexAfterGrabs(n - 1);
    }
  }

  /** The counter after `n` grabs starting at `counter`. */
  function Bumps(counter: int, n: nat): int {
    if n == 0 then counter else BumpZIndex(Bumps(counter, n - 1))
  }

  // ---------------------------------------------------------------- move

  /** The move handle's grab: the pointer that holds the item and the offset
      from the item's corner to the pointer. */
  datatype MoveSession = MoveIdle | Holding(pointerId: int, grabPos: Point)

  /** A legacy move handle with its item, the item's dataset and the
      z-index counter. */
  datatype LegacyMover = LegacyMover(session: MoveSession, rect: Rect, dataset: Dataset, zIndex: int, counter: int)

  /** Pointer-down on the move handle (src/surface.ts:697-711): any button,
      in any state, starts a new hold. The offset is the pointer minus the
      item's corner; the item is raised but not moved. */
  function MoveGrab(m: LegacyMover, pointerId: int, pointer: Point): (r: LegacyMover)
    ensures r.session.Holding? && r.session.pointerId == pointerId
    ensures r.session.grabPos.Translate(m.rect.Pos()) == pointer
    ensures r.rect == m.rect && r.dataset == m.dataset
    ensures r.counter > m.counter && r.zIndex == r.counter
  {
    var z := BumpZIndex(m.counter);
    LegacyMover(Holding(pointerId, pointer.Screen(m.rect.Pos())), m.rect, m.dataset, z, z)
  }

  /** Pointer-move while holding (src/surface.ts:761-775): other pointers are
      ignored; otherwise the pointer minus the offset is snapped by the
      shared move rule. */
  function MoveDrag(m: LegacyMover, pointerId: int, pointer: Point, cfg: SnapConfig): (r: LegacyMover)
    requires cfg.Valid()
    ensures !m.session.Holding? || pointerId != m.session.pointerId ==> r == m
    ensures r.session == m.session && r.dataset == m.dataset && r.zIndex == m.zIndex && r.counter == m.counter
    ensures r.rect.width == m.rect.width && r.rect.height == m.rect.height
    ensures m.session.Holding? && pointerId == m.session.pointerId ==>
      r.rect == MoveSnap(pointer.Screen(m.session.grabPos), m.rect, cfg.cell, cfg.xPattern, cfg.yPattern, cfg.threshold)
  {
    if !m.session.Holding? || pointerId != m.session.pointerId then m
    else
      var a := pointer.Screen(m.session.grabPos);
      m.(rect := MoveSnap(a, m.rect, cfg.cell, cfg.xPattern, cfg.yPattern, cfg.threshold))
  }

  /** Away from every qualifying line the item follows the pointer,
      keeping the offset it was grabbed at. */
  lemma MoveDragFollowsPointer(m: LegacyMover, pointerId: int, pointer: Point, cfg: SnapConfig)
    requires cfg.Valid() && m.session.Holding? && pointerId == m.session.pointerId
    requires !EdgeQualifies(pointer.Screen(m.session.grabPos), m.rect, cfg.cell, cfg.xPattern, cfg.yPattern, cfg.threshold)
    ensures MoveDrag(m, pointerId, pointer, cfg).rect.Pos().Translate(m.session.grabPos) == pointer
  {
    var a := pointer.Screen(m.session.grabPos);
    MoveSnapUnqualified(a, m.rect, cfg.cell, cfg.xPattern, cfg.yPattern, cfg.threshold);
  }

  /** Pointer-up while holding (src/surface.ts:777-788): the position is
      snapped with threshold 1 and written to `data-left` and `data-top`. */
  function MoveRelease(m: LegacyMover, cfg: SnapConfig): (r: LegacyMover)
    requires cfg.Valid()
    ensures r.session.MoveIdle?
    ensures !m.session.Holding? ==> r == m
    ensures m.session.Holding? ==>
      r.dataset == m.dataset.(left := Some(r.rect.x), top := Some(r.rect.y))
    ensures m.session.Holding? ==> r.rect == MoveSnap(m.rect.Pos(), m.rect, cfg.cell, cfg.xPattern, cfg.yPattern, 1.0)
    ensures r.rect.x == m.rect.x || Abs(r.rect.x - m.rect.x) < cfg.cell
    ensures r.rect.y == m.rect.y || Abs(r.rect.y - m.rect.y) < cfg.cell
    ensures r.rect.width == m.rect.width && r.rect.height == m.rect.height
  {
    if !m.session.Holding? then m
    else
      var s := MoveSnap(m.rect.Pos(), m.rect, cfg.cell, cfg.xPattern, cfg.yPattern, 1.0);
      LegacyMover(MoveIdle, s, m.dataset.(left := Some(s.x), top := Some(s.y)), m.zIndex, m.counter)
  }

  /** Unlike the newer handle there is no lift: a drag that has not moved
      since the grab snaps the item's own corner, so an item already on
      active lines does not move. */
  lemma MoveDragWithoutMotionKeepsAlignedItem(m: LegacyMover, pointerId: int, pointer: Point, cfg: SnapConfig)
    requires cfg.Valid() && cfg.threshold > 0.0
    requires OnActiveLine(m.rect.x, cfg.cell, cfg.xPattern) && OnActiveLine(m.rect.y, cfg.cell, cfg.yPattern)
    ensures MoveDrag(MoveGrab(m, pointerId, pointer), pointerId, pointer, cfg).rect == m.rect
  {
    var g := MoveGrab(m, pointerId, pointer);
    assert pointer.Screen(g.session.grabPos) == m.rect.Pos();
    MoveSnapAligned(m.rect.x, m.rect.width, cfg.cell, cfg.xPattern, cfg.threshold);
    MoveSnapAligned(m.rect.y, m.rect.height, cfg.cell, cfg.yPattern, cfg.threshold);
  }

  /** What the release persists is where the surface places the item the
      next time it lays out its children. */
  lemma MoveReleasePersists(m: LegacyMover, cfg: SnapConfig)
    requires cfg.Valid() && m.session.Holding?
    ensures var r := MoveRelease(m, cfg);
      Place(r.dataset).left == Px(r.rect.x) && Place(r.dataset).top == Px(r.rect.y)
      && Place(r.dataset).width == Place(m.dataset).width && Place(r.dataset).height == Place(m.dataset).height
  {
  }

  // -------------------------------------------------------------- resize

  /** The resize handle's grab: the pointer, where it was, the item's size at
      that moment, and `t`, the last snapped corner. */
  datatype ResizeSession = ResizeIdle | Sizing(pointerId: int, grabPos: Point, origSize: Point, t: Point)

  datatype LegacyResizer = LegacyResizer(session: ResizeSession, rect: Rect, dataset: Dataset, zIndex: int, counter: int)

  /** Pointer-down on the resize handle (src/surface.ts:835-846) followed by
      the setup of the drag effect (849-850); `t0` is the corner the effect
      starts from. */
  function ResizeGrabFrom(z: LegacyResizer, pointerId: int, pointer: Point, t0: Point): (r: LegacyResizer)
    ensures r.session == Sizing(pointerId, pointer, z.rect.Size(), t0)
    ensures r.rect == z.rect && r.dataset == z.dataset
    ensures r.counter > z.counter && r.zIndex == r.counter
  {
    var c := BumpZIndex(z.counter);
    LegacyResizer(Sizing(pointerId, pointer, z.rect.Size(), t0), z.rect, z.dataset, c, c)
  }

  /** The grab as written: the effect starts `t` at the item's SIZE
      (src/surface.ts:849-850), a point that is not the corner. */
  function ResizeGrabAsWritten(z: LegacyResizer, pointerId: int, pointer: Point): (r: LegacyResizer)
    ensures r.session.Sizing? && r.session.t == z.rect.Size()
    ensures r.rect == z.rect && r.counter > z.counter
  {
    ResizeGrabFrom(z, pointerId, pointer, z.rect.Size())
  }

  /** The corrected grab: `t` starts at the item's bottom-right corner,
      where the snapped corner of a drag without motion would be. */
  function ResizeGrab(z: LegacyResizer, pointerId: int, pointer: Point): (r: LegacyResizer)
    ensures r.session.Sizing? && r.session.t == z.rect.Corner()
    ensures r.rect == z.rect && r.counter > z.counter
  {
    ResizeGrabFrom(z, pointerId, pointer, z.rect.Corner())
  }

  /** The corner snap of the legacy resize (src/surface.ts:852-878): each
      axis snaps like the newer handle's corner. */
  function SnapCorner(p: Point, cfg: SnapConfig, threshold: real): (t: Point)
    requires cfg.Valid()
    ensures Abs(t.x - p.x) <= Half(cfg.cell) && Abs(t.y - p.y) <= Half(cfg.cell)
    ensures t.x == p.x || OnActiveLine(t.x, cfg.cell, cfg.xPattern)
    ensures t.y == p.y || OnActiveLine(t.y, cfg.cell, cfg.yPattern)
    ensures SnapsTo(p.x, t.x, cfg.cell, cfg.xPattern, threshold)
    ensures SnapsTo(p.y, t.y, cfg.cell, cfg.yPattern, threshold)
  {
    var tx := ResizeSnapAxis(p.x, cfg.cell, cfg.xPattern, threshold);
    var ty := ResizeSnapAxis(p.y, cfg.cell, cfg.yPattern, threshold);
    Point(tx, ty)
  }

  /** The size that follows a snapped corner; left and top stay. */
  function SizedTo(rect: Rect, t: Point): (r: Rect)
    ensures r.Pos() == rect.Pos() && r.width >= MinSize && r.height >= MinSize
    ensures r.width == t.x - rect.x || (r.width == MinSize && t.x - rect.x < MinSize)
    ensures r.height == t.y - rect.y || (r.height == MinSize && t.y - rect.y < MinSize)
  {
    Rect(rect.x, rect.y, ResizedExtent(rect.x, t.x), ResizedExtent(rect.y, t.y))
  }

  /** The candidate corner of a legacy resize: the pointer's travel since
      the grab plus the original size, from the item's top-left corner. */
  function ResizeCandidate(s: ResizeSession, rect: Rect, pointer: Point): (c: Point)
    requires s.Sizing?
    ensures c.Screen(rect.Pos()).Screen(s.origSize) == pointer.Screen(s.grabPos)
  {
    pointer.Screen(s.grabPos).Translate(s.origSize).Translate(rect.Pos())
  }

  /** Pointer-move while sizing (src/surface.ts:880-893): the candidate corner
      is the pointer's travel plus the original size plus the item's corner,
      which is snapped and remembered as `t`. */
  function ResizeDrag(z: LegacyResizer, pointerId: int, pointer: Point, cfg: SnapConfig): (r: LegacyResizer)
    requires cfg.Valid()
    ensures !z.session.Sizing? || pointerId != z.session.pointerId ==> r == z
    ensures z.session.Sizing? && pointerId == z.session.pointerId ==>
      r.session.Sizing? && r.session == z.session.(t := r.session.t)
      && r.rect == SizedTo(z.rect, r.session.t)
    ensures z.session.Sizing? && pointerId == z.session.pointerId ==>
      r.session.t == SnapCorner(ResizeCandidate(z.session, z.rect, pointer), cfg, cfg.threshold)
    ensures r.rect.Pos() == z.rect.Pos() && r.dataset == z.dataset && r.counter == z.counter
  {
    if !z.session.Sizing? || pointerId != z.session.pointerId then z
    else
      var s := z.session;
      var t := SnapCorner(ResizeCandidate(s, z.rect, pointer), cfg, cfg.threshold);
      z.(session := s.(t := t), rect := SizedTo(z.rect, t))
  }

  /** Away from every qualifying line, and above the minimum size, the
      item's corner and the remembered `t` follow the pointer exactly. */
  lemma ResizeDragFollowsPointer(z: LegacyResizer, pointerId: int, pointer: Point, cfg: SnapConfig)
    requires cfg.Valid() && z.session.Sizing? && pointerId == z.session.pointerId
    requires !CornerQualifies(ResizeCandidate(z.session, z.rect, pointer), cfg.cell, cfg.xPattern, cfg.yPattern, cfg.threshold)
    requires ResizeCandidate(z.session, z.rect, pointer).x - z.rect.x >= MinSize
    requires ResizeCandidate(z.session, z.rect, pointer).y - z.rect.y >= MinSize
    ensures var r := ResizeDrag(z, pointerId, pointer, cfg);
      r.session.t == ResizeCandidate(z.session, z.rect, pointer)
      && r.rect.Corner() == ResizeCandidate(z.session, z.rect, pointer)
  {
    var c := ResizeCandidate(z.session, z.rect, pointer);
    var t := SnapCorner(c, cfg, cfg.threshold);
    assert !Qualifies(c.x, cfg.cell, cfg.xPattern, cfg.cell * cfg.threshold);
    assert !Qualifies(c.y, cfg.cell, cfg.yPattern, cfg.cell * cfg.threshold);
    assert t.x == c.x && t.y == c.y;
    assert ResizeDrag(z, pointerId, pointer, cfg).rect == SizedTo(z.rect, c);
  }

  /** Pointer-up while sizing (src/surface.ts:895-906): whether or not the
      pointer moved, `t` is snapped with threshold 1, the size follows it and
      is written to `data-width` and `data-height`. */
  function ResizeRelease(z: LegacyResizer, cfg: SnapConfig): (r: LegacyResizer)
    requires cfg.Valid()
    ensures r.session.ResizeIdle?
    ensures !z.session.Sizing? ==> r == z
    ensures z.session.Sizing? ==>
      r.rect == SizedTo(z.rect, SnapCorner(z.session.t, cfg, 1.0))
      && r.dataset == z.dataset.(width := Some(r.rect.width), height := Some(r.rect.height))
    ensures r.rect.Pos() == z.rect.Pos()
  {
    if !z.session.Sizing? then z
    else
      var s := SizedTo(z.rect, SnapCorner(z.session.t, cfg, 1.0));
      LegacyResizer(ResizeIdle, s, z.dataset.(width := Some(s.width), height := Some(s.height)), z.zIndex, z.counter)
  }

  /** As written, a click on the handle without any motion collapses an item
      at (200, 200) of size 100 x 100 on an 80-pixel grid to width 10: the
      release snaps the size (100, 100) as if it were the corner, finds line
      80, and 80 - 200 is clamped to the minimum. */
  lemma ClickCollapsesAsWritten()
    ensures var cfg := SnapConfig(80.0, 0.15, "1", "1");
      var z := LegacyResizer(ResizeIdle, Rect(200.0, 200.0, 100.0, 100.0), Dataset(None, None, None, None), 0, 10);
      var r := ResizeRelease(ResizeGrabAsWritten(z, 1, Point(300.0, 300.0)), cfg);
      r.rect.width == MinSize && r.rect.height == MinSize
      && z.rect.width - Half(cfg.cell) >= MinSize
      && Abs(r.rect.width - z.rect.width) > Half(cfg.cell)
  {
    var cfg := SnapConfig(80.0, 0.15, "1", "1");
    RoundHalfUpUnique(100.0 / 80.0, 1);
    assert GridIndex(100.0, 80.0) == 1;
    assert GridLine(100.0, 80.0) == 80.0;
    ModWrapIdentity(0, 1);
    assert ModWrap(1, 1) == 0 by {
      ModWrapPeriodic(0, 1, 1);
    }
    assert LineActive("1", 1);
    assert Qualifies(100.0, 80.0, "1", 80.0 * 1.0);
    assert SnapCorner(Point(100.0, 100.0), cfg, 1.0) == Point(80.0, 80.0);
  }

  /** Corrected, a click without motion changes each side of the item by at
      most half a cell, and not at all when the corner is already on active
      lines; as long as the item is at least half a cell above the minimum
      size on that axis. */
  lemma ClickKeepsSize(z: LegacyResizer, pointerId: int, pointer: Point, cfg: SnapConfig)
    requires cfg.Valid()
    requires z.rect.width - Half(cfg.cell) >= MinSize && z.rect.height - Half(cfg.cell) >= MinSize
    ensures var r := ResizeRelease(ResizeGrab(z, pointerId, pointer), cfg);
      Abs(r.rect.width - z.rect.width) <= Half(cfg.cell)
      && Abs(r.rect.height - z.rect.height) <= Half(cfg.cell)
      && (OnActiveLine(z.rect.Corner().x, cfg.cell, cfg.xPattern) ==> r.rect.width == z.rect.width)
      && (OnActiveLine(z.rect.Corner().y, cfg.cell, cfg.yPattern) ==> r.rect.height == z.rect.height)
  {
    var c := z.rect.Corner();
    var t := SnapCorner(c, cfg, 1.0);
    var r := ResizeRelease(ResizeGrab(z, pointerId, pointer), cfg);
    assert r.rect == SizedTo(z.rect, t);
    assert t.x - z.rect.x >= MinSize;
    assert t.y - z.rect.y >= MinSize;
    if OnActiveLine(c.x, cfg.cell, cfg.xPattern) {
      ResizeSnapAligned(c.x, cfg.cell, cfg.xPattern, 1.0);
    }
    if OnActiveLine(c.y, cfg.cell, cfg.yPattern) {
      ResizeSnapAligned(c.y, cfg.cell, cfg.yPattern, 1.0);
    }
  }
}

=== FILE: move.dfy ===
/** Dragging an item across the surface (src/surface-move.ts): a grab
    records where inside the item the pointer holds it, lifts the item by
    a fraction of a cell and raises it above every other item; each move
    snaps the dragged position to the grid; release re-snaps with a whole
    cell of reach. */
module Move {
  import opened Geometry
  import opened Snap

  /** JavaScript's ToInt32: wraps an integer into the signed 32-bit range. */
  function ToInt32(x: int): (r: int)
    ensures -0x8000_0000 <= r < 0x8000_0000
    ensures (r - x) % 0x1_0000_0000 == 0
  {
    var m := x % 0x1_0000_0000;
    if m >= 0x8000_0000 then m - 0x1_0000_0000 else m
  }

  /** `n << 1` on a JavaScript number: both the operand and the result pass
      through ToInt32. */
  function ShiftLeftOne(n: int): (r: int)
    ensures -0x8000_0000 <= r < 0x8000_0000
    ensures r % 2 == 0
    ensures -0x4000_0000 <= n < 0x4000_0000 ==> r == 2 * n
  {
    var y := ToInt32(n);
    var r := ToInt32(y * 2);
    EvenShift(r, y * 2);
    r
  }

  /** The z-index a grab assigns: `(++counter) << 1`, a signed 32-bit even
      number. */
  function GrabZIndex(counter: int): (z: int)
    ensures -0x8000_0000 <= z < 0x8000_0000 && z % 2 == 0
  {
    ShiftLeftOne(counter + 1)
  }

  /** Every grab z-index is even, so the odd value just below it stays free
      for the item's cables; until the counter reaches 2^30 it is exactly
      twice the bumped counter. */
  lemma GrabZIndexEven(counter: int)
    ensures GrabZIndex(counter) % 2 == 0
    ensures 0 <= counter < 0x4000_0000 - 1 ==> GrabZIndex(counter) == 2 * (counter + 1)
  {
    var y := ToInt32(counter + 1);
    var r := ToInt32(y * 2);
    assert (r - y * 2) % 0x1_0000_0000 == 0;
    EvenShift(r, y * 2);
  }

  lemma EvenShift(r: int, e: int)
    requires e % 2 == 0 && (r - e) % 0x1_0000_0000 == 0
    ensures r % 2 == 0
  {
    var q := (r - e) / 0x1_0000_0000;
    assert r == e + q * 0x1_0000_0000;
    assert r == 2 * (e / 2 + q * 0x8000_0000);
  }

  /** A later grab is raised strictly above an earlier one, as long as the
      counter has not reached 2^30. */
  lemma GrabZIndexIncreasing(earlier: int, later: int)
    requires 0 <= earlier < later < 0x4000_0000 - 1
    ensures GrabZIndex(earlier) < GrabZIndex(later)
  {
    GrabZIndexEven(earlier);
    GrabZIndexEven(later);
  }

  /** At counter 2^30 the shift overflows into the sign bit. */
  lemma GrabZIndexWraps()
    ensures GrabZIndex(0x4000_0000 - 1) < 0
  {
  }

  /** The move handle's session: idle, or dragging with the grabbing
      pointer's id and the offset from that pointer to the item's corner. */
  datatype Session = Idle | ItemMove(pointerId: int, grabPos: Point)

  /** A move handle with the item it drags and the surface-wide z-index
      counter. */
  datatype Mover = Mover(session: Session, rect: Rect, zIndex: int, counter: int)

  /** The lift: the item jumps up and left by `cell * threshold` when grabbed. */
  function Lift(cfg: SnapConfig): (l: real)
    ensures cfg.Valid() ==> (l > 0.0 <==> cfg.threshold > 0.0)
  {
    LiftSign(cfg.cell, cfg.threshold);
    cfg.cell * cfg.threshold
  }

  lemma LiftSign(cell: real, threshold: real)
    ensures cell > 0.0 ==> (cell * threshold > 0.0 <==> threshold > 0.0)
  {
    if cell > 0.0 && threshold <= 0.0 {
      assert cell * threshold <= cell * 0.0;
    }
  }

  /** Where a grab places the item before any pointer motion: its corner
      shifted up and left by the lift on both axes. */
  function Lifted(rect: Rect, lift: real): (p: Point)
    ensures p.Translate(Point(lift, lift)) == rect.Pos()
  {
    Point(rect.x - lift, rect.y - lift)
  }

  /** The grab offset: from the pointer to the lifted corner. */
  function GrabOffset(rect: Rect, pointer: Point, lift: real): (g: Point)
    ensures pointer.Translate(g) == Lifted(rect, lift)
  {
    Point(rect.x - pointer.x - lift, rect.y - pointer.y - lift)
  }

  /** Pointer-down on the handle (src/surface-move.ts:64-89), followed by
      the initial lift snap the drag effect performs (150-155). Only an idle
      handle reacts, and only to the left button. */
  function Grab(m: Mover, leftButton: bool, pointerId: int, pointer: Point, cfg: SnapConfig): (r: Mover)
    requires cfg.Valid()
    ensures !(m.session.Idle? && leftButton) ==> r == m
    ensures m.session.Idle? && leftButton ==>
      r.session.ItemMove? && r.session.pointerId == pointerId && r.counter == m.counter + 1 && r.zIndex == GrabZIndex(m.counter)
    ensures m.session.Idle? && leftButton ==>
      r.session.grabPos == GrabOffset(m.rect, pointer, Lift(cfg))
      && r.rect == MoveSnap(Lifted(m.rect, Lift(cfg)), m.rect, cfg.cell, cfg.xPattern, cfg.yPattern, cfg.threshold)
    ensures r.rect.width == m.rect.width && r.rect.height == m.rect.height
  {
    if !m.session.Idle? || !leftButton then m
    else
      var lift := Lift(cfg);
      Mover(ItemMove(pointerId, GrabOffset(m.rect, pointer, lift)),
            MoveSnap(Lifted(m.rect, lift), m.rect, cfg.cell, cfg.xPattern, cfg.yPattern, cfg.threshold),
            GrabZIndex(m.counter), m.counter + 1)
  }

  /** Pointer-move while dragging (src/surface-move.ts:129-140): events from
      other pointers are ignored; otherwise the pointer plus the grab offset
      is snapped. Only the position changes. */
  function Drag(m: Mover, pointerId: int, pointer: Point, cfg: SnapConfig): (r: Mover)
    requires cfg.Valid()
    ensures !m.session.ItemMove? || pointerId != m.session.pointerId ==> r == m
    ensures r.session == m.session && r.zIndex == m.zIndex && r.counter == m.counter
    ensures r.rect.width == m.rect.width && r.rect.height == m.rect.height
    ensures m.session.ItemMove? && pointerId == m.session.pointerId ==>
      r.rect == MoveSnap(pointer.Translate(m.session.grabPos), m.rect, cfg.cell, cfg.xPattern, cfg.yPattern, cfg.threshold)
  {
    if !m.session.ItemMove? || pointerId != m.session.pointerId then m
    else
      var a := pointer.Translate(m.session.grabPos);
      m.(rect := MoveSnap(a, m.rect, cfg.cell, cfg.xPattern, cfg.yPattern, cfg.threshold))
  }

  /** Pointer-up while dragging (src/surface-move.ts:142-148): the current
      position is snapped once more with threshold 1 and the handle goes
      back to idle. */
  function Release(m: Mover, cfg: SnapConfig): (r: Mover)
    requires cfg.Valid()
    ensures r.session.Idle?
    ensures !m.session.ItemMove? ==> r == m
    ensures m.session.ItemMove? ==> r.rect == MoveSnap(m.rect.Pos(), m.rect, cfg.cell, cfg.xPattern, cfg.yPattern, 1.0)
    ensures r.rect.x == m.rect.x || Abs(r.rect.x - m.rect.x) < cfg.cell
    ensures r.rect.y == m.rect.y || Abs(r.rect.y - m.rect.y) < cfg.cell
    ensures r.rect.width == m.rect.width && r.rect.height == m.rect.height
  {
    if !m.session.ItemMove? then m
    else m.(session := Idle, rect := MoveSnap(m.rect.Pos(), m.rect, cfg.cell, cfg.xPattern, cfg.yPattern, 1.0))
  }

  /** Away from every qualifying line the item follows the pointer exactly:
      its corner is the pointer plus the grab offset. */
  lemma DragFollowsPointer(m: Mover, pointerId: int, pointer: Point, cfg: SnapConfig)
    requires cfg.Valid() && m.session.ItemMove? && pointerId == m.session.pointerId
    requires !EdgeQualifies(pointer.Translate(m.session.grabPos), m.rect, cfg.cell, cfg.xPattern, cfg.yPattern, cfg.threshold)
    ensures Drag(m, pointerId, pointer, cfg).rect.Pos() == pointer.Translate(m.session.grabPos)
  {
    var a := pointer.Translate(m.session.grabPos);
    MoveSnapUnqualified(a, m.rect, cfg.cell, cfg.xPattern, cfg.yPattern, cfg.threshold);
  }

  /** Near a qualifying line the dragged left edge lands exactly on it,
      whatever the right edge does. */
  lemma DragSnapsLeftEdge(m: Mover, pointerId: int, pointer: Point, cfg: SnapConfig)
    requires cfg.Valid() && m.session.ItemMove? && pointerId == m.session.pointerId
    requires Qualifies(pointer.x + m.session.grabPos.x, cfg.cell, cfg.xPattern, cfg.cell * cfg.threshold)
    ensures Drag(m, pointerId, pointer, cfg).rect.x == GridLine(pointer.x + m.session.grabPos.x, cfg.cell)
  {
    var a := pointer.Translate(m.session.grabPos);
    MoveSnapLeftQualified(a, m.rect, cfg.cell, cfg.xPattern, cfg.yPattern, cfg.threshold);
  }

  /** A drag whose pointer has not moved since the grab snaps the same
      candidate as the grab's lift: the lifted corner. */
  lemma DragWithoutMotionIsLift(m: Mover, leftButton: bool, pointerId: int, pointer: Point, cfg: SnapConfig)
    requires cfg.Valid() && m.session.Idle? && leftButton
    ensures Drag(Grab(m, leftButton, pointerId, pointer, cfg), pointerId, pointer, cfg).rect
         == Grab(m, leftButton, pointerId, pointer, cfg).rect
  {
    var g := Grab(m, leftButton, pointerId, pointer, cfg);
    assert pointer.Translate(g.session.grabPos) == Lifted(m.rect, Lift(cfg));
    var a := Lifted(m.rect, Lift(cfg));
    assert g.rect == MoveSnap(a, m.rect, cfg.cell, cfg.xPattern, cfg.yPattern, cfg.threshold);
    assert Drag(g, pointerId, pointer, cfg).rect == MoveSnap(a, g.rect, cfg.cell, cfg.xPattern, cfg.yPattern, cfg.threshold);
    MoveSnapSizeOnly(a, m.rect, g.rect, cfg);
  }

  /** The move snap reads only the size of the rectangle it is given. */
  lemma MoveSnapSizeOnly(a: Point, r1: Rect, r2: Rect, cfg: SnapConfig)
    requires cfg.Valid() && r1.width == r2.width && r1.height == r2.height
    ensures MoveSnap(a, r1, cfg.cell, cfg.xPattern, cfg.yPattern, cfg.threshold)
         == MoveSnap(a, r2, cfg.cell, cfg.xPattern, cfg.yPattern, cfg.threshold)
  {
  }

  /** An item whose corner already sits on active lines on both axes is left
      where it is by the release snap. */
  lemma ReleaseKeepsAlignedItem(m: Mover, cfg: SnapConfig)
    requires cfg.Valid() && m.session.ItemMove?
    requires OnActiveLine(m.rect.x, cfg.cell, cfg.xPattern) && OnActiveLine(m.rect.y, cfg.cell, cfg.yPattern)
    ensures Release(m, cfg).rect == m.rect
  {
    MoveSnapAligned(m.rect.x, m.rect.width, cfg.cell, cfg.xPattern, 1.0);
    MoveSnapAligned(m.rect.y, m.rect.height, cfg.cell, cfg.yPattern, 1.0);
  }

  /** On release an item snaps its left edge to the nearest line whenever
      that line is active, however far the last drag left it. */
  lemma ReleaseSnapsLeftEdge(m: Mover, cfg: SnapConfig)
    requires cfg.Valid() && m.session.ItemMove?
    requires LineActive(cfg.xPattern, GridIndex(m.rect.x, cfg.cell))
    ensures Release(m, cfg).rect.x == GridLine(m.rect.x, cfg.cell)
  {
    ReleaseSnapsActiveLeft(m.rect.x, m.rect.width, cfg.cell, cfg.xPattern);
  }
}

=== FILE: resize.dfy ===
/** Resizing an item from its bottom-right handle (src/surface-resize.ts):
    a grab remembers the pointer and the item's original rectangle; each
    move turns the pointer's travel into a candidate corner, snaps it and
    derives the new size; release re-snaps with a whole cell of reach, but
    only if the pointer actually moved. */
module Resize {
  import opened Geometry
  import opened Snap
  import Move

  /** The resize handle's session. `grabPos` is the negated pointer position
      at the grab, `orig` the item's rectangle at that moment, and
      `hasMoved` records whether any move has been snapped yet. */
  datatype Session = Idle | ItemResize(pointerId: int, grabPos: Point, orig: Rect, hasMoved: bool)

  datatype Resizer = Resizer(session: Session, rect: Rect, zIndex: int, counter: int)

  /** During a resize the item's top-left corner is the one it had at the grab. */
  predicate Anchored(z: Resizer) {
    z.session.ItemResize? ==> z.rect.Pos() == z.session.orig.Pos()
  }

  /** Pointer-down on the handle (src/surface-resize.ts:59-80). Only an idle
      handle reacts, and only to the left button. */
  function Grab(z: Resizer, leftButton: bool, pointerId: int, pointer: Point): (r: Resizer)
    ensures !(z.session.Idle? && leftButton) ==> r == z
    ensures z.session.Idle? && leftButton ==>
      r.session.ItemResize? && r.session.pointerId == pointerId && !r.session.hasMoved
      && r.session.orig == z.rect && r.counter == z.counter + 1 && r.zIndex == Move.GrabZIndex(z.counter)
    ensures r.rect == z.rect
    ensures Anchored(z) ==> Anchored(r)
  {
    if !z.session.Idle? || !leftButton then z
    else Resizer(ItemResize(pointerId, pointer.Negate(), z.rect, false), z.rect, Move.GrabZIndex(z.counter), z.counter + 1)
  }

  /** The candidate corner for a pointer position: the pointer's travel since
      the grab, added to the original size and the current top-left corner
      (src/surface-resize.ts:117-124). */
  function Candidate(s: Session, rect: Rect, pointer: Point): (c: Point)
    requires s.ItemResize?
    ensures rect.Pos() == s.orig.Pos() ==> c == s.orig.Corner().Translate(pointer.Translate(s.grabPos))
  {
    pointer.Translate(s.grabPos).Translate(s.orig.Size()).Translate(rect.Pos())
  }

  /** The candidate corner moves exactly as far as the pointer does. */
  lemma CandidateTracksPointer(s: Session, rect: Rect, p: Point, q: Point)
    requires s.ItemResize?
    ensures Candidate(s, rect, q).x - Candidate(s, rect, p).x == q.x - p.x
    ensures Candidate(s, rect, q).y - Candidate(s, rect, p).y == q.y - p.y
  {
  }

  /** A pointer that has not moved since the grab proposes exactly the
      original bottom-right corner. */
  lemma CandidateWithoutMotion(z: Resizer, leftButton: bool, pointerId: int, pointer: Point)
    requires z.session.Idle? && leftButton
    ensures Candidate(Grab(z, leftButton, pointerId, pointer).session, z.rect, pointer) == z.rect.Corner()
  {
  }

  /** Pointer-move while resizing (src/surface-resize.ts:116-127): other
      pointers are ignored; otherwise the candidate corner is snapped, the
      size follows it (never below 10) and the session remembers that a
      move happened. */
  function Drag(z: Resizer, pointerId: int, pointer: Point, cfg: SnapConfig): (r: Resizer)
    requires cfg.Valid()
    ensures !z.session.ItemResize? || pointerId != z.session.pointerId ==> r == z
    ensures z.session.ItemResize? && pointerId == z.session.pointerId ==>
      r.session == z.session.(hasMoved := true) && r.rect.width >= MinSize && r.rect.height >= MinSize
    ensures z.session.ItemResize? && pointerId == z.session.pointerId ==>
      r.rect == ResizeSnap(Candidate(z.session, z.rect, pointer), z.rect, cfg.cell, cfg.xPattern, cfg.yPattern, cfg.threshold)
    ensures r.rect.x == z.rect.x && r.rect.y == z.rect.y
    ensures Anchored(z) ==> Anchored(r)
  {
    if !z.session.ItemResize? || pointerId != z.session.pointerId then z
    else
      var p := Candidate(z.session, z.rect, pointer);
      Resizer(z.session.(hasMoved := true),
              ResizeSnap(p, z.rect, cfg.cell, cfg.xPattern, cfg.yPattern, cfg.threshold),
              z.zIndex, z.counter)
  }

  /** Pointer-up while resizing (src/surface-resize.ts:129-135): when the
      pointer moved, the current corner is snapped with threshold 1; the
      handle then goes back to idle. */
  function Release(z: Resizer, cfg: SnapConfig): (r: Resizer)
    requires cfg.Valid()
    ensures r.session.Idle?
    ensures !(z.session.ItemResize? && z.session.hasMoved) ==> r.rect == z.rect
    ensures z.session.ItemResize? && z.session.hasMoved ==>
      r.rect == ResizeSnap(z.rect.Corner(), z.rect, cfg.cell, cfg.xPattern, cfg.yPattern, 1.0)
    ensures z.session.ItemResize? && z.session.hasMoved ==> r.rect.width >= MinSize && r.rect.height >= MinSize
    ensures r.rect.x == z.rect.x && r.rect.y == z.rect.y
  {
    if !z.session.ItemResize? then z
    else if z.session.hasMoved then
      Resizer(Idle, ResizeSnap(z.rect.Corner(), z.rect, cfg.cell, cfg.xPattern, cfg.yPattern, 1.0), z.zIndex, z.counter)
    else
      z.(session := Idle)
  }

  /** Away from every qualifying line, and above the minimum size, the
      item's bottom-right corner follows the pointer exactly. */
  lemma DragFollowsPointer(z: Resizer, pointerId: int, pointer: Point, cfg: SnapConfig)
    requires cfg.Valid() && z.session.ItemResize? && pointerId == z.session.pointerId
    requires !CornerQualifies(Candidate(z.session, z.rect, pointer), cfg.cell, cfg.xPattern, cfg.yPattern, cfg.threshold)
    requires Candidate(z.session, z.rect, pointer).x - z.rect.x >= MinSize
    requires Candidate(z.session, z.rect, pointer).y - z.rect.y >= MinSize
    ensures Drag(z, pointerId, pointer, cfg).rect.Corner() == Candidate(z.session, z.rect, pointer)
  {
    var c := Candidate(z.session, z.rect, pointer);
    ResizeSnapUnqualified(c, z.rect, cfg.cell, cfg.xPattern, cfg.yPattern, cfg.threshold);
  }

  /** After a drag, release puts the right edge on its nearest line whenever
      that line is active and leaves at least the minimum width. */
  lemma ReleaseSnapsRightEdge(z: Resizer, cfg: SnapConfig)
    requires cfg.Valid() && z.session.ItemResize? && z.session.hasMoved
    requires LineActive(cfg.xPattern, GridIndex(z.rect.Right(), cfg.cell))
    requires GridLine(z.rect.Right(), cfg.cell) - z.rect.x >= MinSize
    ensures Release(z, cfg).rect.Right() == GridLine(z.rect.Right(), cfg.cell)
  {
    FullCellQualifies(z.rect.Right(), cfg.cell, cfg.xPattern);
    assert ResizeSnapAxis(z.rect.Corner().x, cfg.cell, cfg.xPattern, 1.0) == GridLine(z.rect.Right(), cfg.cell);
  }

  /** A click on the handle without any motion leaves the item exactly as it was. */
  lemma ClickKeepsItem(z: Resizer, leftButton: bool, pointerId: int, pointer: Point, cfg: SnapConfig)
    requires cfg.Valid() && z.session.Idle? && leftButton
    ensures Release(Grab(z, leftButton, pointerId, pointer), cfg).rect == z.rect
  {
  }

  /** Resizing to the candidate corner produced without motion, when that
      corner already sits on active lines and the item is at least the
      minimum size, leaves the item as it was. */
  lemma DragWithoutMotionKeepsAlignedItem(z: Resizer, leftButton: bool, pointerId: int, pointer: Point, cfg: SnapConfig)
    requires cfg.Valid() && cfg.threshold > 0.0 && z.session.Idle? && leftButton
    requires OnActiveLine(z.rect.Corner().x, cfg.cell, cfg.xPattern)
    requires OnActiveLine(z.rect.Corner().y, cfg.cell, cfg.yPattern)
    requires z.rect.width >= MinSize && z.rect.height >= MinSize
    ensures Drag(Grab(z, leftButton, pointerId, pointer), pointerId, pointer, cfg).rect == z.rect
  {
    var g := Grab(z, leftButton, pointerId, pointer);
    CandidateWithoutMotion(z, leftButton, pointerId, pointer);
    ResizeSnapAligned(z.rect.Corner().x, cfg.cell, cfg.xPattern, cfg.threshold);
    ResizeSnapAligned(z.rect.Corner().y, cfg.cell, cfg.yPattern, cfg.threshold);
  }
}

=== FILE: slotted.dfy ===
/** Placing the surface's slotted children from their persisted coordinates
    (src/surface.ts:370-387). Each child carries `data-left`, `data-top`,
    `data-width` and `data-height`; the move and resize handles write them
    on release, and the surface copies them into the child's absolute
    position. A child without `data-left` aborts the placement. */
module Slotted {
  import opened Wrappers

  /** The persisted coordinates of one child; a missing attribute is `None`. */
  datatype Dataset = Dataset(left: Option<real>, top: Option<real>, width: Option<real>, height: Option<real>)

  /** A CSS length written as `value + 'px'`: a number of pixels, or the
      string `undefinedpx` that a missing attribute produces. */
  datatype CssLength = Px(px: real) | UndefinedPx

  /** The absolute position and size assigned to a child's style. */
  datatype Placement = Placement(left: CssLength, top: CssLength, width: CssLength, height: CssLength)

  function Length(v: Option<real>): (l: CssLength)
    ensures l.Px? <==> v.Some?
    ensures v.Some? ==> l.px == v.value
  {
    match v
    case Some(x) => Px(x)
    case None => UndefinedPx
  }

  /** A style length shows an attribute: its pixel value when present, and
      `undefinedpx` when missing. */
  predicate Shows(l: CssLength, v: Option<real>) {
    && (v.Some? ==> l == Px(v.value))
    && (v.None? ==> l == UndefinedPx)
  }

  /** The style of one child. Only `data-left` is checked; the other three
      are copied even when missing. */
  function Place(d: Dataset): (p: Placement)
    ensures Shows(p.left, d.left) && Shows(p.top, d.top)
    ensures Shows(p.width, d.width) && Shows(p.height, d.height)
  {
    Placement(Length(d.left), Length(d.top), Length(d.width), Length(d.height))
  }

  /** The index of the first child without `data-left`, if any. */
  function FirstMissingLeft(children: seq<Dataset>): (r: Option<nat>)
    ensures r.None? <==> forall j :: 0 <= j < |children| ==> children[j].left.Some?
    ensures r.Some? ==> r.value < |children| && children[r.value].left.None?
                        && forall j :: 0 <= j < r.value ==> children[j].left.Some?
  {
    if |children| == 0 then None
    else if children[0].left.None? then Some(0)
    else
      match FirstMissingLeft(children[1..])
      case None => None
      case Some(i) => Some(i + 1)
  }

  /** The placement loop: children are styled in order until one lacks
      `data-left`, where the source throws. The styles already assigned stay
      assigned, so the method returns them together with the index of the
      failing child. */
  method PlaceAll(children: seq<Dataset>) returns (styles: seq<Placement>, failedAt: Option<nat>)
    ensures failedAt == FirstMissingLeft(children)
    ensures failedAt.None? ==> |styles| == |children|
    ensures failedAt.Some? ==> |styles| == failedAt.value
    ensures forall j :: 0 <= j < |styles| ==> children[j].left.Some? && styles[j] == Place(children[j])
  {
    styles := [];
    var i := 0;
    while i < |children|
      invariant 0 <= i <= |children| && |styles| == i
      invariant forall j :: 0 <= j < i ==> children[j].left.Some? && styles[j] == Place(children[j])
    {
      if children[i].left.None? {
        failedAt := Some(i);
        FirstMissingLeftAt(children, i);
        return;
      }
      styles := styles + [Place(children[i])];
      i := i + 1;
    }
    failedAt := None;
  }

  /** The first missing `data-left` is the one after a run of present ones. */
  lemma {:induction false} FirstMissingLeftAt(children: seq<Dataset>, i: nat)
    requires i < |children| && children[i].left.None?
    requires forall j :: 0 <= j < i ==> children[j].left.Some?
    ensures FirstMissingLeft(children) == Some(i)
  {
    if i > 0 {
      assert forall j :: 0 <= j < i - 1 ==> children[1..][j] == children[j + 1];
      FirstMissingLeftAt(children[1..], i - 1);
    }
  }
}

=== FILE: snap.dfy ===
/** The grid-snapping rule shared by item moves and item resizes
    (src/surface-move.ts, src/surface-resize.ts and their older copies in
    src/surface.ts). An edge position snaps to its nearest grid line when
    that line is drawn by the repeating pattern and lies strictly closer
    than `cell * threshold`. */
module Snap {
  import opened Geometry
  import opened Util

  /** The snapping parameters a surface hands to its handles. */
  datatype SnapConfig = SnapConfig(cell: real, threshold: real, xPattern: string, yPattern: string)
  {
    predicate Valid() {
      cell > 0.0
    }
  }

  /** `+c` on a one-character string is truthy exactly for the digits 1-9:
      '0' and whitespace convert to 0, anything else to NaN. */
  predicate DigitTruthy(c: char) {
    '1' <= c <= '9'
  }

  /** Line `k` of a repeating pattern is drawn when its digit, taken at
      `modwrap(k, len)`, is truthy. An empty pattern makes `modwrap` return
      NaN, the lookup `undefined`, and the line inactive. */
  predicate LineActive(pattern: string, k: int) {
    |pattern| > 0 && DigitTruthy(pattern[ModWrap(k, |pattern|)])
  }

  /** The index of the grid line nearest to `v`, `Math.round(v / cell)`:
      the rounded coordinate divided by the cell size. */
  function GridIndex(v: real, cell: real): (k: int)
    requires cell > 0.0
    ensures v / cell - 0.5 < k as real <= v / cell + 0.5
  {
    RoundHalfUp(v / cell)
  }

  /** A pattern repeats: line `k` and line `k + j * |pattern|` are drawn
      alike, for negative indices too. */
  lemma LineActivePeriodic(pattern: string, k: int, j: int)
    requires |pattern| > 0
    ensures LineActive(pattern, k + j * |pattern|) == LineActive(pattern, k)
  {
    ModWrapPeriodic(k, j, |pattern|);
  }

  /** The pattern "10" draws exactly the even lines, negative ones included
      (line -1 is not drawn, line -2 is). */
  lemma AlternatingPattern(k: int)
    ensures LineActive("10", k) <==> k % 2 == 0
  {
    ModWrapIsFloorMod(k, 2);
  }

  /** A pattern without a digit 1-9 (all zeros, spaces or letters) draws
      no line at all. */
  lemma NoDigitNoLine(pattern: string, k: int)
    requires forall i :: 0 <= i < |pattern| ==> !DigitTruthy(pattern[i])
    ensures !LineActive(pattern, k)
  {
    if |pattern| > 0 {
      var i := ModWrap(k, |pattern|);
      assert !DigitTruthy(pattern[i]);
    }
  }

  /** Half a cell: the furthest any position is from its nearest line. */
  function Half(cell: real): real {
    cell / 2.0
  }

  /** The grid line nearest to `v`: what `round(v, 1 / cell)` returns. It is
      never more than half a cell away. */
  function GridLine(v: real, cell: real): (g: real)
    requires cell > 0.0
    ensures Abs(g - v) <= Half(cell)
  {
    var k := GridIndex(v, cell);
    WindowScaled(v / cell, k as real, cell);
    DivMul(v, cell);
    k as real * cell
  }

  lemma WindowScaled(q: real, k: real, c: real)
    requires c > 0.0 && q - 0.5 < k <= q + 0.5
    ensures q * c - Half(c) < k * c <= q * c + Half(c)
  {
    MulLess(q - 0.5, k, c);
    MulAtMost(k, q + 0.5, c);
  }

  /** `GridLine` is `round` from the utilities at precision `1 / cell`. */
  lemma GridLineIsRound(v: real, cell: real, prec: real)
    requires cell > 0.0 && prec > 0.0 && prec * cell == 1.0
    ensures GridLine(v, cell) == RoundCoord(v, prec)
  {
    RoundToCell(v, cell, prec);
  }

  /** Line `k` is the nearest line to its own position. */
  lemma GridIndexOfLine(k: int, cell: real)
    requires cell > 0.0
    ensures GridIndex(k as real * cell, cell) == k
    ensures GridLine(k as real * cell, cell) == k as real * cell
  {
    MulDiv(k as real, cell);
    RoundHalfUpInteger(k);
  }

  /** A position sits on an active line of the pattern. */
  predicate OnActiveLine(v: real, cell: real, pattern: string)
    requires cell > 0.0
  {
    GridLine(v, cell) == v && LineActive(pattern, GridIndex(v, cell))
  }

  /** Snapping the nearest line lands on an active line when that line is active. */
  lemma GridLineOnActiveLine(v: real, cell: real, pattern: string)
    requires cell > 0.0 && LineActive(pattern, GridIndex(v, cell))
    ensures OnActiveLine(GridLine(v, cell), cell, pattern)
  {
    var k := GridIndex(v, cell);
    var g := GridLine(v, cell);
    assert g == k as real * cell;
    GridIndexOfLine(k, cell);
    assert GridIndex(g, cell) == k && GridLine(g, cell) == g;
  }

  /** The snap test for one edge: its nearest line is active and strictly
      closer than `snapSize`. */
  predicate Qualifies(v: real, cell: real, pattern: string, snapSize: real)
    requires cell > 0.0
  {
    LineActive(pattern, GridIndex(v, cell)) && Abs(GridLine(v, cell) - v) < snapSize
  }

  /** A larger snap distance never un-snaps an edge. */
  lemma QualifiesMonotone(v: real, cell: real, pattern: string, small: real, large: real)
    requires cell > 0.0 && small <= large && Qualifies(v, cell, pattern, small)
    ensures Qualifies(v, cell, pattern, large)
  {
  }

  /** An edge exactly `snapSize` away from its line does not snap. */
  lemma AtThresholdNoSnap(v: real, cell: real, pattern: string, snapSize: real)
    requires cell > 0.0 && Abs(GridLine(v, cell) - v) == snapSize
    ensures !Qualifies(v, cell, pattern, snapSize)
  {
  }

  /** With threshold 1 the snap distance is a whole cell, which every
      nearest line beats: only the pattern decides. */
  lemma FullCellQualifies(v: real, cell: real, pattern: string)
    requires cell > 0.0
    ensures Qualifies(v, cell, pattern, cell * 1.0) <==> LineActive(pattern, GridIndex(v, cell))
  {
    var g := GridLine(v, cell);
    assert Abs(g - v) <= Half(cell);
  }

  /** One axis of the move snap (`rect.x = …` / `rect.y = …`): `a` is the
      candidate left (top) edge and `size` the width (height), so the right
      (bottom) edge is `a + size`. The left edge is tried first, then the
      right edge, otherwise the candidate is kept. The result is the
      candidate itself, or a position less than `cell * threshold` away
      whose left or right edge sits on an active line. */
  function MoveSnapAxis(a: real, size: real, cell: real, pattern: string, threshold: real): (x: real)
    requires cell > 0.0
    ensures x == a
      || (Abs(x - a) < cell * threshold
          && (OnActiveLine(x, cell, pattern) || OnActiveLine(x + size, cell, pattern)))
    ensures Qualifies(a, cell, pattern, cell * threshold) ==> x == GridLine(a, cell)
    ensures !Qualifies(a, cell, pattern, cell * threshold) && Qualifies(a + size, cell, pattern, cell * threshold)
      ==> x == GridLine(a + size, cell) - size
    ensures !Qualifies(a, cell, pattern, cell * threshold) && !Qualifies(a + size, cell, pattern, cell * threshold)
      ==> x == a
  {
    var snapSize := cell * threshold;
    var b := a + size;
    if Qualifies(a, cell, pattern, snapSize) then
      GridLineOnActiveLine(a, cell, pattern);
      GridLine(a, cell)
    else if Qualifies(b, cell, pattern, snapSize) then
      GridLineOnActiveLine(b, cell, pattern);
      assert GridLine(b, cell) - size + size == GridLine(b, cell);
      GridLine(b, cell) - size
    else
      a
  }

  /** The snapped position is exactly one of the three candidates:
      `sa`, `sb - size` or the raw `a`. */
  lemma MoveSnapAxisCases(a: real, size: real, cell: real, pattern: string, threshold: real)
    requires cell > 0.0
    ensures var x := MoveSnapAxis(a, size, cell, pattern, threshold);
      x == GridLine(a, cell) || x == GridLine(a + size, cell) - size || x == a
  {
  }

  /** The left (top) edge has priority: when it qualifies, the right edge
      is never consulted. */
  lemma MoveSnapLeftFirst(a: real, size: real, cell: real, pattern: string, threshold: real)
    requires cell > 0.0 && Qualifies(a, cell, pattern, cell * threshold)
    ensures MoveSnapAxis(a, size, cell, pattern, threshold) == GridLine(a, cell)
  {
  }

  /** A position moves only when one of its two edges qualifies. */
  lemma MoveSnapKeepsUnqualified(a: real, size: real, cell: real, pattern: string, threshold: real)
    requires cell > 0.0
    ensures MoveSnapAxis(a, size, cell, pattern, threshold) != a ==>
      Qualifies(a, cell, pattern, cell * threshold) || Qualifies(a + size, cell, pattern, cell * threshold)
  {
  }

  /** With threshold 1 (the release snap) the left edge always snaps when
      its nearest line is active, wherever the item is. */
  lemma ReleaseSnapsActiveLeft(a: real, size: real, cell: real, pattern: string)
    requires cell > 0.0 && LineActive(pattern, GridIndex(a, cell))
    ensures MoveSnapAxis(a, size, cell, pattern, 1.0) == GridLine(a, cell)
  {
    FullCellQualifies(a, cell, pattern);
  }

  /** An item already on an active line stays where it is under any
      positive threshold. */
  lemma MoveSnapAligned(a: real, size: real, cell: real, pattern: string, threshold: real)
    requires cell > 0.0 && threshold > 0.0 && OnActiveLine(a, cell, pattern)
    ensures MoveSnapAxis(a, size, cell, pattern, threshold) == a
  {
    assert cell * threshold > 0.0;
  }

  /** The move snap of a whole rectangle: each axis snaps independently and
      only the position is assigned; the size is left as it was. */
  function MoveSnap(a: Point, rect: Rect, cell: real, xPattern: string, yPattern: string, threshold: real): (r: Rect)
    requires cell > 0.0
    ensures r.width == rect.width && r.height == rect.height
    ensures r.x == a.x || Abs(r.x - a.x) < cell * threshold
    ensures r.y == a.y || Abs(r.y - a.y) < cell * threshold
  {
    Rect(MoveSnapAxis(a.x, rect.width, cell, xPattern, threshold),
         MoveSnapAxis(a.y, rect.height, cell, yPattern, threshold),
         rect.width, rect.height)
  }

  /** Some edge of a rectangle of `rect`'s size, placed with its corner at
      `a`, qualifies for the move snap. */
  predicate EdgeQualifies(a: Point, rect: Rect, cell: real, xPattern: string, yPattern: string, threshold: real)
    requires cell > 0.0
  {
    var snapSize := cell * threshold;
    || Qualifies(a.x, cell, xPattern, snapSize) || Qualifies(a.x + rect.width, cell, xPattern, snapSize)
    || Qualifies(a.y, cell, yPattern, snapSize) || Qualifies(a.y + rect.height, cell, yPattern, snapSize)
  }

  /** A rectangle none of whose edges qualifies keeps the candidate position. */
  lemma MoveSnapUnqualified(a: Point, rect: Rect, cell: real, xPattern: string, yPattern: string, threshold: real)
    requires cell > 0.0 && !EdgeQualifies(a, rect, cell, xPattern, yPattern, threshold)
    ensures MoveSnap(a, rect, cell, xPattern, yPattern, threshold).Pos() == a
  {
  }

  /** A qualifying left edge decides the snapped x, whatever the right edge does. */
  lemma MoveSnapLeftQualified(a: Point, rect: Rect, cell: real, xPattern: string, yPattern: string, threshold: real)
    requires cell > 0.0 && Qualifies(a.x, cell, xPattern, cell * threshold)
    ensures MoveSnap(a, rect, cell, xPattern, yPattern, threshold).x == GridLine(a.x, cell)
  {
  }

  /** Either coordinate of a candidate corner qualifies for the resize snap. */
  predicate CornerQualifies(p: Point, cell: real, xPattern: string, yPattern: string, threshold: real)
    requires cell > 0.0
  {
    Qualifies(p.x, cell, xPattern, cell * threshold) || Qualifies(p.y, cell, yPattern, cell * threshold)
  }

  /** `x` is where the resize snap sends the coordinate `p`: the nearest
      line when `p` qualifies, `p` itself otherwise. */
  predicate SnapsTo(p: real, x: real, cell: real, pattern: string, threshold: real)
    requires cell > 0.0
  {
    && (Qualifies(p, cell, pattern, cell * threshold) ==> x == GridLine(p, cell))
    && (!Qualifies(p, cell, pattern, cell * threshold) ==> x == p)
  }

  /** One axis of the resize snap: the candidate corner coordinate snaps to
      its nearest line when that qualifies, otherwise it is kept. */
  function ResizeSnapAxis(p: real, cell: real, pattern: string, threshold: real): (x: real)
    requires cell > 0.0
    ensures x == p || (Abs(x - p) < cell * threshold && OnActiveLine(x, cell, pattern))
    ensures SnapsTo(p, x, cell, pattern, threshold)
    ensures Abs(x - p) <= Half(cell)
  {
    if Qualifies(p, cell, pattern, cell * threshold) then
      GridLineOnActiveLine(p, cell, pattern);
      GridLine(p, cell)
    else
      p
  }

  /** A corner coordinate already on an active line is kept by any
      positive threshold. */
  lemma ResizeSnapAligned(p: real, cell: real, pattern: string, threshold: real)
    requires cell > 0.0 && threshold > 0.0 && OnActiveLine(p, cell, pattern)
    ensures ResizeSnapAxis(p, cell, pattern, threshold) == p
  {
    assert cell * threshold > 0.0;
  }

  /** The smallest width or height a resize can produce. */
  const MinSize: real := 10.0

  /** `Math.max(10, corner - left)`: the extent from a fixed edge to the
      snapped corner, never below the minimum. */
  function ResizedExtent(edge: real, corner: real): (w: real)
    ensures w >= MinSize
    ensures w == corner - edge || (w == MinSize && corner - edge < MinSize)
  {
    Max(MinSize, corner - edge)
  }

  /** The resize snap of a whole rectangle: the corner `p` snaps per axis and
      the size becomes the distance from the unchanged top-left corner. */
  function ResizeSnap(p: Point, rect: Rect, cell: real, xPattern: string, yPattern: string, threshold: real): (r: Rect)
    requires cell > 0.0
    ensures r.x == rect.x && r.y == rect.y
    ensures r.width >= MinSize && r.height >= MinSize
    ensures var cx := ResizeSnapAxis(p.x, cell, xPattern, threshold);
      if cx - rect.x >= MinSize then r.x + r.width == cx else r.width == MinSize
    ensures var cy := ResizeSnapAxis(p.y, cell, yPattern, threshold);
      if cy - rect.y >= MinSize then r.y + r.height == cy else r.height == MinSize
  {
    Rect(rect.x, rect.y,
         ResizedExtent(rect.x, ResizeSnapAxis(p.x, cell, xPattern, threshold)),
         ResizedExtent(rect.y, ResizeSnapAxis(p.y, cell, yPattern, threshold)))
  }

  /** A candidate corner that qualifies on neither axis and leaves at least
      the minimum size becomes the rectangle's corner unchanged. */
  lemma ResizeSnapUnqualified(p: Point, rect: Rect, cell: real, xPattern: string, yPattern: string, threshold: real)
    requires cell > 0.0 && !CornerQualifies(p, cell, xPattern, yPattern, threshold)
    requires p.x - rect.x >= MinSize && p.y - rect.y >= MinSize
    ensures ResizeSnap(p, rect, cell, xPattern, yPattern, threshold).Corner() == p
  {
  }
}

=== FILE: util.dfy ===
/** The arithmetic every snap and grid decision is built on (src/util.ts):
    a floor-modulo that wraps negative line indices, rounding to a
    precision, and (squared) distance. */
module Util {
  import opened Geometry

  function IntAbs(x: int): nat {
    if x < 0 then -x else x
  }

  /** JavaScript's `%` on integers: truncates toward zero, so the remainder
      carries the sign of the dividend (unlike Dafny's Euclidean `%`). */
  function JsRem(x: int, n: int): (r: int)
    requires n != 0
    ensures IntAbs(r) < IntAbs(n)
    ensures x >= 0 ==> r >= 0
    ensures x < 0 ==> r <= 0
  {
    if x >= 0 then x % IntAbs(n) else -((-x) % IntAbs(n))
  }

  /** `modwrap(x, N) = (x % N + N) % N`. A zero length makes the source
      produce NaN; callers model that case themselves, so it is excluded here. */
  function ModWrap(x: int, n: int): (r: int)
    requires n > 0
    ensures 0 <= r < n
  {
    JsRem(JsRem(x, n) + n, n)
  }

  /** Euclidean remainder is unique: any decomposition `x == q * n + r`
      with `0 <= r < n` yields `x % n == r`. */
  lemma ModUnique(x: int, n: int, q: int, r: int)
    requires n > 0 && 0 <= r < n && x == q * n + r
    ensures x % n == r
  {
    var q', r' := x / n, x % n;
    assert x == q' * n + r';
    assert (q - q') * n == r' - r;
    if q > q' {
      assert (q - q') * n >= n by { MulAtLeast(q - q', n); }
      assert false;
    } else if q < q' {
      assert (q' - q) * n >= n by { MulAtLeast(q' - q, n); }
      assert false;
    }
  }

  lemma MulAtLeast(k: int, n: int)
    requires k >= 1 && n > 0
    ensures k * n >= n
  {
  }

  /** Adding whole multiples of `n` leaves the Euclidean remainder alone. */
  lemma ModShift(x: int, m: int, n: int)
    requires n > 0
    ensures (x + m * n) % n == x % n
  {
    assert x + m * n == (x / n + m) * n + x % n;
    ModUnique(x + m * n, n, x / n + m, x % n);
  }

  /** `modwrap` is floor-modulo: it agrees with the mathematical
      (Euclidean) remainder for every integer, negative ones included. */
  lemma ModWrapIsFloorMod(x: int, n: int)
    requires n > 0
    ensures ModWrap(x, n) == x % n
  {
    var t := JsRem(x, n);
    if x >= 0 {
      ModShift(x, -(x / n), n);
      assert t == x + (-(x / n)) * n;
      ModShift(t, 1, n);
      assert ModWrap(x, n) == (t + n) % n;
    } else {
      assert t == -((-x) % n);
      assert -x == ((-x) / n) * n + (-x) % n;
      assert t == x + ((-x) / n) * n;
      assert t + n == x + ((-x) / n + 1) * n;
      ModShift(x, (-x) / n + 1, n);
      assert ModWrap(x, n) == (t + n) % n;
    }
  }

  /** Periodicity: shifting the index by whole periods does not change the wrap. */
  lemma ModWrapPeriodic(x: int, k: int, n: int)
    requires n > 0
    ensures ModWrap(x + k * n, n) == ModWrap(x, n)
  {
    ModWrapIsFloorMod(x + k * n, n);
    ModWrapIsFloorMod(x, n);
    ModShift(x, k, n);
  }

  /** Indices already in range are returned unchanged. */
  lemma ModWrapIdentity(x: int, n: int)
    requires 0 <= x < n
    ensures ModWrap(x, n) == x
  {
    ModWrapIsFloorMod(x, n);
    ModUnique(x, n, 0, x);
  }

  /** Index -1 wraps to the last position. */
  lemma ModWrapMinusOne(n: int)
    requires n > 0
    ensures ModWrap(-1, n) == n - 1
  {
    ModWrapIsFloorMod(-1, n);
    ModUnique(-1, n, -1, n - 1);
  }

  /** `Math.round`: the nearest integer, halves rounded up (toward +infinity). */
  function RoundHalfUp(v: real): (k: int)
    ensures v - 0.5 < k as real <= v + 0.5
  {
    (v + 0.5).Floor
  }

  /** `Math.round` is characterised by its half-open window: the integer in
      `(v - 1/2, v + 1/2]` is the only answer. */
  lemma RoundHalfUpUnique(v: real, k: int)
    requires v - 0.5 < k as real <= v + 0.5
    ensures RoundHalfUp(v) == k
  {
  }

  /** `Math.round` returns a nearest integer. */
  lemma RoundHalfUpNearest(v: real, k: int)
    ensures Abs(v - RoundHalfUp(v) as real) <= Abs(v - k as real)
  {
    var n := RoundHalfUp(v);
    assert Abs(v - n as real) <= 0.5;
    if k > n {
      assert k as real >= n as real + 1.0;
      assert k as real - v >= 0.5;
    } else if k < n {
      assert k as real <= n as real - 1.0;
      assert v - k as real >= 0.5;
    }
  }

  /** `Math.round` of an integer is that integer. */
  lemma RoundHalfUpInteger(k: int)
    ensures RoundHalfUp(k as real) == k
  {
  }

  /** One coordinate of `round(p, prec)`: `Math.round(v * prec) / prec`.
      The result is a whole number of steps `1 / prec` (exactly
      `Math.round(v * prec)` of them) and at most half a step from `v`. */
  function RoundCoord(v: real, prec: real): (r: real)
    requires prec > 0.0
    ensures r * prec == RoundHalfUp(v * prec) as real
    ensures Abs(r - v) * prec <= 0.5
  {
    var k := RoundHalfUp(v * prec);
    DivMul(k as real, prec);
    ScaledDistance(k as real / prec, v, prec);
    k as real / prec
  }

  /** Multiplying by a positive factor keeps a strict order. */
  lemma MulLess(x: real, y: real, c: real)
    requires x < y && c > 0.0
    ensures x * c < y * c
  {
    assert (y - x) * c > 0.0;
  }

  /** Multiplying by a positive factor keeps a non-strict order. */
  lemma MulAtMost(x: real, y: real, c: real)
    requires x <= y && c > 0.0
    ensures x * c <= y * c
  {
    assert (y - x) * c >= 0.0;
  }

  lemma DivMul(a: real, b: real)
    requires b != 0.0
    ensures (a / b) * b == a
  {
  }

  lemma MulDiv(a: real, b: real)
    requires b != 0.0
    ensures (a * b) / b == a
  {
  }

  lemma ScaledDistance(u: real, v: real, k: real)
    requires k > 0.0
    ensures Abs(u - v) * k == Abs(u * k - v * k)
  {
    assert (u - v) * k == u * k - v * k;
    if u - v < 0.0 {
      assert (u - v) * k < 0.0;
    } else {
      assert (u - v) * k >= 0.0;
    }
  }

  /** `round(p, prec)`: snaps each axis, independently, to the nearest
      multiple of `1 / prec`. */
  function Round(p: Point, prec: real): (r: Point)
    requires prec > 0.0
    ensures RoundedTo(r.x, p.x, prec) && RoundedTo(r.y, p.y, prec)
  {
    RoundCoordAt(p.x, prec);
    RoundCoordAt(p.y, prec);
    Point(RoundCoord(p.x, prec), RoundCoord(p.y, prec))
  }

  /** `r` is a whole number of steps `1 / prec` (exactly
      `Math.round(v * prec)` of them) and at most half a step from `v`. */
  predicate RoundedTo(r: real, v: real, prec: real) {
    r * prec == RoundHalfUp(v * prec) as real && Abs(r - v) * prec <= 0.5
  }

  /** Brings `RoundCoord`'s contract into scope for one coordinate. */
  lemma RoundCoordAt(v: real, prec: real)
    requires prec > 0.0
    ensures RoundedTo(RoundCoord(v, prec), v, prec)
  {
  }

  /** A coordinate already on the grid is left where it is. */
  lemma RoundCoordOfMultiple(v: real, prec: real, k: int)
    requires prec > 0.0 && v * prec == k as real
    ensures RoundCoord(v, prec) == v
  {
    RoundHalfUpInteger(k);
    assert RoundHalfUp(v * prec) == k;
    MulDiv(v, prec);
  }

  /** Rounding a coordinate is idempotent. */
  lemma RoundCoordIdempotent(v: real, prec: real)
    requires prec > 0.0
    ensures RoundCoord(RoundCoord(v, prec), prec) == RoundCoord(v, prec)
  {
    var r := RoundCoord(v, prec);
    RoundCoordOfMultiple(r, prec, RoundHalfUp(v * prec));
  }

  /** Rounding a point is idempotent. */
  lemma RoundIdempotent(p: Point, prec: real)
    requires prec > 0.0
    ensures Round(Round(p, prec), prec) == Round(p, prec)
  {
    RoundCoordIdempotent(p.x, prec);
    RoundCoordIdempotent(p.y, prec);
  }

  /** With precision `prec = 1 / cell`, rounding snaps to the nearest
      multiple of `cell`: the coordinate becomes `Math.round(v / cell) * cell`. */
  lemma RoundToCell(v: real, cell: real, prec: real)
    requires cell > 0.0 && prec > 0.0 && prec * cell == 1.0
    ensures RoundCoord(v, prec) == RoundHalfUp(v / cell) as real * cell
  {
    var k := RoundHalfUp(v / cell);
    MulReciprocal(v, cell, prec);
    DivReciprocal(k as real, cell, prec);
    RoundCoordUnfold(v, prec, k, cell);
  }

  lemma MulReciprocal(v: real, c: real, p: real)
    requires c > 0.0 && p * c == 1.0
    ensures v * p == v / c
  {
    assert v * p * c == v;
  }

  lemma DivReciprocal(k: real, c: real, p: real)
    requires c > 0.0 && p > 0.0 && p * c == 1.0
    ensures k / p == k * c
  {
    assert k * c * p == k;
  }

  lemma RoundCoordUnfold(v: real, p: real, k: int, c: real)
    requires p > 0.0 && RoundHalfUp(v * p) == k && k as real / p == k as real * c
    ensures RoundCoord(v, p) == k as real * c
  {
  }

  /** Squared Euclidean distance; `distance` is its square root, which the
      model takes as given wherever it is used. */
  function DistanceSq(a: Point, b: Point): (d: real)
    ensures d >= 0.0
    ensures a == b ==> d == 0.0
  {
    SquareNonNeg(b.x - a.x);
    SquareNonNeg(b.y - a.y);
    Square(b.x - a.x) + Square(b.y - a.y)
  }

  function Square(v: real): real {
    v * v
  }

  /** Squared distance does not depend on the order of the two points. */
  lemma DistanceSqSpec(a: Point, b: Point)
    ensures DistanceSq(a, b) == DistanceSq(b, a)
  {
    assert Square(b.x - a.x) == Square(a.x - b.x);
    assert Square(b.y - a.y) == Square(a.y - b.y);
  }

  lemma SquareNonNeg(v: real)
    ensures Square(v) >= 0.0
  {
    if v < 0.0 {
      assert Square(v) == (-v) * (-v);
    }
  }
}

=== FILE: viewport.dfy ===
/** The view transform of the surface: a uniform zoom `a = d` with a
    translation `(e, f)`, changed by panning, pinching, the mouse wheel and
    the centering of a rectangle (src/surface.tsx, src/surface.ts). */
module Viewport {
  import opened Wrappers
  import opened Geometry
  import opened Util

  // ------------------------------------------------------------ numbers

  /** A JavaScript number as far as the wheel cares: a finite value, NaN or
      an infinity. The wheel factor comes from a power that is NaN for a
      negative base. */
  datatype JsNumber = Num(v: real) | NaN | PosInf | NegInf

  predicate IsFinite(z: JsNumber) {
    z.Num?
  }

  /** `z > k`; every comparison with NaN is false. */
  predicate Above(z: JsNumber, k: real) {
    match z
    case Num(v) => v > k
    case PosInf => true
    case _ => false
  }

  /** `z < k`. */
  predicate Below(z: JsNumber, k: real) {
    match z
    case Num(v) => v < k
    case NegInf => true
    case _ => false
  }

  /** `a * z` for a positive finite `a`. */
  function Times(a: real, z: JsNumber): (r: JsNumber)
    requires a > 0.0
    ensures r.Num? <==> z.Num?
    ensures r.NaN? <==> z.NaN?
  {
    match z
    case Num(v) => Num(a * v)
    case other => other
  }

  // ---------------------------------------------------------------- pan

  /** `Point.normalize(k)`: a screen delta divided by the zoom. */
  function DivideBy(p: Point, k: real): (r: Point)
    requires k != 0.0
    ensures r.x * k == p.x && r.y * k == p.y
  {
    Point(p.x / k, p.y / k)
  }

  /** Panning by one pointer step from `p` to `n` (src/surface.tsx:708-712):
      the screen delta is turned into a world delta by dividing by the zoom
      and the matrix is translated by it; a zero delta changes nothing. */
  function Pan(m: Matrix, p: Point, n: Point): (r: Matrix)
    requires Uniform(m)
    ensures Uniform(r) && r.a == m.a
    ensures n == p ==> r == m
  {
    var d := DivideBy(n.Screen(p), m.a);
    if d.AbsoluteSum() == 0.0 then m else Translate(m, d.x, d.y)
  }

  /** Panning drags the whole world with the pointer: every world point's
      screen image moves by exactly the pointer's screen delta. */
  lemma PanFollowsPointer(m: Matrix, p: Point, n: Point, w: Point)
    requires Uniform(m)
    ensures Apply(Pan(m, p, n), w) == Apply(m, w).Translate(n.Screen(p))
  {
    var d := DivideBy(n.Screen(p), m.a);
    PanIsTranslate(m, p, n);
    TranslateComposes(m, d.x, d.y, w);
    ShiftedImage(m, w, Point(d.x, d.y));
  }

  /** A pan always translates by the world delta; for a zero delta that
      translation is the identity. */
  lemma PanIsTranslate(m: Matrix, p: Point, n: Point)
    requires Uniform(m)
    ensures var d := DivideBy(n.Screen(p), m.a); Pan(m, p, n) == Translate(m, d.x, d.y)
  {
    var d := DivideBy(n.Screen(p), m.a);
    if d.AbsoluteSum() == 0.0 {
      assert d.x == 0.0 && d.y == 0.0;
    }
  }

  /** The world point that was under `p` is under `n` after the pan. */
  lemma PanKeepsGrabbedPoint(m: Matrix, p: Point, n: Point)
    requires Uniform(m)
    ensures Apply(Pan(m, p, n), Normalize(m, p)) == n
  {
    PanFollowsPointer(m, p, n, Normalize(m, p));
    ApplyNormalize(m, p);
  }

  lemma TranslateByZero(p: Point)
    ensures p.Translate(Point(0.0, 0.0)) == p
  {
  }

  /** Moving a world point by `d` moves its image by `a * d` under a uniform matrix. */
  lemma ShiftedImage(m: Matrix, w: Point, d: Point)
    requires Uniform(m)
    ensures Apply(m, w.Translate(d)) == Apply(m, w).Translate(Point(d.x * m.a, d.y * m.a))
  {
    UniformApply(m, w.Translate(d));
    UniformApply(m, w);
    Distribute(m.a, w.x, d.x);
    Distribute(m.a, w.y, d.y);
  }

  lemma Distribute(s: real, u: real, v: real)
    ensures s * (u + v) == s * u + v * s
  {
  }

  // -------------------------------------------------------------- pinch

  /** What a pinch remembers from its first frame: the distance between the
      two pointers and a copy of the matrix. */
  datatype Baseline = NoBaseline | Baseline(dist: real, matrix: Matrix)

  /** A recorded baseline has a positive distance and a uniform matrix. */
  predicate ValidBaseline(b: Baseline) {
    b.Baseline? ==> b.dist > 0.0 && Uniform(b.matrix)
  }

  datatype Pinch = Pinch(view: Matrix, baseline: Baseline)

  /** The point halfway between two pointers: as far from one as from the other. */
  function Midpoint(a: Point, b: Point): (m: Point)
    ensures m.x - a.x == b.x - m.x && m.y - a.y == b.y - m.y
  {
    Point((a.x + b.x) * 0.5, (a.y + b.y) * 0.5)
  }

  /** The zoom a pinch frame asks for: the baseline zoom times the ratio of
      the current distance to the baseline distance. */
  function PinchScale(base: Baseline, dist: real): (s: real)
    requires ValidBaseline(base) && base.Baseline? && dist > 0.0
    ensures s > 0.0
  {
    var ratio := dist / base.dist;
    assert ratio > 0.0;
    base.matrix.a * ratio
  }

  /** The matrix of an accepted pinch frame: translate by the moving
      pointer's world delta `d`, then rescale to `s` about the world point `c`
      under the two pointers' midpoint. */
  function PinchMatrix(m: Matrix, d: Point, c: Point, s: real): (r: Matrix)
    requires Uniform(m) && s > 0.0
    ensures Uniform(r) && r.a == s
  {
    var moved := Translate(Translate(m, d.x, d.y), c.x, c.y);
    Translate(moved.(a := s, d := s), -c.x, -c.y)
  }

  /** One pointer-move of a pinch (src/surface.tsx:777-806), given the two
      tracked pointers `a` and `b` after the update, their distance `dist`,
      and the moving pointer's screen delta. A zero distance is ignored; the
      first frame records the baseline; later frames rescale unless the new
      zoom falls outside `[minZoom, maxZoom]`. */
  function PinchFrame(st: Pinch, a: Point, b: Point, delta: Point, dist: real, minZoom: real, maxZoom: real): (r: Pinch)
    requires Uniform(st.view) && ValidBaseline(st.baseline) && dist >= 0.0
    ensures Uniform(r.view) && ValidBaseline(r.baseline)
    ensures dist == 0.0 ==> r == st
    ensures dist > 0.0 && st.baseline.NoBaseline? ==> r == Pinch(st.view, Baseline(dist, st.view))
    ensures st.baseline.Baseline? ==> r.baseline == st.baseline
    ensures st.baseline.Baseline? && dist > 0.0 ==>
      var s := PinchScale(st.baseline, dist);
      if s < minZoom || s > maxZoom then r == st else r.view.a == s && minZoom <= r.view.a <= maxZoom
  {
    if dist == 0.0 then st
    else if st.baseline.NoBaseline? then Pinch(st.view, Baseline(dist, st.view))
    else
      var s := PinchScale(st.baseline, dist);
      if s < minZoom || s > maxZoom then st
      else
        var d := DivideBy(delta, st.view.a);
        var c := Normalize(st.view, Midpoint(a, b));
        Pinch(PinchMatrix(st.view, d, c, s), st.baseline)
  }

  /** An accepted pinch frame keeps the world point under the pointers'
      midpoint glued to the midpoint shifted by the moving pointer's delta. */
  lemma PinchFollowsMidpoint(st: Pinch, a: Point, b: Point, delta: Point, dist: real, minZoom: real, maxZoom: real)
    requires Uniform(st.view) && ValidBaseline(st.baseline) && dist > 0.0 && st.baseline.Baseline?
    requires minZoom <= PinchScale(st.baseline, dist) <= maxZoom
    ensures Apply(PinchFrame(st, a, b, delta, dist, minZoom, maxZoom).view, Normalize(st.view, Midpoint(a, b)))
         == Midpoint(a, b).Translate(delta)
  {
    var m := st.view;
    var s := PinchScale(st.baseline, dist);
    var d := DivideBy(delta, m.a);
    var mid := Midpoint(a, b);
    var c := Normalize(m, mid);
    var moved := Translate(Translate(m, d.x, d.y), c.x, c.y);
    PinchMatrixFixes(m, d, c, s);
    TranslateComposes(Translate(m, d.x, d.y), c.x, c.y, Point(0.0, 0.0));
    TranslateComposes(m, d.x, d.y, c);
    ShiftedImage(m, c, d);
    ApplyNormalize(m, mid);
  }

  /** The rescaling step leaves the image of `c` where the translated matrix
      put the world origin's shifted copy. */
  lemma PinchMatrixFixes(m: Matrix, d: Point, c: Point, s: real)
    requires Uniform(m) && s > 0.0
    ensures Apply(PinchMatrix(m, d, c, s), c) == Apply(Translate(Translate(m, d.x, d.y), c.x, c.y), Point(0.0, 0.0))
  {
    var moved := Translate(Translate(m, d.x, d.y), c.x, c.y);
    var scaled := moved.(a := s, d := s);
    TranslateComposes(scaled, -c.x, -c.y, c);
    assert c.Translate(Point(-c.x, -c.y)) == Point(0.0, 0.0);
  }

  // -------------------------------------------------------------- wheel

  /** The wheel's zoom-factor gate and clamps (src/surface.tsx:833-835,
      src/surface.ts:609-611). The factor applies only if the zoom is above
      the minimum or the factor zooms in, and below the maximum or the
      factor zooms out; a factor that would leave the range is replaced by
      the one that lands exactly on the bound. `None` when the gate is shut. */
  function WheelFactor(a: real, z: JsNumber, minZoom: real, maxZoom: real): (r: Option<JsNumber>)
    requires a > 0.0
    ensures r.Some? <==> (a > minZoom || Above(z, 1.0)) && (a < maxZoom || Below(z, 1.0))
    ensures r.Some? && z.NaN? ==> r.value.NaN?
    ensures r.Some? && !z.NaN? ==> r.value.Num?
  {
    if !((a > minZoom || Above(z, 1.0)) && (a < maxZoom || Below(z, 1.0))) then None
    else
      var z1 := if Below(Times(a, z), minZoom) then Num(minZoom / a) else z;
      var z2 := if Above(Times(a, z1), maxZoom) then Num(maxZoom / a) else z1;
      Some(z2)
  }

  /** A clamped factor always lands the zoom inside the bounds, whatever the
      zoom was before: it moves toward the range and stops at its edge. */
  lemma WheelFactorInRange(a: real, z: JsNumber, minZoom: real, maxZoom: real)
    requires a > 0.0 && minZoom <= maxZoom
    ensures var r := WheelFactor(a, z, minZoom, maxZoom);
      r.Some? && r.value.Num? ==> minZoom <= a * r.value.v <= maxZoom
  {
    var r := WheelFactor(a, z, minZoom, maxZoom);
    if r.Some? && r.value.Num? {
      var low := Below(Times(a, z), minZoom);
      var z1 := if low then Num(minZoom / a) else z;
      if Above(Times(a, z1), maxZoom) {
        assert r.value.v == maxZoom / a;
        DivMulLeft(maxZoom, a);
      } else if low {
        assert r.value.v == minZoom / a;
        DivMulLeft(minZoom, a);
        assert !Above(Num(minZoom), maxZoom);
      } else {
        assert r.value == z && Times(a, z) == Num(a * z.v);
      }
    }
  }

  lemma DivMulLeft(x: real, a: real)
    requires a > 0.0
    ensures a * (x / a) == x
  {
  }

  /** `m.translate(p).scale(k).translate(-p)`: zoom by `k` about the world point `p`. */
  function ZoomAbout(m: Matrix, p: Point, k: real): (r: Matrix)
    requires Uniform(m) && k > 0.0
    ensures Uniform(r) && r.a == m.a * k
  {
    assert m.a * k > 0.0;
    Translate(Scale(Translate(m, p.x, p.y), k), -p.x, -p.y)
  }

  /** Zooming about a world point leaves that point's image where it was. */
  lemma ZoomAboutFixes(m: Matrix, p: Point, k: real)
    requires Uniform(m) && k > 0.0
    ensures Apply(ZoomAbout(m, p, k), p) == Apply(m, p)
  {
    var t := Translate(m, p.x, p.y);
    TranslateComposes(Scale(t, k), -p.x, -p.y, p);
    assert p.Translate(Point(-p.x, -p.y)) == Point(0.0, 0.0);
    ScaleComposes(t, k, Point(0.0, 0.0));
    assert Point(0.0, 0.0).Scale(k) == Point(0.0, 0.0);
    TranslateComposes(m, p.x, p.y, Point(0.0, 0.0));
  }

  /** The newer wheel (src/surface.tsx:831-850): the factor is gated and
      clamped, a non-finite factor is dropped, and the matrix zooms about
      the world point under the pivot (the pointer, or the frame's center
      over the minimap). `None` when the matrix stays as it was. */
  function Wheel(m: Matrix, z: JsNumber, pivot: Point, minZoom: real, maxZoom: real): (r: Option<Matrix>)
    requires Uniform(m) && 0.0 < minZoom <= maxZoom
    ensures r.Some? ==> Uniform(r.value) && minZoom <= r.value.a <= maxZoom
    ensures z.NaN? ==> r.None?
  {
    var f := WheelFactor(m.a, z, minZoom, maxZoom);
    if f.Some? && f.value.Num? then
      WheelFactorSpec(m.a, z, minZoom, maxZoom);
      Some(ZoomAbout(m, Normalize(m, pivot), f.value.v))
    else
      None
  }

  /** A factor that survives the gate and the clamps is positive and lands
      the zoom inside the bounds. */
  lemma WheelFactorSpec(a: real, z: JsNumber, minZoom: real, maxZoom: real)
    requires a > 0.0 && 0.0 < minZoom <= maxZoom
    ensures var r := WheelFactor(a, z, minZoom, maxZoom);
      r.Some? && r.value.Num? ==> r.value.v > 0.0 && minZoom <= a * r.value.v <= maxZoom
  {
    var r := WheelFactor(a, z, minZoom, maxZoom);
    WheelFactorInRange(a, z, minZoom, maxZoom);
    if r.Some? && r.value.Num? {
      PositiveFactor(a, r.value.v, minZoom);
    }
  }

  lemma PositiveFactor(a: real, k: real, lo: real)
    requires a > 0.0 && lo > 0.0 && lo <= a * k
    ensures k > 0.0
  {
  }

  /** The wheel keeps the pivot still: the world point under it before the
      zoom is under it after. */
  lemma WheelFixesPivot(m: Matrix, z: JsNumber, pivot: Point, minZoom: real, maxZoom: real)
    requires Uniform(m) && 0.0 < minZoom <= maxZoom
    requires Wheel(m, z, pivot, minZoom, maxZoom).Some?
    ensures Apply(Wheel(m, z, pivot, minZoom, maxZoom).value, Normalize(m, pivot)) == pivot
  {
    var k := WheelFactor(m.a, z, minZoom, maxZoom).value.v;
    WheelFactorSpec(m.a, z, minZoom, maxZoom);
    ZoomAboutFixes(m, Normalize(m, pivot), k);
    ApplyNormalize(m, pivot);
  }

  /** An infinite factor is not dropped by the finiteness check: the clamp
      has already replaced it by the bound it points at. */
  lemma WheelInfinityClamps(m: Matrix, pivot: Point, minZoom: real, maxZoom: real)
    requires Uniform(m) && 0.0 < minZoom <= maxZoom && m.a < maxZoom
    ensures Wheel(m, PosInf, pivot, minZoom, maxZoom).Some?
    ensures Wheel(m, PosInf, pivot, minZoom, maxZoom).value.a == maxZoom
  {
    DivMulLeft(maxZoom, m.a);
  }

  /** The view matrix of the older surface, which can be poisoned by NaN. */
  datatype LegacyMatrix = Finite(m: Matrix) | NaNMatrix

  /** The older surface's view: its matrix and the centering target it is
      animating toward. */
  datatype LegacyView = LegacyView(matrix: LegacyMatrix, target: Option<Matrix>)

  /** The older wheel as written (src/surface.ts:591-625): the same gate and
      clamps, but no finiteness check, so a NaN factor is applied and every
      component of the matrix becomes NaN. The pending centering target is
      always dropped. */
  function LegacyWheelAsWritten(v: LegacyView, z: JsNumber, pivot: Point, minZoom: real, maxZoom: real): (r: LegacyView)
    requires v.matrix.Finite? ==> Uniform(v.matrix.m)
    requires 0.0 < minZoom <= maxZoom
    ensures r.target.None?
  {
    match v.matrix
    case NaNMatrix => LegacyView(NaNMatrix, None)
    case Finite(m) =>
      var f := WheelFactor(m.a, z, minZoom, maxZoom);
      if f.None? then LegacyView(v.matrix, None)
      else if f.value.Num? then
        WheelFactorSpec(m.a, z, minZoom, maxZoom);
        LegacyView(Finite(ZoomAbout(m, Normalize(m, pivot), f.value.v)), None)
      else
        LegacyView(NaNMatrix, None)
  }

  /** At zoom 1 with the default bounds, a NaN factor passes the gate (both
      comparisons on the zoom alone hold) and wipes out the view. */
  lemma LegacyWheelPoisoned()
    ensures LegacyWheelAsWritten(LegacyView(Finite(UniformMatrix(1.0, 0.0, 0.0)), None), NaN, Point(0.0, 0.0), 0.1, 10.0).matrix.NaNMatrix?
  {
  }

  /** The older wheel with the finiteness check of the newer one: a finite
      view stays finite, and a zoom that changes lands inside the bounds. */
  function LegacyWheel(v: LegacyView, z: JsNumber, pivot: Point, minZoom: real, maxZoom: real): (r: LegacyView)
    requires v.matrix.Finite? ==> Uniform(v.matrix.m)
    requires 0.0 < minZoom <= maxZoom
    ensures r.target.None?
    ensures v.matrix.Finite? ==> r.matrix.Finite? && Uniform(r.matrix.m)
    ensures v.matrix.Finite? && r.matrix != v.matrix ==> minZoom <= r.matrix.m.a <= maxZoom
    ensures v.matrix.Finite? ==> r.matrix == (match Wheel(v.matrix.m, z, pivot, minZoom, maxZoom)
                                              case Some(m') => Finite(m')
                                              case None => v.matrix)
  {
    match v.matrix
    case NaNMatrix => LegacyView(NaNMatrix, None)
    case Finite(m) =>
      match Wheel(m, z, pivot, minZoom, maxZoom)
      case Some(m') => LegacyView(Finite(m'), None)
      case None => LegacyView(v.matrix, None)
  }

  /** The corrected older wheel agrees with the as-written one on every
      finite factor. */
  lemma LegacyWheelAgreesOnFinite(v: LegacyView, k: real, pivot: Point, minZoom: real, maxZoom: real)
    requires v.matrix.Finite? && Uniform(v.matrix.m) && 0.0 < minZoom <= maxZoom
    ensures LegacyWheel(v, Num(k), pivot, minZoom, maxZoom) == LegacyWheelAsWritten(v, Num(k), pivot, minZoom, maxZoom)
  {
  }

  // ------------------------------------------------------------ centering

  /** The zoom that fits a `w` x `h` box into `frame`: the
      smaller of the two ratios, so the box fits on both axes and touches
      the frame on one. */
  function FitScale(frame: Point, w: real, h: real): (s: real)
    requires frame.x > 0.0 && frame.y > 0.0 && w > 0.0 && h > 0.0
    ensures s > 0.0
    ensures FitsIn(s, w, h, frame) && Touches(s, w, h, frame)
  {
    var fw := frame.x;
    var fh := frame.y;
    var sx := fw / w;
    var sy := fh / h;
    DivMul(fw, w);
    DivMul(fh, h);
    if sx <= sy then
      MulAtMost(sx, sy, h);
      sx
    else
      MulAtMost(sy, sx, w);
      sy
  }

  /** A zoom no larger than a fitting one still fits. */
  lemma SmallerScaleFits(s: real, t: real, w: real, bound: real)
    requires 0.0 < t <= s && w >= 0.0 && s * w <= bound
    ensures t * w <= bound
  {
    if w > 0.0 {
      MulAtMost(t, s, w);
    }
  }

  /** The padding of a centered rectangle: `pct` of its larger side. */
  function Padding(r: Rect, pct: real): (p: real)
    requires r.width >= 0.0 && r.height >= 0.0 && pct >= 0.0
    ensures p >= 0.0
    ensures p >= r.width * pct && p >= r.height * pct
    ensures p == r.width * pct || p == r.height * pct
  {
    NonNegProduct(r.width, pct);
    NonNegProduct(r.height, pct);
    Max(r.width * pct, r.height * pct)
  }

  lemma NonNegProduct(x: real, c: real)
    requires x >= 0.0 && c >= 0.0
    ensures x * c >= 0.0
  {
  }

  /** A matrix that translates, then scales: `new DOMMatrix().translate(t).scale(s)`. */
  function TranslateThenScale(t: Point, s: real): (m: Matrix)
    requires s > 0.0
    ensures m == UniformMatrix(s, t.x, t.y)
  {
    Scale(Translate(Matrix(1.0, 0.0, 0.0, 1.0, 0.0, 0.0), t.x, t.y), s)
  }

  /** One axis of the capped fit: `min(f / w, cap)`, where a zero extent
      divides to infinity and leaves the cap. */
  function AxisCap(f: real, w: real, cap: real): (s: real)
    requires f > 0.0 && w >= 0.0 && cap > 0.0
    ensures 0.0 < s <= cap && s * w <= f
    ensures s == cap || s * w == f
  {
    if w == 0.0 then cap
    else
      DivMul(f, w);
      if f / w <= cap then f / w
      else
        MulAtMost(cap, f / w, w);
        cap
  }

  /** The zoom that fits a `w` x `h` box into `frame`, capped at
      1: the smaller of the two capped axis ratios. The box fits on both
      axes, and the zoom is 1 or the box touches the frame on one axis. */
  function CappedFitScale(frame: Point, w: real, h: real): (s: real)
    requires frame.x > 0.0 && frame.y > 0.0 && w >= 0.0 && h >= 0.0
    ensures 0.0 < s <= 1.0
    ensures FitsIn(s, w, h, frame)
    ensures s == 1.0 || Touches(s, w, h, frame)
  {
    var fw := frame.x;
    var fh := frame.y;
    var sx := AxisCap(fw, w, 1.0);
    var sy := AxisCap(fh, h, 1.0);
    if sx <= sy then
      SmallerScaleFits(sy, sx, h, fh);
      sx
    else
      SmallerScaleFits(sx, sy, w, fw);
      sy
  }

  /** The zoom of the newer `getCenterMatrix`: the rectangle grown by its
      padding fits in the frame at that zoom, and the zoom is as large as the
      fit and the cap at 1 allow. */
  function CenterScale(frame: Point, target: Rect, pct: real): (s: real)
    requires frame.x > 0.0 && frame.y > 0.0 && target.width >= 0.0 && target.height >= 0.0 && pct >= 0.0
    ensures 0.0 < s <= 1.0
    ensures PaddedFits(s, target, Padding(target, pct), frame)
    ensures s == 1.0 || Touches(s, target.width + Padding(target, pct), target.height + Padding(target, pct), frame)
  {
    var padding := Padding(target, pct);
    CappedFitScale(frame, target.width + padding, target.height + padding)
  }

  /** A wider extent never gets a larger capped axis ratio. */
  lemma {:induction false} AxisCapAntitone(f: real, w1: real, w2: real, cap: real)
    requires f > 0.0 && 0.0 <= w1 <= w2 && cap > 0.0
    ensures AxisCap(f, w2, cap) <= AxisCap(f, w1, cap)
  {
    var s1 := AxisCap(f, w1, cap);
    var s2 := AxisCap(f, w2, cap);
    if s1 != cap {
      TightScaleIsLargest(s1, s2, w1, w2, f);
    }
  }

  /** A zoom that fits a wider extent is at most the zoom that exactly
      fills the narrower one. */
  lemma TightScaleIsLargest(s1: real, s2: real, w1: real, w2: real, f: real)
    requires 0.0 < w1 <= w2 && s2 > 0.0 && s1 * w1 == f && s2 * w2 <= f
    ensures s2 <= s1
  {
    MulAtMost(w1, w2, s2);
    assert w1 * s2 <= w1 * s1;
    MulMonotone(w1, s2, s1);
  }

  /** A larger box never gets a larger capped fit. */
  lemma {:induction false} CappedFitScaleAntitone(frame: Point, w1: real, h1: real, w2: real, h2: real)
    requires frame.x > 0.0 && frame.y > 0.0 && 0.0 <= w1 <= w2 && 0.0 <= h1 <= h2
    ensures CappedFitScale(frame, w2, h2) <= CappedFitScale(frame, w1, h1)
  {
    AxisCapAntitone(frame.x, w1, w2, 1.0);
    AxisCapAntitone(frame.y, h1, h2, 1.0);
  }

  /** More padding never zooms in further: the centering zoom is
      antitone in the padding fraction. */
  lemma {:induction false} CenterScaleAntitone(frame: Point, target: Rect, p1: real, p2: real)
    requires frame.x > 0.0 && frame.y > 0.0 && target.width >= 0.0 && target.height >= 0.0
    requires 0.0 <= p1 <= p2
    ensures CenterScale(frame, target, p2) <= CenterScale(frame, target, p1)
  {
    var q1 := Padding(target, p1);
    var q2 := Padding(target, p2);
    assert q1 <= q2 by {
      MulAtMost(p1, p2, target.width + 1.0);
      MulAtMost(p1, p2, target.height + 1.0);
      assert target.width * p1 <= target.width * p2;
      assert target.height * p1 <= target.height * p2;
    }
    CappedFitScaleAntitone(frame, target.width + q1, target.height + q1, target.width + q2, target.height + q2);
  }

  /** The newer `getCenterMatrix` (src/surface.tsx:489-509): the rectangle is
      grown by its padding on width and height, zoomed to fit the frame but
      never above 1, and its center put at the center of the frame. */
  function CenterMatrix(frame: Point, target: Rect, pct: real): (m: Matrix)
    requires frame.x > 0.0 && frame.y > 0.0 && target.width >= 0.0 && target.height >= 0.0 && pct >= 0.0
    ensures Uniform(m) && m.a <= 1.0 && m.a == CenterScale(frame, target, pct)
    ensures Apply(m, target.Center()) == Point(frame.x * 0.5, frame.y * 0.5)
    ensures Frames(m, target, frame, pct)
  {
    CenteredAt(frame, target, Padding(target, pct), CenterScale(frame, target, pct))
  }

  /** The matrix `getCenterMatrix` builds once the padding and the zoom `s`
      are known: translate so that the grown rectangle's center, corrected
      by half the padding, lands on the frame's center, then scale by `s`. */
  function CenteredAt(frame: Point, target: Rect, padding: real, s: real): (m: Matrix)
    requires s > 0.0
    ensures Uniform(m) && m.a == s
    ensures Apply(m, target.Center()) == Point(frame.x * 0.5, frame.y * 0.5)
  {
    var scaled := Rect(target.x, target.y, target.width + padding, target.height + padding);
    var t := scaled.Center().Negate().Translate(Point(padding * 0.5, padding * 0.5))
                    .Scale(s).Translate(frame.Scale(0.5));
    var m := TranslateThenScale(t, s);
    var c := target.Center();
    assert s * c.x + t.x == frame.x * 0.5 by {
      assert t.x == (-(target.x + (target.width + padding) / 2.0) + padding * 0.5) * s + frame.x * 0.5;
      CenterAxis(target.x, target.width, padding, s, frame.x * 0.5);
    }
    assert s * c.y + t.y == frame.y * 0.5 by {
      assert t.y == (-(target.y + (target.height + padding) / 2.0) + padding * 0.5) * s + frame.y * 0.5;
      CenterAxis(target.y, target.height, padding, s, frame.y * 0.5);
    }
    UniformApply(m, c);
    m
  }

  /** `view` frames `target` in a frame of size `frame` with padding
      fraction `pct`: the target's center sits at the frame's center, and the
      target grown by its padding fits inside the frame. */
  predicate Frames(view: Matrix, target: Rect, frame: Point, pct: real)
    requires target.width >= 0.0 && target.height >= 0.0 && pct >= 0.0
  {
    && Apply(view, target.Center()) == Point(frame.x * 0.5, frame.y * 0.5)
    && PaddedFits(view.a, target, Padding(target, pct), frame)
  }

  /** At zoom `s`, `target` grown by `p` on width and height fits in a frame
      of size `frame`. */
  predicate PaddedFits(s: real, target: Rect, p: real, frame: Point) {
    FitsIn(s, target.width + p, target.height + p, frame)
  }

  /** At zoom `s`, a `w` x `h` box fits in a frame of size `frame`. */
  predicate FitsIn(s: real, w: real, h: real, frame: Point) {
    s * w <= frame.x && s * h <= frame.y
  }

  /** At zoom `s`, a `w` x `h` box spans the frame on at least one axis. */
  predicate Touches(s: real, w: real, h: real, frame: Point) {
    s * w == frame.x || s * h == frame.y
  }

  /** A uniform matrix maps each axis on its own. */
  lemma UniformApply(m: Matrix, p: Point)
    requires Uniform(m)
    ensures Apply(m, p) == Point(m.a * p.x + m.e, m.a * p.y + m.f)
  {
  }

  /** One axis of the centering translation: the grown rectangle's center,
      corrected by half the padding, is the original center. */
  lemma CenterAxis(x: real, w: real, p: real, s: real, half: real)
    ensures s * (x + w / 2.0) + ((-(x + (w + p) / 2.0) + p * 0.5) * s + half) == half
  {
    assert -(x + (w + p) / 2.0) + p * 0.5 == -(x + w / 2.0);
    assert (-(x + w / 2.0)) * s == -(s * (x + w / 2.0));
  }

  /** The padding fraction used by the older `getCenterMatrix`. */
  const LegacyPaddingPct: real := 0.03

  /** A rectangle the older centering can frame: not both sides zero. With
      one side zero the padding of the other keeps both padded sides
      positive; with both zero the source divides zero by zero. */
  predicate LegacySized(rect: Rect) {
    rect.width >= 0.0 && rect.height >= 0.0 && rect.width + rect.height > 0.0
  }

  /** The older `getCenterMatrix` (src/surface.ts:221-250): the same padding
      and centering, for a rectangle in page coordinates (`offset` is the
      surface's page offset and `inner` the size of its content box), with
      no cap on the zoom. The rectangle's center, taken relative to the
      surface, lands at the center of the content box, and the padded
      rectangle fits the content box exactly on one axis. */
  function LegacyCenterMatrix(inner: Point, offset: Point, rect: Rect): (m: Matrix)
    requires inner.x > 0.0 && inner.y > 0.0 && LegacySized(rect)
    ensures Uniform(m)
    ensures Apply(m, rect.Center().Screen(offset)) == Point(inner.x * 0.5, inner.y * 0.5)
    ensures PaddedFits(m.a, rect, Padding(rect, LegacyPaddingPct), inner)
    ensures Touches(m.a, rect.width + Padding(rect, LegacyPaddingPct), rect.height + Padding(rect, LegacyPaddingPct), inner)
  {
    var padding := Padding(rect, LegacyPaddingPct);
    var s := FitScale(inner, rect.width + padding, rect.height + padding);
    LegacyCenteredAt(inner, offset, rect, padding, s)
  }

  /** The matrix the older `getCenterMatrix` builds once the padding and the
      zoom `s` are known: the grown rectangle's center, shifted to surface
      coordinates and corrected by half the padding, lands on the center of
      the content box. */
  function LegacyCenteredAt(inner: Point, offset: Point, rect: Rect, padding: real, s: real): (m: Matrix)
    requires s > 0.0
    ensures Uniform(m) && m.a == s
    ensures Apply(m, rect.Center().Screen(offset)) == Point(inner.x * 0.5, inner.y * 0.5)
  {
    var w := rect.width + padding;
    var h := rect.height + padding;
    var center := Point(rect.x + w * 0.5, rect.y + h * 0.5);
    var m := UniformMatrix(s, (-center.x + offset.x + padding * 0.5) * s + inner.x * 0.5,
                              (-center.y + offset.y + padding * 0.5) * s + inner.y * 0.5);
    var q := rect.Center().Screen(offset);
    assert q.x == rect.x + rect.width / 2.0 - offset.x && q.y == rect.y + rect.height / 2.0 - offset.y;
    assert s * q.x + m.e == inner.x * 0.5 by {
      LegacyCenterAxis(rect.x, rect.width, padding, offset.x, s, inner.x * 0.5);
    }
    assert s * q.y + m.f == inner.y * 0.5 by {
      LegacyCenterAxis(rect.y, rect.height, padding, offset.y, s, inner.y * 0.5);
    }
    UniformApply(m, q);
    m
  }

  lemma LegacyCenterAxis(x: real, w: real, p: real, o: real, s: real, half: real)
    ensures s * (x + w / 2.0 - o) + ((-(x + (w + p) * 0.5) + o + p * 0.5) * s + half) == half
  {
    assert -(x + (w + p) * 0.5) + o + p * 0.5 == -(x + w / 2.0 - o);
    assert (-(x + w / 2.0 - o)) * s == -(s * (x + w / 2.0 - o));
  }
}

=== FILE: wrappers.dfy ===
/** Optional values and results with an error, for the places where the
    source either has nothing yet or throws. */
module Wrappers {

  datatype Option<T> = None | Some(value: T)

  datatype Result<T, E> = Ok(value: T) | Err(error: E)
}
